=== FILE: README.md ===
# Rapport-Joueur: a Dafny model of the dashboard's computations

Rapport-Joueur is a Streamlit dashboard for football performance staff. A workbook
exported from GPS tracking holds a "CSV" sheet with one row per player and match, a
"Poste" sheet with each player's position, and a "Constante" sheet with reference values
per indicator and position. Each screen checks that the sheets it needs are there. It
then filters a player's matches by duration and adds derived columns. There is one rule
set for the women's team ("Pôle Féminin", `PFtest.py`) and one for the men's
("Pôle Masculin", `PMtest.py`). The screens then draw the selected graphs against the
reference values, produce a PDF report, draw a heat map of the player's positions, or
compare two players side by side. A separate page reads a heart-rate recording and
computes the recovery after the peak. An entry page routes between the screens.

This project models those computations as pure Dafny functions over exact reals,
sequences and maps, and proves what they promise:

| file | module | models |
|---|---|---|
| common.dfy | `Common` | `Option`/`Result`, boolean-mask filtering (`Filter`), `max`/`min`, `drop_duplicates` (`Unique`), converting every element of a list (`MapAll`) |
| text.dfy | `Text` | `str.split`/`join`, `strip`, `float()` and `int()` on decimal tokens, `str(n)` |
| frames.dfy | `Frames` | cells (a number or NaN), columns and their headers, rows, pandas arithmetic (`/`, `fillna`, `replace(0, 1)`, NaN-skipping row sums), `filter_duration` |
| workbook.dfy | `Workbook` | the required-sheet checks of `load_excel` |
| constants.dfy | `Constants` | `get_feminine_constants` / `get_masculine_constants` and the lookups into their result |
| feminine.dfy | `Feminine` | the feminine `compute_additional_columns` |
| masculine.dfy | `Masculine` | the masculine `compute_additional_columns` |
| charts.dfy | `Charts` | `plot_feminine_graph` / `plot_masculine_graph`: which chart a graph name gives, its values, reference line and bar stacking |
| heatmap.dfy | `Heatmap` | the heat-map pipeline of the GPS screen: field parsing, length check, metres to pixels, kernel accumulation, normalisation |
| report.dfy | `Report` | `generate_report_with_background`: text colour, subtitle, summary numbering, pages of two charts, the data table |
| recovery.dfy | `Recovery` | the heart-rate recovery page |
| router.dfy | `Router` | the entry page's `st.session_state.page` navigation |
| comparison.dfy | `Comparison` | the side-by-side comparison page, and the graph lists and selections of the single-player screens |

A derived-column rule writes a column only when the columns it reads are present. The
rules are modelled per column (`Rule`, `Fires`), so that "the rules read only their
sources" and "applying the computation twice changes nothing" are lemmas about the model.
The Gaussian of the heat map is an abstract kernel: a function of the squared pixel
distance that is never negative and is positive at distance 0.

Three places where the code and a natural reading of the system differ are modelled as
the code is written:

- The heat map does not skip samples that fall outside the pitch. Every sample adds its
  influence, wherever its centre lies (`Heatmap.Raster`). Nothing guards the division by
  the maximum when there are no samples either; that case yields no map
  (`Heatmap.NoSamplesNoMap`).
- The feminine rule for "Distance > 19km/h" assigns the column to itself, so it is the
  identity. The feminine graph "Distance>19km/h" is a raw sheet column
  (`Frames.MergeUnchanged`, `Feminine.DeriveIdempotent`).
- The comparison page offers the feminine graph lists whichever module a column picks.
  Under the masculine module, the feminine derived columns are never written, so those
  graphs show the "not available" message unless the sheet already has such a column
  (`Comparison.FeminineNameUnderMasculineModule`, `Comparison.TeamsWriteDifferentColumns`).

The report of `TESTMAIN.py` ends with the data table, and its feminine general list
offers "Tableau des données" as an extra entry. `Report.Generate` covers the table with
its `withTable` flag. The report of `INVENT.py` has no table.

## Model

| member | source | states |
|---|---|---|
| Common.Filter | INVENT.py:79-81 | a boolean mask keeps exactly the elements that pass, in their original order, each as often as it occurs |
| Common.Max | ANALYSE.py:70 | the maximum of a non-empty sequence bounds every element and is one of them |
| Common.Min | ANALYSE.py:72 | the minimum of a non-empty sequence bounds every element from below and is one of them |
| Common.Unique | essaiCompa.py:90 | `drop_duplicates` has no repeated value, keeps every value of the column, and adds none |
| Common.MapAll | INVENT.py:342 | `list(map(float, …))` succeeds exactly when every element converts, giving one converted value per element, in order |
| Common.UniqueInOrder | essaiCompa.py:90 | `drop_duplicates` lists values in order of first appearance: a value listed earlier occurs before any occurrence of a value listed later |
| Text.Split | INVENT.py:342 | `split(";")` yields one piece more than there are separators, no piece holds a separator, and joining the pieces gives back the text |
| Text.SplitJoin | INVENT.py:342 | splitting a join of separator-free pieces gives back the pieces |
| Text.NatToString | INVENT.py:77 | the decimal spelling of a natural number is all digits, with two or more digits exactly for numbers from 10 up |
| Text.DigitsOfNat | INVENT.py:119 | reading back the digits of a printed number gives the number |
| Text.StripStart | INVENT.py:342 | the text of a token starts after a run of whitespace and at a non-space character |
| Text.StripEnd | INVENT.py:342 | the text of a token ends before a run of whitespace and after a non-space character |
| Text.Strip | INVENT.py:342 | stripping whitespace keeps every non-space character, adds none, and leaves no space at either end |
| Text.StripIsSlice | INVENT.py:342 | the stripped token is one contiguous slice of the token with only whitespace before and after it |
| Text.StripSurrounding | INVENT.py:342 | whitespace around a token without whitespace is stripped away exactly, giving the token back |
| Text.ParseNumber | INVENT.py:342 | `float()` accepts only a token holding a digit; the empty token (a trailing `;`) is rejected |
| Text.ParseSigned | INVENT.py:342 | a stripped token is read with an optional sign and accepted only when it holds a digit |
| Text.ParseNumberIgnoresSpaces | INVENT.py:342 | `float()` gives the same result with or without whitespace around the token |
| Text.UnsignedDecimal | INVENT.py:342 | digits, a point and fraction digits read as the whole part plus the fraction |
| Text.SignedToken | INVENT.py:342 | a leading `-` negates the value of the rest of a token without spaces, and a leading `+` keeps it |
| Text.SignedDecimal | INVENT.py:342 | a signed printed number with a fractional part reads back as that number with its sign |
| Text.SignedWhole | INVENT.py:342 | a signed printed whole number reads back as that number with its sign |
| Text.ParseInteger | INVENT.py:119 | `int()` rejects the empty token |
| Text.UnsignedAccepts | INVENT.py:342 | the unsigned part reads exactly when it is digits with at most one decimal point and at least one digit |
| Text.SignedAccepts | INVENT.py:342 | a stripped token reads exactly when it is such digits, optionally after one `-` or `+` |
| Text.ParseNumberAccepts | INVENT.py:342 | `float()` reads a token exactly when it is whitespace, an optional sign, digits with at most one point and at least one digit, then whitespace; every other token is rejected (the forms Python also reads are under "Left out") |
| Text.ParseIntegerAccepts | INVENT.py:119 | `int()` reads a token exactly when it is whitespace, an optional sign, a non-empty run of ASCII digits, then whitespace; every other token is rejected (the forms Python also reads are under "Left out") |
| Text.StripAroundLiteral | INVENT.py:342 | stripping a literal between runs of whitespace leaves exactly the literal |
| Text.UnsignedDigits | INVENT.py:342 | `float()` reads a non-empty run of digits as its integer value |
| Text.NatRoundTrip | INVENT.py:119 | `int()` and `float()` read a printed natural number back as that number |
| Frames.Times | PFtest.py:35 | multiplying by a constant keeps a missing value missing and a number a number |
| Frames.Quot | PFtest.py:32 | a quotient is defined exactly when both sides are numbers and the divisor is not zero |
| Frames.QuotInverse | PFtest.py:32 | a defined quotient times the divisor is the dividend, and zero divided stays zero |
| Frames.FillNa | PMtest.py:30 | `fillna(d)` always gives a number: the cell's own when there is one, `d` otherwise |
| Frames.ReplaceZero | PMtest.py:30 | `replace(0, 1)` keeps a missing value missing, never yields zero, and leaves other numbers alone |
| Frames.PerMinute | PFtest.py:32 | `x / (Durée / 60)` is defined exactly when both are numbers and the duration is not zero |
| Frames.PerMinuteInverse | PFtest.py:40-44 | a defined per-minute rate times the duration in minutes is the total it spreads |
| Frames.RowSum | PFtest.py:23 | `sum(axis=1)` over present columns is always a number, since missing cells are skipped |
| Frames.RowSumOfThree | PFtest.py:22-26 | the row sum over three numeric band cells is their ordinary sum |
| Frames.SumValuesAppend | PMtest.py:35-36 | row sums add up over concatenated column lists |
| Frames.SumValuesBoundsEach | PMtest.py:35-42 | a sum of non-negative counts is at least each of them |
| Frames.MergeUnchanged | PFtest.py:28-29 | writing into columns the values they already hold leaves the row unchanged |
| Frames.SumIfAllAgrees | PFtest.py:22-23 | two rows that agree on the band columns have the same presence test and the same band sum |
| Frames.KeepLong | INVENT.py:79-81 | `filter_duration` on any rows: without "Durée" it raises; otherwise it keeps exactly the rows lasting at least 3900 s, in order, each as often as it occurs |
| Frames.FilterDuration | INVENT.py:79-81 | without "Durée" the filter raises; otherwise it keeps exactly the rows lasting at least 3900 s, in order, and the same columns |
| Frames.ApplyDurationChoice | INVENT.py:266-270 | ticking the "< 3900 secondes" box keeps every row; unticked, it raises exactly when "Durée" is missing, and otherwise keeps exactly the long rows, in order, each as often as it occurs |
| Frames.FilterKeepsShape | TESTMAIN.py:44-46 | the filtered frame still has one value per column in every row |
| Workbook.MissingFrom | INVENT.py:41-42 | the missing sheets are exactly the required names absent from the workbook |
| Workbook.LoadSheets | INVENT.py:32-60 | no upload gives "no file"; an upload loads exactly when every required sheet is present, returning them in order, and otherwise reports exactly the missing ones |
| Workbook.LoadAnalysis | INVENT.py:40-54 | the GPS screen loads exactly when "CSV", "Vidéo", "Poste" and "Constante" are all present, returning those four sheets |
| Workbook.LoadEditor | TESTMAIN.py:20-42 | the editor screens load exactly when the chain of name tests passes, returning "CSV", "Poste" and "Constante" |
| Workbook.EditorCheckIsSetDifference | TESTMAIN.py:26-28 | the chain of `not in` tests fails exactly when the set difference of the three required names is non-empty |
| Workbook.EditorAgreesWithSetDifference | essaiCompa.py:48-50 | the editor loader and the generic set-difference loader give the same result on every upload |
| Constants.FirstMissing | PFtest.py:11-16 | the position column reported missing is one of the six and absent from the row |
| Constants.RecordOf | PFtest.py:10-17 | a row gives a record exactly when it has all six position columns; the record has exactly the keys AT, AIL, MIL, DC, DL, GB holding the row's cells; otherwise the error names a missing position |
| Constants.Build | PFtest.py:5-18 | the table builds exactly when every row is complete, and then has one entry per indicator holding the record of the last row with that indicator |
| Constants.DescribesStep | PFtest.py:8-17 | one loop iteration, writing the last row's record, extends a table describing the earlier rows to one describing all rows |
| Constants.BuiltLookup | PMtest.py:6-19 | for a sheet of complete rows, looking up the built table for an indicator yields the last row's cell for a position column, and nothing for another key |
| Constants.ReferenceLine | PFtest.py:111 | `constants.get(graph, {}).get(position)` has a value exactly when both keys are present, and it is the stored value |
| Constants.ConstantOrZero | PMtest.py:64-66 | `.get(…, {}).get(position, 0)` is the stored value, or 0 when either key is missing |
| Constants.IndexedConstant | PFtest.py:63-65 | `constants[indicator].get(position, 0)` raises exactly when the indicator is missing, naming it, and otherwise agrees with the defaulting lookup |
| Feminine.SourcesAreNotDerived | PFtest.py:20-46 | no feminine rule writes a column that a rule reads |
| Feminine.DerivedColumns | PFtest.py:22-44 | the columns written are exactly the derived columns whose source columns are all present |
| Feminine.Derive | PFtest.py:20-46 | the computation raises exactly when "Distance19" is present without "Durée"; otherwise it adds exactly the columns whose rules fire and keeps every other column's value |
| Feminine.Written | PFtest.py:22-44 | a column whose rule fires holds that rule's value |
| Feminine.AccelerationTotals | PFtest.py:22-26 | "Accélérations > 2m/s²" is in the output exactly when the three acceleration bands are (or it already was), and then it is their sum; the same for decelerations |
| Feminine.CountRatesRecoverTotals | PFtest.py:40-44 | for a non-zero duration, each per-minute count times the minutes gives back the band sum |
| Feminine.DistanceRatesRecoverTotals | PFtest.py:31-38 | for a non-zero duration, the distance above 23 km/h per minute times the minutes is 1000 times the kilometres, and the distance above 19 km/h per minute times the minutes is "Distance19" |
| Feminine.ZeroDurationIsUndefined | PFtest.py:31-44 | the feminine rules do not guard the duration: a zero duration leaves all four per-minute columns undefined |
| Feminine.RulesReadSources | PFtest.py:22-44 | two rows that agree on the source columns get the same firing rules and the same rule values |
| Feminine.KeepsSources | PFtest.py:20-46 | the computation leaves every source column as it was |
| Feminine.DeriveIdempotent | PFtest.py:20-46 | applying the computation to its own output changes nothing |
| Masculine.SourcesAreNotDerived | PMtest.py:21-47 | no masculine rule writes a source column |
| Masculine.GuardedPerMinute | PMtest.py:30 | `x / (Durée.replace(0, 1) / 60)` is defined exactly when both cells are numbers, so a zero duration never divides by zero |
| Masculine.GuardedInverse | PMtest.py:30-45 | a guarded rate times the minutes is the total; a zero duration gives 60 times the total, and a zero total gives 0 |
| Masculine.DerivedColumns | PMtest.py:23-45 | the columns written are exactly the derived columns whose rules fire |
| Masculine.Derive | PMtest.py:21-47 | the computation never raises, adds exactly the columns whose rules fire, and keeps every other column's value |
| Masculine.Written | PMtest.py:23-45 | a column whose rule fires holds that rule's value |
| Masculine.TotalsWritten | PMtest.py:35-42 | each total in the output holds the total as it stands once the total rules have run |
| Masculine.RatesReadTheirTotals | PMtest.py:35-45 | each per-minute count is computed from its own total as that call wrote it |
| Masculine.ZeroDurationIsGuarded | PMtest.py:30-45 | whatever the duration, zero included, the guarded rates are numbers; with a zero duration the count rates are 60 times the total |
| Masculine.MissingNumerators | PMtest.py:30-33 | a missing "Dist>20kmh" counts as 0 in its per-minute rate, but a missing "Distance16" leaves its rate undefined |
| Masculine.DistanceRatesRecoverTotals | PMtest.py:26-33 | for a non-zero duration, each per-minute distance times the minutes gives back its distance |
| Masculine.CountRatesRecoverTotals | PMtest.py:38-45 | for a non-zero duration, each per-minute count times the minutes gives back its total, with a missing total read as 0 |
| Masculine.SixBandsSplit | PMtest.py:35-36 | the six-band total is the acceleration band sum plus the deceleration band sum |
| Masculine.TopBandsSum | PMtest.py:41-42 | "Nb Acc/Dec > 4m/s²" is the sum of the two top-band cells |
| Masculine.TopCountWithinAll | PMtest.py:35-42 | with counts that are never negative, the count above 4 m/s² never exceeds the count above 2 m/s² |
| Masculine.RulesReadSources | PMtest.py:23-45 | two rows that agree on the sources and on the two totals get the same firing rules and rule values |
| Masculine.KeepsSources | PMtest.py:21-47 | the computation leaves the source columns as they were, and each total as it stands after the total rules |
| Masculine.DeriveIdempotent | PMtest.py:21-47 | applying the computation to its own output changes nothing |
| Charts.Bottoms | PFtest.py:70-82 | the first bar segment starts at 0, and each next one starts on top of the one before |
| Charts.PositionOf | PFtest.py:60-62 | a player has no position exactly when no "Poste" row names them; otherwise the position is one such row's |
| Charts.PlayerSessions | PFtest.py:50 | the player's sessions are exactly the sheet's rows naming them, with the sheet's columns |
| Charts.DeriveRows | PFtest.py:50-51 | deriving the player's rows raises exactly for the feminine rules on a frame with "Distance19" but no "Durée"; otherwise every row gets the same derived columns, and each row is its team's derivation of that session's cells |
| Charts.LineFor | PFtest.py:101-113 | a line chart is drawn exactly when its column exists after derivation, with one value per row, missing values as 0, and the reference line of the player's position when there is one |
| Charts.LinePlot | PMtest.py:102-125 | the line-chart branch: the warning when the column does not exist after derivation; a `KeyError` when the sheet has no "Session Title"; for the masculine chart, `np.polyfit`'s error when the player has no session; otherwise the chart of `LineFor` |
| Charts.StackConstant | PFtest.py:63-65 | a stacked-diagram constant raises only in the feminine plot, for a missing indicator; otherwise it is the defaulting lookup |
| Charts.StackedFor | PFtest.py:53-96 | the stacked diagram has a three-segment reference bar of the position's constants and, per session row, its three percentages, each stacked from 0 |
| Charts.Plot | PFtest.py:48-121 | which chart a graph name gives: the feminine plot raises on the duration first; a line graph is the line-chart branch over the player's derived sessions; the stacked diagram is the warning without its three sheet columns, then raises without "Session Title", is `StackedFor`'s diagram for a player with a position, and otherwise falls through to the line-chart branch on its own name |
| Charts.ColumnNamed | PFtest.py:101 | the column a graph name plots has that name as its header |
| Charts.ColumnNamedHeader | PFtest.py:101 | every named column is found again from its header |
| Charts.GraphNamed | PFtest.py:53-101 | a graph name is the stacked diagram exactly when it is "Diagramme empilé", and otherwise the line chart of the column with that header |
| Heatmap.SigmaIsNine | INVENT.py:366-368 | the spread of 1 m at 105 m per 945 pixels is exactly 9 pixels |
| Heatmap.ParseCell | INVENT.py:342 | a piece gives a coordinate exactly when `float()` accepts it, and that coordinate is the number read |
| Heatmap.ParsePieces | INVENT.py:342 | the pieces parse exactly when every piece is a number, one coordinate per piece |
| Heatmap.Coordinates | INVENT.py:341-353 | a text field parses exactly when every `;`-piece is a number, giving one more coordinate than separators; a list is taken as it is; a scalar becomes a one-element list |
| Heatmap.Trunc | INVENT.py:372-373 | `int()` truncates toward zero |
| Heatmap.ToPixel | INVENT.py:372-373 | a sample converts exactly when both coordinates are present |
| Heatmap.PitchSampleInRaster | INVENT.py:364-373 | a sample on the 105 × 68 m pitch lands on the 945 × 612 raster |
| Heatmap.ToPixels | INVENT.py:371-373 | every sample converts exactly when all coordinates are present, one pixel per sample |
| Heatmap.Density | INVENT.py:379-384 | the accumulated influence at a cell is never negative |
| Heatmap.DensityCoversEach | INVENT.py:371-384 | each sample's influence is part of the density at every cell |
| Heatmap.DensityRemove | INVENT.py:371-384 | removing one sample anywhere removes exactly its influence |
| Heatmap.DensityOrderFree | INVENT.py:371-384 | the order of the samples does not matter: two sequences with the same samples give the same density |
| Heatmap.Raster | INVENT.py:364-384 | the accumulated raster has the shape of the pitch raster |
| Heatmap.Add | INVENT.py:384 | `heatmap += gauss.T` adds cell by cell |
| Heatmap.RasterStep | INVENT.py:371-384 | adding one sample's influence to the raster of the earlier samples gives the raster of both |
| Heatmap.Accumulate | INVENT.py:364-384 | the loop that starts from zeros and adds each sample's influence computes the raster |
| Heatmap.GridMax | INVENT.py:387 | `np.max` bounds every cell and is one of them |
| Heatmap.Normalise | INVENT.py:387 | normalising fails exactly when the maximum is 0; otherwise every cell times the maximum is the original cell |
| Heatmap.NormalisedCell | INVENT.py:387 | a normalised cell of a non-negative raster lies in [0, 1], and is 1 exactly where the maximum is |
| Heatmap.NormalisedRange | INVENT.py:387 | a normalised non-negative raster lies in [0, 1] and reaches 1 |
| Heatmap.NormalisedIsUnit | INVENT.py:387 | normalising a non-negative raster gives a drawable map |
| Heatmap.RasterNonNegative | INVENT.py:364-384 | the raster of a non-negative kernel is never negative |
| Heatmap.SampleInRasterNormalises | INVENT.py:371-387 | one sample on the raster makes the maximum positive, so the raster normalises |
| Heatmap.NoSamplesNoMap | INVENT.py:361-387 | with no samples the raster is all zero and cannot be normalised |
| Heatmap.Pairs | INVENT.py:355-361 | after the length check the two lists have equal lengths: unchanged when they matched, both emptied otherwise |
| Heatmap.HeatMapOfRow | INVENT.py:336-339 | a sheet without an "X" or a "Y" column makes the module fail (the `KeyError` the `except` at INVENT.py:433-434 reports); with both cells present it is the module on those cells |
| Heatmap.HeatMap | INVENT.py:336-434 | given the X and Y cells of the first row, the module fails exactly when a field does not parse or equally many X and Y values include a missing one; the mismatch warning appears exactly when the lengths differ, with no map; otherwise the map is the samples' raster divided by its maximum, within [0, 1] |
| Heatmap.SingleSampleHottestAtItself | INVENT.py:364-387 | a single sample on the raster normalises to 1 at its own pixel |
| Heatmap.PitchSampleNormalises | INVENT.py:364-386 | present samples with one of them on the pitch give pixels whose density grid has a positive maximum, so it normalises |
| Heatmap.PitchSampleShowsMap | INVENT.py:336-434 | matching, fully present coordinates with one sample on the pitch draw a map |
| Report.TextColour | INVENT.py:72-77 | without a background the text is black; an empty image raises; otherwise white exactly when the mean brightness is below 128 |
| Report.DarkIffTotalBelow | TESTMAIN.py:13-18 | the text is white exactly when the total brightness is below 128 per pixel |
| Report.RgbReadsBack | INVENT.py:119 | three numbers written with commas between them read back as those numbers |
| Report.ColourTexts | INVENT.py:77 | "255,255,255" and "0,0,0" are such comma-separated triples |
| Report.ColoursReadBack | INVENT.py:115-120 | both colour texts read back as the components they mean |
| Report.ColourRgb | INVENT.py:119-120 | the colour set on the page is white exactly for the white text |
| Report.Pairs | INVENT.py:139 | there are ⌈n/2⌉ chunks of one or two graphs |
| Report.PairsFlatten | INVENT.py:139 | the chunks read in order give back the selection |
| Report.PairsPosition | INVENT.py:139-158 | graph `k` is in chunk `k / 2`, slot `k % 2` |
| Report.Summary | TESTMAIN.py:100-101 | one summary line per selected graph |
| Report.SummaryReadsBack | INVENT.py:135-136 | summary line `k` starts with the number `k + 1` and names graph `k` |
| Report.PageOf | INVENT.py:146-159 | every graph of a pair that gives a figure is placed at its slot's offset, and nothing else is placed |
| Report.Pages | TESTMAIN.py:104-123 | one chart page per pair of graphs |
| Report.DataTable | TESTMAIN.py:48-67 | the table is a header line with one cell per column, then one line per row with one cell per value |
| Report.Subtitle | INVENT.py:125-127 | the subtitle names the player and their first listed position, or "Non spécifié" |
| Report.Generate | TESTMAIN.py:69-131 | no report exactly when the colour or some plot raises; otherwise the colour, the subtitle with the player's position, the numbered summary of the selected graphs, ⌈n/2⌉ chart pages placing each pair of graphs, and the data table only when asked for |
| Report.ChartPlacement | INVENT.py:139-158 | every selected graph with a figure is placed on page `k / 2` at the offset of its slot |
| Recovery.EarliestTime | ANALYSE.py:19 | `Time.min()` skips missing times and is the smallest present one |
| Recovery.Elapsed | ANALYSE.py:19 | one elapsed time per line, missing exactly where the timestamp is |
| Recovery.MinutesSince | ANALYSE.py:19 | an elapsed time is present exactly when its timestamp is |
| Recovery.ElapsedFromStart | ANALYSE.py:19 | elapsed times measured from the earliest timestamp are never negative, one of them is 0, and they are in the order of the timestamps |
| Recovery.Selected | ANALYSE.py:65 | the selection is exactly the lines whose elapsed time lies in the closed range, in increasing order |
| Recovery.SumBounds | ANALYSE.py:71 | a sum of values within bounds lies between the count times each bound |
| Recovery.AverageBetween | ANALYSE.py:71 | values within two bounds average within those bounds |
| Recovery.Mean | ANALYSE.py:71 | the mean of a non-empty selection lies between its minimum and its maximum |
| Recovery.FirstIndexOf | ANALYSE.py:73 | the first position holding a value holds it, and no earlier one does |
| Recovery.PresentTimes | ANALYSE.py:82 | the elapsed times `argsort` ranks: at most one per line, starting with the first line's when it is present, and all of them in order when none is missing |
| Recovery.NearestIn | ANALYSE.py:82 | the position picked holds a value at least as near to the target as every other |
| Recovery.ArgsortHead | ANALYSE.py:82 | the first `argsort` entry is -1 exactly when the first distance is `NaN`, and otherwise the position of a nearest distance among the present ones |
| Recovery.PickedLine | ANALYSE.py:82 | `df.iloc[argsort()[:1]]` reads a line of the recording: the last one when the first time is `NaT`, and a nearest one when no time is `NaT` |
| Recovery.NaTShiftsPick | ANALYSE.py:82 | a `NaT` first line makes the page read the last line, which need not be the nearest |
| Recovery.NaTLineRead | ANALYSE.py:82 | a `NaT` line after the first shifts the positions, so the line read can be the `NaT` line itself |
| Recovery.MaxLine | ANALYSE.py:73 | the line of the maximum is a selected line holding the maximum heart rate |
| Recovery.DropAt | ANALYSE.py:80-83 | the maximum minus the heart rate of the line read: a line nearest the target when no time is missing, the last line when the first time is `NaT` |
| Recovery.Drops | ANALYSE.py:76-83 | one drop per offset 1, 2, 3 and 5 minutes, each read at the maximum's time plus that offset |
| Recovery.Summarise | ANALYSE.py:69-83 | the statistics of a non-empty selection: minimum ≤ mean ≤ maximum, the maximum's time, and the four drops |
| Recovery.Analyse | ANALYSE.py:16-103 | the column error appears exactly when "Time" or "HR (bpm)" is missing, and the range error exactly when the columns are there and the end is before the start; a recording with no readable timestamp selects nothing; statistics satisfy min ≤ mean ≤ max with one drop per offset |
| Recovery.AnalyseSelects | ANALYSE.py:19-69 | with a valid range, statistics are shown exactly when a line lies in the range, and they are those of the selection |
| Recovery.RangeExtremes | ANALYSE.py:70-72 | the minimum and maximum are those of the lines in the range and bound every one of them |
| Recovery.MaxLineIsFirst | ANALYSE.py:73 | no earlier selected line holds the maximum |
| Recovery.MaxReadAtFirst | ANALYSE.py:73 | the maximum's time is that of the first line in the range holding it |
| Router.Dispatch | INTERFACE.py:200-207 | a stored name dispatches only to the page with that name |
| Router.DispatchName | INTERFACE.py:200-207 | every page's name dispatches back to that page, so the four views are all reachable and distinct |
| Router.Current | INTERFACE.py:99-100 | the page name is "home" until one is stored |
| Router.ButtonsReachOthers | INTERFACE.py:103-186 | every page has three buttons opening exactly the three other pages, once each |
| Router.KeysUnique | INTERFACE.py:107-184 | no two buttons of the application share a widget key |
| Router.Press | INTERFACE.py:107-119 | a click opens a page exactly when the page shows a button with that key, and then the button's target |
| Router.Step | INTERFACE.py:99-207 | an unknown stored name is never changed, and no click leaves the name as it was |
| Router.OneClickToAnyOther | INTERFACE.py:103-186 | one click takes any page to any other page, and never to itself |
| Router.StepKeepsKnownPage | INTERFACE.py:99-207 | from the initial state every stored name is one of the four pages' |
| Router.Show | INTERFACE.py:135-146 | the home page shows the menu; another page shows the missing-file error, the script's error exactly when it raises, or the script's output |
| Router.ScriptsDistinct | INTERFACE.py:137-188 | the three non-home pages run three different scripts |
| Comparison.WidgetKey | essaiCompa.py:43 | a key is the prefix, an underscore and the suffix |
| Comparison.KeysInjective | essaiCompa.py:43-114 | with prefixes of one length, two keys are equal exactly when prefix and suffix both are |
| Comparison.ColumnKeysDistinct | essaiCompa.py:163-171 | the two columns' eight keyed widgets have eight different keys |
| Comparison.PoleOf | essaiCompa.py:74-77 | "Pôle Féminin" selects the feminine plot, and anything else the masculine one |
| Comparison.ModuleOptionsSelectTeams | essaiCompa.py:97-106 | each option of the module box selects its own team |
| Comparison.OfferedGraphs | INVENT.py:206-243 | every offered graph is the stacked diagram, a sheet column, or a column that team's rules write |
| Comparison.Offered | TESTMAIN.py:172-210 | the offered names are the general names followed by the per-minute names, one per offered graph |
| Comparison.SheetHeadersUnnamed | PFtest.py:53-101 | "Distance", "TopSpeed", "Dist/min" and "Distance>19km/h" are neither the stacked diagram's name nor the header of any named column, so the plot functions' `if` chain draws them as sheet columns |
| Comparison.SheetListable | PFtest.py:53-101 | a sheet column of 8 or 15 characters is neither the stacked diagram's name nor any named column's header |
| Comparison.GraphNameRoundTrip | PFtest.py:53-101 | reading a listed graph's name back through the plot functions' `if` chain gives that graph |
| Comparison.WomenCoverDerived | INVENT.py:208-223 | the feminine lists plot every column the feminine rules write |
| Comparison.MenCoverDerived | INVENT.py:226-243 | the masculine lists plot every column the masculine rules write |
| Comparison.OfferedCoversDerived | INVENT.py:206-243 | the derived columns a team's offered names plot are exactly the columns its rules write, and each name reads back as its graph |
| Comparison.Selection | essaiCompa.py:149-158 | a multiselect holds only options; untouched it is every option when "select all" is ticked and none otherwise; edited it is the picks that are options, in the order picked |
| Comparison.SharedGraphs | essaiCompa.py:146-160 | the shared graphs split, where the general selection ends, into exactly the general multiselect's graphs followed by exactly the per-minute multiselect's graphs; with both boxes ticked and nothing edited they are the whole offered list |
| Comparison.Players | essaiCompa.py:90 | the player list has no duplicates, includes every session's player, and holds nothing else |
| Comparison.PlayersDropDuplicates | essaiCompa.py:90 | the player list is `drop_duplicates` of the "Joueur" column |
| Comparison.PlayersInOrder | essaiCompa.py:90 | the players are in order of first appearance: a player listed earlier has a session before any session of a player listed later |
| Comparison.Chosen | essaiCompa.py:91-95 | a pick selects a player exactly when it is within the list |
| Comparison.ChosenHasSessions | essaiCompa.py:90-116 | a chosen player has at least one session |
| Comparison.Panels | essaiCompa.py:70-83 | one panel per graph name, in order, until the first plot that raises; the panels before it stay drawn and its exception is the one reported; with no raise every name has its panel |
| Comparison.PlayerRows | essaiCompa.py:116 | the player mask keeps exactly the player's rows, in sheet order, each as often as in the sheet |
| Comparison.Kept | essaiCompa.py:116-118 | the player's sessions after the optional duration filter: raising exactly when the filter needs a missing "Durée"; otherwise the player's rows of the sheet, long ones only when the box is unticked, in sheet order, each as often as in the sheet |
| Comparison.KeptRows | essaiCompa.py:116-118 | the player mask followed by the duration choice keeps exactly the player's rows that the choice keeps, in sheet order |
| Comparison.Shown | essaiCompa.py:70-83 | the graphs are shown exactly when no plot raised, one panel per name; otherwise the panels of the names before the first raising plot stay on screen |
| Comparison.ShowPlayer | essaiCompa.py:108-125 | a raised filter shows the error with no panel, an empty selection the warning, and otherwise the panels of the chosen graphs, up to the first raising plot |
| Comparison.DisplayColumn | essaiCompa.py:85-125 | no upload or a missing sheet stops the column; a bad constants sheet raises before any panel; no player shows nothing; otherwise the player's panels, one per shared graph with its name, or those before the first raising plot |
| Comparison.ComparePage | essaiCompa.py:163-171 | the first column is drawn from its own inputs; the second is drawn, from its own inputs, exactly when the first did not raise |
| Comparison.ColumnsShareGraphs | essaiCompa.py:160-171 | whenever both columns show graphs, their panels carry the same names in the same order |
| Comparison.FeminineNameUnderMasculineModule | essaiCompa.py:129-144 | a feminine derived graph under the masculine module is only the warning when the sheet lacks that column; when the sheet has it, the chart is drawn exactly when the session titles exist and the player has a session |
| Comparison.TeamsWriteDifferentColumns | PFtest.py:20-46 | the two teams' rules write disjoint sets of columns |

## Left out

- Reading Excel and CSV files through pandas, `ExcelFile.parse`, and the exception branch of `load_excel` when parsing fails: I/O. A workbook is a map from sheet names to already-parsed sheets.
- `pd.to_datetime(..., errors="coerce")`: a timestamp is a number of seconds or missing.
- Floating point: every number is an exact real. Division by zero, which gives ±inf or NaN in pandas, is modelled as a missing value. The two differ in pandas: `fillna(0)` turns NaN into 0 but keeps ±inf (see Charts.LineFor below).
- Text.ParseNumber: accepts an optional sign, digits, an optional fraction and surrounding whitespace (every character `str.isspace` accepts). Exponents, "inf", "nan", underscores and non-ASCII digits, which Python's `float()` also accepts, are not modelled.
- Text.ParseNumberAccepts: "every other token is rejected" holds for the model only. Python's `float()` also reads exponents ("1e5"), "inf", "nan", underscores between digits ("1_0") and non-ASCII digits.
- Text.ParseInteger: Python's `int()` also reads underscores between digits ("1_000") and non-ASCII decimal digits ("١٢"); the model rejects both. The only tokens `int()` reads here are the parts of the program's own colour strings "0,0,0" and "255,255,255".
- Text.ParseIntegerAccepts: "every other token is rejected" holds for the model only, for the same underscores and non-ASCII digits as Text.ParseInteger.
- The "Joueur" column is assumed present: a session carries its player as a field, so the `KeyError` raised when it is missing is not modelled.
- The Gaussian values (`np.exp`): Dafny has no exponential, so the kernel is an abstract function of the squared pixel distance. It is never negative, and it is positive and largest at distance 0, as `exp(-d / (2 sigma^2))` is.
- Heatmap.HeatMap: reads only the first row of the selected sessions (`iloc[0]`), as the code does. An empty selection never reaches it: `INVENT.py` warns and stops before the module when `player_data.empty`. HeatMap itself takes the two cells already read; the `KeyError` of a sheet without an "X" or "Y" column (INVENT.py:338-339) is modelled one level up, by Heatmap.HeatMapOfRow, as a failure.
- Colour maps, `vmin=0.01`, the pitch lines, and all matplotlib, plotly and FPDF drawing: rendering. A chart is the data it would draw.
- The regression line of the masculine line chart (`np.polyfit`): a floating-point library call. Only its error on an empty set of points is modelled.
- Charts.LineFor: a feminine rate over a zero duration is ±inf in pandas when the distance or count is not 0; `fillna(0)` keeps ±inf and the chart plots it. Here every undefined rate is a missing value and is plotted as 0.
- Report temporary files, PIL image loading, and the grey-level conversion: an image is the sequence of its grey levels.
- Report.Generate: the "Tableau des données" entry of `TESTMAIN.py`'s feminine general list is not a separate graph. The table is the `withTable` flag.
- Recovery.PickedLine: `argsort()[:1]` breaks ties between equally near lines in a way NumPy does not specify; the model takes the earliest, and its contract promises only a nearest line. With a `NaT` line that is not first, it promises only that some line is read, as the positions shift.
- Recovery.Analyse: the range is a parameter. The `st.number_input` bounds and defaults drawn from the elapsed times, and what Streamlit does with `NaN` bounds, are not modelled.
- Recovery heart rate: a sample's "HR (bpm)" is always a number. pandas `max`, `mean` and `min` skip NaN (ANALYSE.py:70-72); a selection whose rates are all NaN makes `.values[0]` raise `IndexError` at ANALYSE.py:73, which ANALYSE.py:104 catches. Neither is modelled.
- Constants: every sheet row carries its indicator, so the `KeyError` of `row["Unnamed: 0"]` on a sheet without that column (PFtest.py:9, PMtest.py:10) is not modelled.
- Recovery.Mean: states that the mean lies between the minimum and the maximum, not that it equals the sum over the count.
- Streamlit widgets, CSS, `st.rerun`, `time.sleep`, `exec` of the page scripts, and the file-existence test: the router is a pure transition function, and whether a script exists or raises is a parameter of `Router.Show`.
- The "Vidéo" tab of the GPS screen: it only displays sheets.
- Comparison.DisplayColumn: when the shared list is empty, the column shows no graphs. This is modelled as panels for an empty list.
- Comparison.SharedGraphs: the selections of the single-player screens (`INVENT.py` and `TESTMAIN.py`) are modelled by the same `Comparison.Selection` applied to each team's lists.

=== FILE: charts.dfy ===
/** `plot_feminine_graph` and `plot_masculine_graph`: which chart a selected graph name
    yields for one player, with which values, reference line and bar stacking. The
    drawing itself is not modelled; a chart is the data it would draw. */
module Charts {
  import opened Common
  import opened Frames
  import Constants
  import Feminine
  import Masculine

  /** The two teams ("pôles"); each has its own derived-column rules and stacked
      diagram. */
  datatype Pole = Women | Men

  /** One row of the tracking sheet: whose session it is, and its numeric cells. */
  datatype Session = Session(player: string, cells: Row)

  /** One row of the "Poste" sheet. */
  datatype PlayerPosition = PlayerPosition(player: string, position: string)

  /** A selected graph: the stacked diagram, or the line chart of one column (every
      other graph name is the header of the column it plots). */
  datatype Graph = StackedDiagram | Line(column: Column)

  /** The graph name of the stacked diagram. */
  const StackedName := "Diagramme empilé"

  /** The chart that would be drawn. `Stacked` holds the three reference-constant
      segments and, for every session row, its three percentage segments, each with
      the heights at which the segments start. `LineChart` holds the plotted values
      and the reference line, if any. */
  datatype Chart =
    | Stacked(reference: seq<real>, referenceBottoms: seq<real>,
              sessions: seq<seq<real>>, sessionBottoms: seq<seq<real>>)
    | LineChart(column: Column, values: seq<real>, line: Option<real>)

  /** An exception escaping the plot function: a `KeyError` on a column it reads or on
      an indicator missing from the constants, or the `TypeError` `np.polyfit` raises
      when the masculine regression has no point to fit. */
  datatype Failure =
    | MissingColumn(column: Column)
    | MissingIndicator(indicator: string)
    | NoPointsToFit

  /** The session labels on the charts' horizontal axis. */
  const TitleColumn := Sheet("Session Title")

  /** Where each segment of a stacked bar starts: the first at 0, each next one on top
      of the previous. */
  function Bottoms(heights: seq<real>): (b: seq<real>)
    ensures |b| == |heights|
    ensures |b| > 0 ==> b[0] == 0.0
    ensures forall i :: 0 <= i < |b| - 1 ==> b[i + 1] == b[i] + heights[i]
  {
    if |heights| == 0 then []
    else
      var init := heights[..|heights| - 1];
      var b := Bottoms(init);
      b + [if |b| == 0 then 0.0 else b[|b| - 1] + init[|init| - 1]]
  }

  /** The stacked-diagram columns of each team, in drawing order. */
  function StackColumns(pole: Pole): seq<string>
  {
    match pole
    case Women => ["Distance23%", "Distance19%", "Distance%"]
    case Men => ["Distance20%", "Distance16%", "Distance%"]
  }

  /** The position of the first "Poste" row naming the player (`iloc[0]`). */
  function PositionOf(positions: seq<PlayerPosition>, player: string): (r: Option<string>)
    ensures r.None? <==> forall i :: 0 <= i < |positions| ==> positions[i].player != player
    ensures r.Some? ==> exists i :: 0 <= i < |positions| && positions[i] == PlayerPosition(player, r.value)
                                    && forall j :: 0 <= j < i ==> positions[j].player != player
  {
    if |positions| == 0 then None
    else if positions[0].player == player then
      assert positions[0] == PlayerPosition(player, positions[0].position);
      Some(positions[0].position)
    else
      var r := PositionOf(positions[1..], player);
      assert forall i :: 1 <= i < |positions| ==> positions[i] == positions[1..][i - 1];
      if r.Some? then
        var i :| 0 <= i < |positions[1..]| && positions[1..][i] == PlayerPosition(player, r.value)
                 && forall j :: 0 <= j < i ==> positions[1..][j].player != player;
        assert positions[i + 1] == PlayerPosition(player, r.value);
        assert forall j :: 0 <= j < i + 1 ==> positions[j].player != player;
        r
      else r
  }

  /** Every row of the sheet has exactly the sheet's columns. */
  predicate Uniform(data: seq<Session>, cols: set<Column>)
  {
    forall i :: 0 <= i < |data| ==> data[i].cells.Keys == cols
  }

  /** The columns after `compute_additional_columns`. */
  function DerivedFrameColumns(pole: Pole, cols: set<Column>): set<Column>
  {
    match pole
    case Women => cols + Feminine.DerivedColumns(cols)
    case Men => cols + Masculine.DerivedColumns(cols)
  }

  /** `data[data["Joueur"] == player_name]`: the player's sessions, in sheet order. */
  function PlayerSessions(data: seq<Session>, player: string, cols: set<Column>): (mine: seq<Session>)
    requires Uniform(data, cols)
    ensures Uniform(mine, cols)
    ensures forall i :: 0 <= i < |mine| ==> mine[i].player == player
    ensures forall x :: multiset(mine)[x] == if x.player == player then multiset(data)[x] else 0
  {
    var mine := Filter(data, (s: Session) => s.player == player);
    assert Uniform(mine, cols) by {
      forall i | 0 <= i < |mine| ensures mine[i].cells.Keys == cols {
        assert multiset(mine)[mine[i]] > 0;
      }
    }
    assert forall i :: 0 <= i < |mine| ==> mine[i] in mine;
    mine
  }

  /** `compute_additional_columns` on the player's rows; the feminine rules raise on
      the duration for the whole frame at once. */
  function DeriveRows(pole: Pole, cols: set<Column>, rows: seq<Session>): (r: Result<seq<Row>, Failure>)
    requires Uniform(rows, cols)
    ensures r.Err? <==> pole == Women && Feminine.Raises(Feminine.PresenceOf(cols))
    ensures r.Err? ==> r.error == MissingColumn(Duration)
    ensures r.Ok? ==> |r.value| == |rows|
    ensures r.Ok? ==> forall i :: 0 <= i < |rows| ==> r.value[i].Keys == DerivedFrameColumns(pole, cols)
    ensures r.Ok? && pole == Women ==> forall i :: 0 <= i < |rows| ==> Feminine.Derive(rows[i].cells) == Ok(r.value[i])
    ensures r.Ok? && pole == Men ==> forall i :: 0 <= i < |rows| ==> r.value[i] == Masculine.Derive(rows[i].cells)
  {
    match pole
    case Women =>
      if Feminine.Raises(Feminine.PresenceOf(cols)) then Err(MissingColumn(Duration))
      else Ok(seq(|rows|, i requires 0 <= i < |rows| => Feminine.Derive(rows[i].cells).value))
    case Men =>
      Ok(seq(|rows|, i requires 0 <= i < |rows| => Masculine.Derive(rows[i].cells)))
  }

  /** The line chart of column `c` over the player's derived rows, missing cells
      plotted as 0, with the reference line of the player's position; nothing when
      the column does not exist after derivation. */
  function LineFor(c: Column, derivedCols: set<Column>, rows: seq<Row>, t: Constants.Table,
                   position: Option<string>): (r: Option<Chart>)
    requires forall i :: 0 <= i < |rows| ==> rows[i].Keys == derivedCols
    ensures r.Some? <==> c in derivedCols
    ensures r.Some? ==> r.value.LineChart? && r.value.column == c && |r.value.values| == |rows|
    ensures r.Some? ==> forall i :: 0 <= i < |rows| ==> r.value.values[i] == NumOrZero(rows[i][c])
    ensures r.Some? && position.None? ==> r.value.line.None?
    ensures r.Some? && position.Some? ==> r.value.line == Constants.ReferenceLine(t, Header(c), position.value)
  {
    if c !in derivedCols then None
    else
      var values := seq(|rows|, i requires 0 <= i < |rows| => NumOrZero(rows[i][c]));
      var reference := match position
        case None => None
        case Some(p) => Constants.ReferenceLine(t, Header(c), p);
      Some(LineChart(c, values, reference))
  }

  /** The line-chart branch of a plot function: the warning when the column does not
      exist after derivation; otherwise the chart of `LineFor`, once the session titles
      are read (a `KeyError` without them) and, for the masculine chart, once the
      regression is fitted (which needs at least one session). */
  function LinePlot(pole: Pole, c: Column, derivedCols: set<Column>, rows: seq<Row>, t: Constants.Table,
                    position: Option<string>, hasTitles: bool): (r: Result<Option<Chart>, Failure>)
    requires forall i :: 0 <= i < |rows| ==> rows[i].Keys == derivedCols
    ensures r.Err? <==> c in derivedCols && (!hasTitles || (pole == Men && |rows| == 0))
    ensures r.Err? ==> r.error == if !hasTitles then MissingColumn(TitleColumn) else NoPointsToFit
    ensures r.Ok? ==> r.value == LineFor(c, derivedCols, rows, t, position)
  {
    if c !in derivedCols then Ok(None)
    else if !hasTitles then Err(MissingColumn(TitleColumn))
    else if pole == Men && |rows| == 0 then Err(NoPointsToFit)
    else Ok(LineFor(c, derivedCols, rows, t, position))
  }

  /** The stacked-diagram constant for one indicator: the feminine chart indexes the
      constants directly (`KeyError` on an unknown indicator), the masculine one
      falls back to 0. */
  function StackConstant(pole: Pole, t: Constants.Table, indicator: string, position: string): (r: Result<real, Failure>)
    ensures r.Err? <==> pole == Women && indicator !in t
    ensures r.Err? ==> r.error == MissingIndicator(indicator)
    ensures r.Ok? ==> r.value == Constants.ConstantOrZero(t, indicator, position)
  {
    match pole
    case Women =>
      (match Constants.IndexedConstant(t, indicator, position)
       case Err(e) => Err(MissingIndicator(e))
       case Ok(v) => Ok(v))
    case Men => Ok(Constants.ConstantOrZero(t, indicator, position))
  }

  /** The three segments of the stacked diagram: the reference bar for `position`, and
      one bar per row of the whole sheet (not only the player's rows). */
  function StackedFor(pole: Pole, t: Constants.Table, position: string, data: seq<Session>, cols: set<Column>):
    (r: Result<Chart, Failure>)
    requires Uniform(data, cols)
    requires HasStackColumns(pole, cols)
    ensures r.Err? <==> pole == Women && exists k :: 0 <= k < 3 && StackColumns(pole)[k] !in t
    ensures r.Ok? ==> r.value.Stacked?
    ensures r.Ok? ==> |r.value.reference| == 3 && r.value.referenceBottoms == Bottoms(r.value.reference)
    ensures r.Ok? ==> forall k :: 0 <= k < 3 ==>
              r.value.reference[k] == Constants.ConstantOrZero(t, StackColumns(pole)[k], position)
    ensures r.Ok? ==> |r.value.sessions| == |data| == |r.value.sessionBottoms|
    ensures r.Ok? ==> forall i :: 0 <= i < |data| ==>
              && |r.value.sessions[i]| == 3
              && r.value.sessionBottoms[i] == Bottoms(r.value.sessions[i])
              && forall k :: 0 <= k < 3 ==> r.value.sessions[i][k] == NumOrZero(data[i].cells[Sheet(StackColumns(pole)[k])])
  {
    var names := StackColumns(pole);
    match StackConstant(pole, t, names[0], position)
    case Err(e) => Err(e)
    case Ok(c0) =>
      match StackConstant(pole, t, names[1], position)
      case Err(e) => Err(e)
      case Ok(c1) =>
        match StackConstant(pole, t, names[2], position)
        case Err(e) => Err(e)
        case Ok(c2) =>
          var reference := [c0, c1, c2];
          var sessions := seq(|data|, i requires 0 <= i < |data| =>
            seq(3, k requires 0 <= k < 3 => NumOrZero(data[i].cells[Sheet(names[k])])));
          var bottoms := seq(|data|, i requires 0 <= i < |data| => Bottoms(sessions[i]));
          Ok(Stacked(reference, Bottoms(reference), sessions, bottoms))
  }

  /** Every stacked-diagram column is in the sheet. */
  predicate HasStackColumns(pole: Pole, cols: set<Column>)
  {
    forall k :: 0 <= k < 3 ==> Sheet(StackColumns(pole)[k]) in cols
  }

  /** The plot function of a team for one player. `Ok(None)` is the warning shown
      instead of a chart. The feminine plot raises on the duration before anything
      else. A line chart is that of `LinePlot` over the player's derived sessions. The
      stacked diagram needs its three columns in the sheet, then reads the session
      titles of the whole sheet; for a player with a "Poste" row it is the diagram of
      `StackedFor`, and without one the graph name falls through to the line-chart
      test on its own name. */
  function Plot(pole: Pole, g: Graph, player: string, t: Constants.Table, data: seq<Session>,
                cols: set<Column>, positions: seq<PlayerPosition>): (r: Result<Option<Chart>, Failure>)
    requires Uniform(data, cols)
    ensures pole == Women && Feminine.Raises(Feminine.PresenceOf(cols)) ==> r == Err(MissingColumn(Duration))
    ensures !(pole == Women && Feminine.Raises(Feminine.PresenceOf(cols))) ==>
              var mine := PlayerSessions(data, player, cols);
              && DeriveRows(pole, cols, mine).Ok?
              && (g.Line? ==>
                    r == LinePlot(pole, g.column, DerivedFrameColumns(pole, cols), DeriveRows(pole, cols, mine).value,
                                  t, PositionOf(positions, player), TitleColumn in cols))
              && (g == StackedDiagram && HasStackColumns(pole, cols) && TitleColumn in cols && PositionOf(positions, player).None? ==>
                    r == LinePlot(pole, Sheet(StackedName), DerivedFrameColumns(pole, cols), DeriveRows(pole, cols, mine).value,
                                  t, None, true))
    ensures g.Line? && r.Ok? ==> (r.value.Some? <==> g.column in DerivedFrameColumns(pole, cols))
    ensures g.Line? && r.Ok? && r.value.Some? ==>
              && r.value.value.LineChart? && r.value.value.column == g.column
              && |r.value.value.values| == |PlayerSessions(data, player, cols)|
    ensures g == StackedDiagram && !(pole == Women && Feminine.Raises(Feminine.PresenceOf(cols))) ==>
              && (!HasStackColumns(pole, cols) ==> r == Ok(None))
              && (HasStackColumns(pole, cols) && TitleColumn !in cols ==> r == Err(MissingColumn(TitleColumn)))
    ensures g == StackedDiagram && !(pole == Women && Feminine.Raises(Feminine.PresenceOf(cols)))
            && HasStackColumns(pole, cols) && TitleColumn in cols && PositionOf(positions, player).Some? ==>
              && (r.Err? <==> StackedFor(pole, t, PositionOf(positions, player).value, data, cols).Err?)
              && (r.Err? <==> pole == Women && exists k :: 0 <= k < 3 && StackColumns(pole)[k] !in t)
              && (r.Ok? ==> r.value == Some(StackedFor(pole, t, PositionOf(positions, player).value, data, cols).value))
  {
    var mine := PlayerSessions(data, player, cols);
    match DeriveRows(pole, cols, mine)
    case Err(e) => Err(e)
    case Ok(rows) =>
      var derivedCols := DerivedFrameColumns(pole, cols);
      var position := PositionOf(positions, player);
      match g
      case Line(c) => LinePlot(pole, c, derivedCols, rows, t, position, TitleColumn in cols)
      case StackedDiagram =>
        if !HasStackColumns(pole, cols) then Ok(None)
        else if TitleColumn !in cols then Err(MissingColumn(TitleColumn))
        else if position.Some? then
          match StackedFor(pole, t, position.value, data, cols)
          case Err(e) => Err(e)
          case Ok(chart) => Ok(Some(chart))
        else LinePlot(pole, Sheet(StackedName), derivedCols, rows, t, position, true)
  }

  /** The named column a header text belongs to among `cs`, the first one listed. */
  function FindNamed(cs: seq<Column>, name: string): (r: Option<Column>)
    ensures r.Some? ==> r.value in cs && Header(r.value) == name
    ensures r.None? <==> forall i :: 0 <= i < |cs| ==> Header(cs[i]) != name
  {
    if |cs| == 0 then None
    else if Header(cs[0]) == name then Some(cs[0])
    else FindNamed(cs[1..], name)
  }

  /** The sheet columns the derived-column rules read, then the columns they write. */
  const SourceColumns: seq<Column> :=
    [Duration, AccBand2to3, AccBand3to4, AccBandOver4, DecBand2to3, DecBand3to4, DecBandOver4,
     Distance19, Dist23Km, Dist16Km, Dist20Km, Distance16]
  const WrittenColumns: seq<Column> :=
    [AccTotal, DecTotal, Rate19, Dist23, Rate23, AccRate, DecRate,
     Dist16, Dist20, Rate20, Rate16, AccDec2, AccDec2Rate, AccDec4, AccDec4Rate]

  /** The column a graph name plots: the named column with that header text, or the
      sheet column of that name. */
  function ColumnNamed(name: string): (c: Column)
    ensures Header(c) == name
  {
    match FindNamed(SourceColumns + WrittenColumns, name)
    case Some(c) => c
    case None => Sheet(name)
  }

  /** The lookup finds a column listed once among columns of distinct headers. */
  lemma {:induction false} FindNamedListed(cs: seq<Column>, c: Column)
    requires c in cs
    requires forall i :: 0 <= i < |cs| && cs[i] != c ==> Header(cs[i]) != Header(c)
    ensures FindNamed(cs, Header(c)) == Some(c)
  {
    if cs[0] != c {
      FindNamedListed(cs[1..], c);
    }
  }

  /** Every named column is listed among the columns the lookup searches. */
  lemma NamedListed(c: Column)
    requires !c.Sheet?
    ensures c in SourceColumns + WrittenColumns
  {
  }

  /** Every named column is found again from its header text. */
  lemma ColumnNamedHeader(c: Column)
    requires !c.Sheet?
    ensures ColumnNamed(Header(c)) == c
  {
    var cs := SourceColumns + WrittenColumns;
    forall i | 0 <= i < |cs| && cs[i] != c
      ensures Header(cs[i]) != Header(c)
    {
      Frames.HeadersDistinct(cs[i], c);
    }
    NamedListed(c);
    FindNamedListed(cs, c);
  }

  /** The graph a selected name stands for in the plot functions' `if` chain. */
  function GraphNamed(name: string): (g: Graph)
    ensures g == StackedDiagram <==> name == StackedName
    ensures g.Line? ==> Header(g.column) == name
  {
    if name == StackedName then StackedDiagram else Line(ColumnNamed(name))
  }
}

=== FILE: common.dfy ===
/** Failure-carrying wrappers and the order-preserving filter shared by every module. */
module Common {

  /** A value that may be absent: Python's `None` or a missing dictionary entry. */
  datatype Option<+T> = None | Some(value: T)

  /** The outcome of a step that can raise: `Err` carries what went wrong. */
  datatype Result<+T, +E> = Ok(value: T) | Err(error: E)

  /** `b` is `a` with some elements left out and the rest in their original order. */
  ghost predicate SubsequenceOf<T>(b: seq<T>, a: seq<T>)
    decreases |a|
  {
    if |b| == 0 then true
    else if |a| == 0 then false
    else if b[0] == a[0] then SubsequenceOf(b[1..], a[1..])
    else SubsequenceOf(b, a[1..])
  }

  /** Dropping the first element of a subsequence leaves a subsequence. */
  lemma {:induction false} SubsequenceDrop<T>(c: seq<T>, x: seq<T>)
    requires |c| > 0 && SubsequenceOf(c, x)
    ensures SubsequenceOf(c[1..], x)
    decreases |c| + |x|
  {
    if c[0] == x[0] {
      SubsequenceExtend(c[1..], x);
    } else {
      SubsequenceDrop(c, x[1..]);
      SubsequenceExtend(c[1..], x);
    }
  }

  /** A subsequence of the tail of `x` is a subsequence of `x`. */
  lemma {:induction false} SubsequenceExtend<T>(c: seq<T>, x: seq<T>)
    requires |x| > 0 && SubsequenceOf(c, x[1..])
    ensures SubsequenceOf(c, x)
    decreases |c| + |x|
  {
    if |c| > 0 && c[0] == x[0] {
      SubsequenceDrop(c, x[1..]);
    }
  }

  /** A subsequence of a subsequence of `a` is a subsequence of `a`. */
  lemma {:induction false} SubsequenceTrans<T>(c: seq<T>, b: seq<T>, a: seq<T>)
    requires SubsequenceOf(c, b) && SubsequenceOf(b, a)
    ensures SubsequenceOf(c, a)
    decreases |a|
  {
    if |c| > 0 && |b| > 0 && |a| > 0 {
      if b[0] == a[0] {
        if c[0] == b[0] {
          SubsequenceTrans(c[1..], b[1..], a[1..]);
        } else {
          SubsequenceTrans(c, b[1..], a[1..]);
        }
      } else {
        SubsequenceTrans(c, b, a[1..]);
        SubsequenceExtend(c, a);
      }
    }
  }

  /** Boolean-mask selection (`frame[mask]`, a list comprehension with a guard):
      exactly the elements satisfying `keep`, each as often as in `s`, in order. */
  function Filter<T(!new)>(s: seq<T>, keep: T -> bool): (r: seq<T>)
    ensures SubsequenceOf(r, s)
    ensures forall x :: x in r ==> keep(x)
    ensures forall x :: multiset(r)[x] == if keep(x) then multiset(s)[x] else 0
    ensures |r| <= |s|
  {
    if |s| == 0 then []
    else
      assert s == [s[0]] + s[1..];
      if keep(s[0]) then [s[0]] + Filter(s[1..], keep)
      else Filter(s[1..], keep)
  }

  /** Every element converted in order, or `None` as soon as one conversion fails
      (a conversion applied to each element of a list, raising on the first failure). */
  function MapAll<A, B>(xs: seq<A>, f: A -> Option<B>): (r: Option<seq<B>>)
    ensures r.Some? <==> forall k :: 0 <= k < |xs| ==> f(xs[k]).Some?
    ensures r.Some? ==> |r.value| == |xs|
    ensures r.Some? ==> forall k :: 0 <= k < |xs| ==> f(xs[k]) == Some(r.value[k])
  {
    if |xs| == 0 then Some([])
    else
      match f(xs[0])
      case None => None
      case Some(y) =>
        match MapAll(xs[1..], f)
        case None =>
          var k :| 0 <= k < |xs[1..]| && f(xs[1..][k]).None?;
          assert f(xs[k + 1]).None?;
          None
        case Some(rest) =>
          assert forall k :: 1 <= k < |xs| ==> xs[k] == xs[1..][k - 1];
          Some([y] + rest)
  }

  /** The largest value of a non-empty sequence (`max` / `np.max`). */
  function Max(s: seq<real>): (m: real)
    requires |s| > 0
    ensures forall k :: 0 <= k < |s| ==> s[k] <= m
    ensures exists k :: 0 <= k < |s| && s[k] == m
  {
    if |s| == 1 then s[0]
    else
      var m := Max(s[1..]);
      assert forall k :: 1 <= k < |s| ==> s[k] == s[1..][k - 1];
      if s[0] >= m then s[0] else m
  }

  /** The smallest value of a non-empty sequence. */
  function Min(s: seq<real>): (m: real)
    requires |s| > 0
    ensures forall k :: 0 <= k < |s| ==> m <= s[k]
    ensures exists k :: 0 <= k < |s| && s[k] == m
  {
    if |s| == 1 then s[0]
    else
      var m := Min(s[1..]);
      assert forall k :: 1 <= k < |s| ==> s[k] == s[1..][k - 1];
      if s[0] <= m then s[0] else m
  }

  /** The distinct values of `xs`, each once, in order of first appearance
      (`drop_duplicates`). */
  function Unique<T(==)>(xs: seq<T>): (u: seq<T>)
    ensures forall i, j :: 0 <= i < j < |u| ==> u[i] != u[j]
    ensures forall i :: 0 <= i < |xs| ==> xs[i] in u
    ensures forall i :: 0 <= i < |u| ==> u[i] in xs
  {
    if |xs| == 0 then []
    else
      var init := xs[..|xs| - 1];
      var u := Unique(init);
      assert forall i :: 0 <= i < |init| ==> init[i] == xs[i];
      if xs[|xs| - 1] in u then u else u + [xs[|xs| - 1]]
  }

  /** `drop_duplicates` keeps the order of first appearance: wherever a value stands in
      `xs`, every value listed before it appears earlier. */
  lemma {:induction false} UniqueInOrder<T>(xs: seq<T>, i: nat, j: nat, k: nat)
    requires i < j < |Unique(xs)| && k < |xs| && xs[k] == Unique(xs)[j]
    ensures exists l :: 0 <= l < k && xs[l] == Unique(xs)[i]
  {
    var n := |xs| - 1;
    var init := xs[..n];
    var before := Unique(init);
    assert Unique(xs) == if xs[n] in before then before else before + [xs[n]];
    assert Unique(xs)[i] == before[i];
    if j < |before| {
      var k' := k;
      if k == n {
        k' :| 0 <= k' < |init| && init[k'] == before[j];
      }
      UniqueInOrder(init, i, j, k');
      var l :| 0 <= l < k' && init[l] == before[i];
      assert xs[l] == Unique(xs)[i];
    } else {
      assert xs[n] !in before;
      var l :| 0 <= l < |init| && init[l] == before[i];
      assert xs[l] == Unique(xs)[i];
    }
  }
}

=== FILE: comparison.dfy ===
/** The side-by-side comparison page: one sidebar choice of graphs shared by two
    columns, each of which loads its own workbook, picks a player and a team module,
    and shows the chosen graphs for that player. Also the per-team graph lists of the
    single-player screens. */
module Comparison {
  import opened Common
  import opened Frames
  import Workbook
  import Constants
  import Charts
  import Feminine
  import Masculine

  // ---- widget keys ----

  /** `f"{key_prefix}_{suffix}"`: the key of a widget drawn in a column. */
  function WidgetKey(prefix: string, suffix: string): (k: string)
    ensures |k| == |prefix| + 1 + |suffix|
  {
    prefix + "_" + suffix
  }

  /** The two columns' key prefixes. */
  const Prefixes: seq<string> := ["col1", "col2"]

  /** The widgets each column keys: the uploader, the player and module select boxes,
      and the short-match checkbox. */
  const Suffixes: seq<string> := ["file_uploader", "player", "module", "filter"]

  /** Prefixes of one length give keys that determine the prefix and the suffix. */
  lemma KeysInjective(p: string, s: string, p': string, s': string)
    requires |p| == |p'|
    ensures WidgetKey(p, s) == WidgetKey(p', s') <==> p == p' && s == s'
  {
    if WidgetKey(p, s) == WidgetKey(p', s') {
      assert p == WidgetKey(p, s)[..|p|];
      assert p' == WidgetKey(p', s')[..|p'|];
      assert s == WidgetKey(p, s)[|p| + 1..];
      assert s' == WidgetKey(p', s')[|p'| + 1..];
    }
  }

  /** The eight keyed widgets of the page have eight different keys, so the two
      columns keep separate state. */
  lemma ColumnKeysDistinct(i: int, j: int, a: int, b: int)
    requires 0 <= i < 2 && 0 <= j < 2 && 0 <= a < 4 && 0 <= b < 4
    ensures WidgetKey(Prefixes[i], Suffixes[a]) == WidgetKey(Prefixes[j], Suffixes[b]) <==> i == j && a == b
  {
    KeysInjective(Prefixes[i], Suffixes[a], Prefixes[j], Suffixes[b]);
  }

  // ---- team module ----

  /** The options of the module select box, feminine first. */
  const ModuleOptions: seq<string> := ["Pôle Féminin", "Pôle Masculin"]

  /** The team whose plot function a column uses: anything but the feminine option is
      masculine. */
  function PoleOf(choice: string): (pole: Charts.Pole)
    ensures pole == Charts.Women <==> choice == ModuleOptions[0]
  {
    if choice == "Pôle Féminin" then Charts.Women else Charts.Men
  }

  /** Each option selects its own team. */
  lemma ModuleOptionsSelectTeams()
    ensures PoleOf(ModuleOptions[0]) == Charts.Women
    ensures PoleOf(ModuleOptions[1]) == Charts.Men
  {
  }

  // ---- graph lists ----

  /** The name a graph is listed under: the stacked diagram's own name, or the header
      of the column a line chart plots. */
  function GraphName(g: Charts.Graph): string
  {
    match g
    case StackedDiagram => Charts.StackedName
    case Line(c) => Header(c)
  }

  /** The names of a list of graphs, in order. */
  function Names(gs: seq<Charts.Graph>): (names: seq<string>)
    ensures |names| == |gs|
    ensures forall i :: 0 <= i < |gs| ==> names[i] == GraphName(gs[i])
  {
    seq(|gs|, i requires 0 <= i < |gs| => GraphName(gs[i]))
  }

  /** The general graphs of a team on the single-player analysis screen: "Distance",
      "Distance>19km/h", "Distance > 23km/h", "TopSpeed", "Accélérations > 2m/s²",
      "Décélérations > 2m/s²" and the stacked diagram for the women; "Distance",
      "Distance > 16km/h", "Distance > 20km/h", "TopSpeed", "Nb Acc/Dec > 2m/s²",
      "Nb Acc/Dec > 4m/s²" and the stacked diagram for the men. */
  function GeneralList(pole: Charts.Pole): (gs: seq<Charts.Graph>)
  {
    match pole
    case Women =>
      [Charts.Line(Sheet("Distance")), Charts.Line(Sheet("Distance>19km/h")), Charts.Line(Dist23),
       Charts.Line(Sheet("TopSpeed")), Charts.Line(AccTotal), Charts.Line(DecTotal), Charts.StackedDiagram]
    case Men =>
      [Charts.Line(Sheet("Distance")), Charts.Line(Dist16), Charts.Line(Dist20),
       Charts.Line(Sheet("TopSpeed")), Charts.Line(AccDec2), Charts.Line(AccDec4), Charts.StackedDiagram]
  }

  /** The per-minute graphs of a team: "Dist/min", "Distance>23kmh/min",
      "Distance > 19kmh/min", "Nb Accélération > 2m/s²/min" and
      "Nb Décélération > 2m/s²/min" for the women; "Dist/min", "Distance>20kmh/min",
      "Distance>16kmh/min", "Nb Acc/Dec > 2m/s²/min" and "Nb Acc/Dec > 4m/s²/min" for
      the men. */
  function PerMinuteList(pole: Charts.Pole): (gs: seq<Charts.Graph>)
  {
    match pole
    case Women =>
      [Charts.Line(Sheet("Dist/min")), Charts.Line(Rate23), Charts.Line(Rate19), Charts.Line(AccRate), Charts.Line(DecRate)]
    case Men =>
      [Charts.Line(Sheet("Dist/min")), Charts.Line(Rate20), Charts.Line(Rate16), Charts.Line(AccDec2Rate), Charts.Line(AccDec4Rate)]
  }

  function GeneralGraphs(pole: Charts.Pole): seq<string> { Names(GeneralList(pole)) }
  function PerMinuteGraphs(pole: Charts.Pole): seq<string> { Names(PerMinuteList(pole)) }

  /** All graphs a team offers, general first: the stacked diagram, columns read
      straight from the sheet, and columns the team's own rules write. */
  function OfferedGraphs(pole: Charts.Pole): (gs: seq<Charts.Graph>)
    ensures forall i :: 0 <= i < |gs| ==> Listable(gs[i])
    ensures forall i :: 0 <= i < |gs| && gs[i].Line? && !gs[i].column.Sheet? ==> gs[i].column in WrittenBy(pole)
  {
    SheetHeadersUnnamed();
    GeneralList(pole) + PerMinuteList(pole)
  }

  /** All graph names a team offers. */
  function Offered(pole: Charts.Pole): (names: seq<string>)
    ensures names == Names(OfferedGraphs(pole))
  {
    GeneralGraphs(pole) + PerMinuteGraphs(pole)
  }

  /** The columns written by a team's derived-column rules. */
  function WrittenBy(pole: Charts.Pole): set<Column>
  {
    match pole
    case Women => Feminine.DerivedNames
    case Men => Masculine.DerivedNames
  }

  /** The columns a list of graph names plots that the team's rules write. */
  function DerivedPlotted(pole: Charts.Pole, names: seq<string>): set<Column>
  {
    set i | 0 <= i < |names| && Charts.GraphNamed(names[i]).Line?
                             && Charts.GraphNamed(names[i]).column in WrittenBy(pole)
          :: Charts.GraphNamed(names[i]).column
  }

  /** No column the rules read has a header of 8, 15 or 16 characters. */
  lemma SourceHeaderLengths()
    ensures forall i :: 0 <= i < |Charts.SourceColumns| ==> |Header(Charts.SourceColumns[i])| !in {8, 15, 16}
  {
  }

  /** No column the feminine rules write has a header of 8, 15 or 16 characters. */
  lemma FeminineHeaderLengths()
    ensures forall i :: 0 <= i < 7 ==> |Header(Charts.WrittenColumns[i])| !in {8, 15, 16}
  {
  }

  /** No distance column the masculine rules write has a header of 8, 15 or 16
      characters. */
  lemma MasculineDistanceHeaderLengths()
    ensures forall i :: 7 <= i < 11 ==> |Header(Charts.WrittenColumns[i])| !in {8, 15, 16}
  {
  }

  /** No count column the masculine rules write has a header of 8, 15 or 16 characters. */
  lemma MasculineCountHeaderLengths()
    ensures forall i :: 11 <= i < |Charts.WrittenColumns| ==> |Header(Charts.WrittenColumns[i])| !in {8, 15, 16}
  {
  }

  /** No column the rules write has a header of 8, 15 or 16 characters. */
  lemma WrittenHeaderLengths()
    ensures forall i :: 0 <= i < |Charts.WrittenColumns| ==> |Header(Charts.WrittenColumns[i])| !in {8, 15, 16}
  {
    FeminineHeaderLengths();
    MasculineDistanceHeaderLengths();
    MasculineCountHeaderLengths();
  }

  /** No named column has a header of 8, 15 or 16 characters. */
  lemma NamedHeaderLengths()
    ensures forall i :: 0 <= i < |Charts.SourceColumns + Charts.WrittenColumns| ==>
              |Header((Charts.SourceColumns + Charts.WrittenColumns)[i])| !in {8, 15, 16}
  {
    SourceHeaderLengths();
    WrittenHeaderLengths();
    var n := |Charts.SourceColumns|;
    assert forall i :: n <= i < |Charts.SourceColumns + Charts.WrittenColumns| ==>
             (Charts.SourceColumns + Charts.WrittenColumns)[i] == Charts.WrittenColumns[i - n];
  }

  /** A graph the lists can name unambiguously: the stacked diagram, a named column, or
      a sheet column whose header is neither the stacked diagram's name nor any named
      column's header. */
  predicate Listable(g: Charts.Graph)
  {
    g.Line? && g.column.Sheet? ==>
      g.column.header != Charts.StackedName
      && Charts.FindNamed(Charts.SourceColumns + Charts.WrittenColumns, g.column.header).None?
  }

  /** A sheet column of 8 or 15 characters clashes with no named column. The graph lists
      name four sheet columns, "Distance", "TopSpeed", "Dist/min" (8 characters) and
      "Distance>19km/h" (15); comparing header lengths, which no named header and not
      the stacked diagram's 16-character name share, settles all four at once instead
      of comparing each of them with every named header. */
  lemma SheetListable(header: string)
    requires |header| == 8 || |header| == 15
    ensures Listable(Charts.Line(Sheet(header)))
  {
    NamedHeaderLengths();
  }

  /** The four sheet columns the graph lists name are not named columns, and none of
      them is the stacked diagram's name. */
  lemma SheetHeadersUnnamed()
    ensures forall h :: h in ["Distance", "TopSpeed", "Dist/min", "Distance>19km/h"] ==>
              h != Charts.StackedName && Charts.FindNamed(Charts.SourceColumns + Charts.WrittenColumns, h).None?
  {
    SheetListable("Distance");
    SheetListable("TopSpeed");
    SheetListable("Dist/min");
    SheetListable("Distance>19km/h");
  }

  /** Reading a listable graph's name gives the graph back. */
  lemma GraphNameRoundTrip(g: Charts.Graph)
    requires Listable(g)
    ensures Charts.GraphNamed(GraphName(g)) == g
  {
    match g
    case StackedDiagram =>
    case Line(c) =>
      if c.Sheet? {
        assert Charts.ColumnNamed(c.header) == c;
      } else {
        NamedGraphRoundTrip(c);
      }
  }

  /** A named column's header reads back as that column's line chart. */
  lemma NamedGraphRoundTrip(c: Column)
    requires !c.Sheet?
    ensures Charts.GraphNamed(Header(c)) == Charts.Line(c)
  {
    var cs := Charts.SourceColumns + Charts.WrittenColumns;
    Charts.NamedListed(c);
    var k :| 0 <= k < |cs| && cs[k] == c;
    NamedHeaderLengths();
    assert |Header(c)| != |Charts.StackedName|;
    Charts.ColumnNamedHeader(c);
  }

  /** The columns among `gs` that the team's rules write. */
  function DerivedOf(pole: Charts.Pole, gs: seq<Charts.Graph>): set<Column>
  {
    set i | 0 <= i < |gs| && gs[i].Line? && gs[i].column in WrittenBy(pole) :: gs[i].column
  }

  /** Names standing for the graphs `gs` plot the same derived columns as `gs`. */
  lemma DerivedPlottedOf(pole: Charts.Pole, names: seq<string>, gs: seq<Charts.Graph>)
    requires |names| == |gs|
    requires forall i :: 0 <= i < |names| ==> Charts.GraphNamed(names[i]) == gs[i]
    ensures DerivedPlotted(pole, names) == DerivedOf(pole, gs)
  {
  }

  /** The feminine graphs include a line chart of every column the feminine rules write. */
  lemma WomenCoverDerived()
    ensures DerivedOf(Charts.Women, OfferedGraphs(Charts.Women)) == Feminine.DerivedNames
  {
    var gs := OfferedGraphs(Charts.Women);
    assert gs[2].column == Dist23 && gs[4].column == AccTotal && gs[5].column == DecTotal;
    assert gs[8].column == Rate23 && gs[9].column == Rate19 && gs[10].column == AccRate && gs[11].column == DecRate;
  }

  /** The masculine graphs include a line chart of every column the masculine rules write. */
  lemma MenCoverDerived()
    ensures DerivedOf(Charts.Men, OfferedGraphs(Charts.Men)) == Masculine.DerivedNames
  {
    var gs := OfferedGraphs(Charts.Men);
    assert gs[1].column == Dist16 && gs[2].column == Dist20 && gs[4].column == AccDec2 && gs[5].column == AccDec4;
    assert gs[8].column == Rate20 && gs[9].column == Rate16 && gs[10].column == AccDec2Rate && gs[11].column == AccDec4Rate;
  }

  /** Every column a team's rules write is offered as a graph of that team, and each
      offered name plots the graph it was listed as. */
  lemma OfferedCoversDerived(pole: Charts.Pole)
    ensures DerivedPlotted(pole, Offered(pole)) == WrittenBy(pole)
    ensures |Offered(pole)| == |OfferedGraphs(pole)|
    ensures forall i :: 0 <= i < |Offered(pole)| ==> Charts.GraphNamed(Offered(pole)[i]) == OfferedGraphs(pole)[i]
  {
    var names := Offered(pole);
    var gs := OfferedGraphs(pole);
    forall i | 0 <= i < |names| ensures Charts.GraphNamed(names[i]) == gs[i] {
      GraphNameRoundTrip(gs[i]);
    }
    DerivedPlottedOf(pole, names, gs);
    if pole == Charts.Women { WomenCoverDerived(); } else { MenCoverDerived(); }
  }

  /** The comparison page's sidebar offers the feminine lists whatever module a column
      picks. */
  function SharedGeneral(): seq<string> { GeneralGraphs(Charts.Women) }
  function SharedPerMinute(): seq<string> { PerMinuteGraphs(Charts.Women) }

  /** A multiselect: untouched, it holds its default (every option when "select all"
      is ticked, none otherwise); edited, it holds the picked options in the order
      picked. */
  function Selection(options: seq<string>, selectAll: bool, edited: Option<seq<string>>): (r: seq<string>)
    ensures forall i :: 0 <= i < |r| ==> r[i] in options
    ensures edited.None? && selectAll ==> r == options
    ensures edited.None? && !selectAll ==> r == []
    ensures edited.Some? ==> SubsequenceOf(r, edited.value)
    ensures edited.Some? ==> forall i :: 0 <= i < |edited.value| && edited.value[i] in options ==> edited.value[i] in r
  {
    match edited
    case None => if selectAll then options else []
    case Some(picks) =>
      var r := Filter(picks, (g: string) => g in options);
      assert forall i :: 0 <= i < |r| ==> r[i] in multiset(r);
      assert forall i :: 0 <= i < |picks| && picks[i] in options ==> multiset(r)[picks[i]] > 0;
      r
  }

  /** The graphs both columns show: the chosen general graphs, then the chosen
      per-minute graphs. */
  function SharedGraphs(allGeneral: bool, general: Option<seq<string>>,
                        allPerMinute: bool, perMinute: Option<seq<string>>): (r: seq<string>)
    ensures exists n :: RunsFrom(r, n, SharedGeneral(), SharedPerMinute())
    ensures |Selection(SharedGeneral(), allGeneral, general)| <= |r|
    ensures r[..|Selection(SharedGeneral(), allGeneral, general)|] == Selection(SharedGeneral(), allGeneral, general)
    ensures r[|Selection(SharedGeneral(), allGeneral, general)|..] == Selection(SharedPerMinute(), allPerMinute, perMinute)
    ensures general.None? && allGeneral && perMinute.None? && allPerMinute ==> r == Offered(Charts.Women)
  {
    var g := Selection(SharedGeneral(), allGeneral, general);
    var p := Selection(SharedPerMinute(), allPerMinute, perMinute);
    ConcatRuns(g, p, SharedGeneral(), SharedPerMinute());
    assert (g + p)[..|g|] == g && (g + p)[|g|..] == p;
    g + p
  }

  /** The first `n` names of `r` come from `a` and the rest from `b`. */
  predicate RunsFrom(r: seq<string>, n: int, a: seq<string>, b: seq<string>)
  {
    && 0 <= n <= |r|
    && (forall i :: 0 <= i < n ==> r[i] in a)
    && (forall i :: n <= i < |r| ==> r[i] in b)
  }

  /** Two runs drawn from two lists, concatenated, split where the first run ends. */
  lemma ConcatRuns(g: seq<string>, p: seq<string>, a: seq<string>, b: seq<string>)
    requires forall i :: 0 <= i < |g| ==> g[i] in a
    requires forall i :: 0 <= i < |p| ==> p[i] in b
    ensures RunsFrom(g + p, |g|, a, b)
  {
    var r := g + p;
    assert forall i :: 0 <= i < |g| ==> r[i] in a by {
      forall i | 0 <= i < |g| ensures r[i] in a { assert r[i] == g[i]; }
    }
    assert forall i :: |g| <= i < |r| ==> r[i] in b by {
      forall i | |g| <= i < |r| ensures r[i] in b { assert r[i] == p[i - |g|]; }
    }
  }

  // ---- one column ----

  /** The sheets of an uploaded workbook: the names present, and what the "CSV",
      "Poste" and "Constante" sheets parse to. Every session has the columns `cols`. */
  datatype Upload = Upload(names: set<string>, data: seq<Charts.Session>, cols: set<Column>,
                           positions: seq<Charts.PlayerPosition>, constants: seq<Constants.SheetRow>)

  /** The players of the sheet, each once, in order of first appearance
      (`drop_duplicates().tolist()`). */
  function Players(data: seq<Charts.Session>): (ps: seq<string>)
    ensures forall i, j :: 0 <= i < j < |ps| ==> ps[i] != ps[j]
    ensures forall i :: 0 <= i < |data| ==> data[i].player in ps
    ensures forall i :: 0 <= i < |ps| ==> exists k :: 0 <= k < |data| && data[k].player == ps[i]
  {
    if |data| == 0 then []
    else
      var init := data[..|data| - 1];
      var ps := Players(init);
      assert forall i :: 0 <= i < |init| ==> init[i] == data[i];
      if data[|data| - 1].player in ps then ps else ps + [data[|data| - 1].player]
  }

  /** The "Joueur" column. */
  function PlayerColumn(data: seq<Charts.Session>): (names: seq<string>)
    ensures |names| == |data|
    ensures forall i :: 0 <= i < |data| ==> names[i] == data[i].player
  {
    seq(|data|, i requires 0 <= i < |data| => data[i].player)
  }

  /** The player list is `drop_duplicates` of the "Joueur" column. */
  lemma {:induction false} PlayersDropDuplicates(data: seq<Charts.Session>)
    ensures Players(data) == Unique(PlayerColumn(data))
  {
    if |data| > 0 {
      var n := |data| - 1;
      PlayersDropDuplicates(data[..n]);
      assert PlayerColumn(data[..n]) == PlayerColumn(data)[..n];
    }
  }

  /** The players are listed in order of first appearance: wherever a player's session
      stands in the sheet, every player listed before them has a session earlier. */
  lemma PlayersInOrder(data: seq<Charts.Session>, i: nat, j: nat, k: nat)
    requires i < j < |Players(data)| && k < |data| && data[k].player == Players(data)[j]
    ensures exists l :: 0 <= l < k && data[l].player == Players(data)[i]
  {
    var names := PlayerColumn(data);
    PlayersDropDuplicates(data);
    UniqueInOrder(names, i, j, k);
    var l :| 0 <= l < k && names[l] == Players(data)[i];
    assert data[l].player == Players(data)[i];
  }

  /** The player select box: the entry at the chosen index; an empty list (or an index
      past it) leaves it empty. */
  function Chosen(players: seq<string>, pick: nat): (r: Option<string>)
    ensures r.Some? <==> pick < |players|
    ensures r.Some? ==> r.value == players[pick]
  {
    if pick < |players| then Some(players[pick]) else None
  }

  /** A chosen player has at least one session in the sheet. */
  lemma ChosenHasSessions(data: seq<Charts.Session>, pick: nat)
    requires Chosen(Players(data), pick).Some?
    ensures |Filter(data, (s: Charts.Session) => s.player == Chosen(Players(data), pick).value)| > 0
  {
    var p := Chosen(Players(data), pick).value;
    var k :| 0 <= k < |data| && data[k].player == p;
    var mine := Filter(data, (s: Charts.Session) => s.player == p);
    assert multiset(mine)[data[k]] == multiset(data)[data[k]] > 0;
  }

  /** One selected graph under its subheader: the chart, or `None` for the
      "not available" error. */
  datatype Panel = Panel(name: string, chart: Option<Charts.Chart>)

  /** What `display_selected_graphs` leaves on screen: the panels drawn, and the
      exception that ended the loop, if one did. */
  datatype Drawing = Drawing(panels: seq<Panel>, raised: Option<Charts.Failure>)

  /** `display_selected_graphs` given what each plot call returned: one panel per
      selected name, in order, until a plot raises; the panels drawn before it stay
      on screen and the exception ends the loop. */
  function Panels(names: seq<string>, plots: seq<Result<Option<Charts.Chart>, Charts.Failure>>): (r: Drawing)
    requires |plots| == |names|
    ensures r.raised.None? <==> forall i :: 0 <= i < |plots| ==> plots[i].Ok?
    ensures |r.panels| <= |names|
    ensures r.raised.None? ==> |r.panels| == |names|
    ensures forall i :: 0 <= i < |r.panels| ==> plots[i].Ok? && r.panels[i] == Panel(names[i], plots[i].value)
    ensures r.raised.Some? ==> |r.panels| < |plots| && plots[|r.panels|] == Err(r.raised.value)
  {
    if |names| == 0 then Drawing([], None)
    else
      match plots[0]
      case Err(e) => Drawing([], Some(e))
      case Ok(chart) =>
        var rest := Panels(names[1..], plots[1..]);
        assert forall i :: 1 <= i < |plots| ==> plots[1..][i - 1] == plots[i];
        Drawing([Panel(names[0], chart)] + rest.panels, rest.raised)
  }

  /** The plot function's answer for every selected name. */
  function PlotAll(pole: Charts.Pole, names: seq<string>, player: string, t: Constants.Table,
                   data: seq<Charts.Session>, cols: set<Column>, positions: seq<Charts.PlayerPosition>):
    (plots: seq<Result<Option<Charts.Chart>, Charts.Failure>>)
    requires Charts.Uniform(data, cols)
    ensures |plots| == |names|
  {
    seq(|names|, i requires 0 <= i < |names| =>
      Charts.Plot(pole, Charts.GraphNamed(names[i]), player, t, data, cols, positions))
  }

  /** What a column shows: the loader's warning or error, an exception that ends the
      page (after the panels drawn before it), nothing further (no player), the "no
      data after filtering" warning, or the panels of the shared graphs. */
  datatype View =
    | NotLoaded(error: Workbook.LoadError)
    | Raised(drawn: seq<Panel>)
    | NoPlayer
    | NoData
    | Graphs(panels: seq<Panel>)

  /** The sheet names of an upload, as the loader sees them. */
  function Book(u: Upload): map<string, ()>
  {
    map n | n in u.names :: ()
  }

  /** `data[data["Joueur"] == player]`: the player's rows, in sheet order. */
  function PlayerRows(data: seq<Charts.Session>, player: string): (mine: seq<Charts.Session>)
    ensures SubsequenceOf(mine, data)
    ensures forall s :: multiset(mine)[s] == if s.player == player then multiset(data)[s] else 0
  {
    Filter(data, (s: Charts.Session) => s.player == player)
  }

  /** The sessions a column plots: the player's rows of the sheet, long ones only
      unless the short-match checkbox is ticked. */
  function Kept(data: seq<Charts.Session>, player: string, cols: set<Column>, showShort: bool):
    (r: Result<seq<Charts.Session>, Charts.Failure>)
    requires Charts.Uniform(data, cols)
    ensures r.Err? <==> !showShort && Duration !in cols
    ensures r.Err? ==> r.error == Charts.MissingColumn(Duration)
    ensures r.Ok? ==> Charts.Uniform(r.value, cols)
    ensures r.Ok? ==> SubsequenceOf(r.value, data)
    ensures r.Ok? ==> forall s :: multiset(r.value)[s] ==
                        if s.player == player && (showShort || LongEnough(s.cells)) then multiset(data)[s] else 0
    ensures r.Ok? ==> forall i :: 0 <= i < |r.value| ==> r.value[i].player == player
    ensures !showShort && r.Ok? ==> forall i :: 0 <= i < |r.value| ==> LongEnough(r.value[i].cells)
    ensures r.Ok? ==> forall i :: 0 <= i < |data| && data[i].player == player && (showShort || LongEnough(data[i].cells)) ==>
              data[i] in r.value
  {
    var mine := PlayerRows(data, player);
    match ApplyDurationChoice(mine, (s: Charts.Session) => s.cells, cols, showShort)
    case Err(_) => Err(Charts.MissingColumn(Duration))
    case Ok(kept) =>
      KeptRows(data, mine, kept, player, cols, showShort);
      Ok(kept)
  }

  /** The player's rows `mine` of `data`, then the duration choice's `kept` rows of
      those, are the player's rows of `data` that the choice keeps. */
  lemma KeptRows(data: seq<Charts.Session>, mine: seq<Charts.Session>, kept: seq<Charts.Session>,
                 player: string, cols: set<Column>, showShort: bool)
    requires Charts.Uniform(data, cols)
    requires SubsequenceOf(mine, data)
    requires forall s :: multiset(mine)[s] == if s.player == player then multiset(data)[s] else 0
    requires showShort ==> kept == mine
    requires !showShort ==> SubsequenceOf(kept, mine)
    requires !showShort ==> forall s :: multiset(kept)[s] == if LongEnough(s.cells) then multiset(mine)[s] else 0
    ensures Charts.Uniform(kept, cols)
    ensures SubsequenceOf(kept, data)
    ensures forall s :: multiset(kept)[s] ==
                        if s.player == player && (showShort || LongEnough(s.cells)) then multiset(data)[s] else 0
    ensures forall i :: 0 <= i < |kept| ==> kept[i].player == player
    ensures !showShort ==> forall i :: 0 <= i < |kept| ==> LongEnough(kept[i].cells)
    ensures forall i :: 0 <= i < |data| && data[i].player == player && (showShort || LongEnough(data[i].cells)) ==>
              data[i] in kept
  {
    if !showShort {
      SubsequenceTrans(kept, mine, data);
    }
    forall i | 0 <= i < |kept|
      ensures kept[i].cells.Keys == cols && kept[i].player == player
      ensures !showShort ==> LongEnough(kept[i].cells)
    {
      var x := kept[i];
      assert x in multiset(kept);
      assert x in multiset(data);
      var j :| 0 <= j < |data| && data[j] == x;
    }
    forall i | 0 <= i < |data| && data[i].player == player && (showShort || LongEnough(data[i].cells))
      ensures data[i] in kept
    {
      assert multiset(kept)[data[i]] > 0;
    }
  }

  /** The panels of the shared graphs; when a plot raises, the panels drawn before
      it and the exception. */
  function Shown(names: seq<string>, plots: seq<Result<Option<Charts.Chart>, Charts.Failure>>): (v: View)
    requires |plots| == |names|
    ensures v.Raised? || v.Graphs?
    ensures v.Graphs? <==> forall i :: 0 <= i < |plots| ==> plots[i].Ok?
    ensures v.Graphs? ==> |v.panels| == |names|
    ensures v.Graphs? ==> forall i :: 0 <= i < |names| ==> v.panels[i] == Panel(names[i], plots[i].value)
    ensures v.Raised? ==> |v.drawn| < |names| && plots[|v.drawn|].Err?
    ensures v.Raised? ==> forall i :: 0 <= i < |v.drawn| ==> plots[i].Ok? && v.drawn[i] == Panel(names[i], plots[i].value)
  {
    var d := Panels(names, plots);
    if d.raised.Some? then Raised(d.panels) else Graphs(d.panels)
  }

  /** The part of `display_column` after a player is chosen: the kept sessions, the
      "no data after filtering" warning when none is left, and otherwise every shared
      graph drawn by the team's plot function from the kept sessions. */
  function ShowPlayer(pole: Charts.Pole, t: Constants.Table, player: string, data: seq<Charts.Session>,
                      cols: set<Column>, positions: seq<Charts.PlayerPosition>, showShort: bool,
                      shared: seq<string>): (v: View)
    requires Charts.Uniform(data, cols)
    ensures Kept(data, player, cols, showShort).Err? ==> v == Raised([])
    ensures Kept(data, player, cols, showShort).Ok? ==> (v == NoData <==> |Kept(data, player, cols, showShort).value| == 0)
    ensures Kept(data, player, cols, showShort).Ok? && |Kept(data, player, cols, showShort).value| > 0 ==>
              v == Shown(shared, PlotAll(pole, shared, player, t, Kept(data, player, cols, showShort).value, cols, positions))
    ensures v.Graphs? ==> |v.panels| == |shared| && forall i :: 0 <= i < |shared| ==> v.panels[i].name == shared[i]
    ensures v.Raised? ==> |v.drawn| < |shared| || v.drawn == []
    ensures v.Raised? ==> forall i :: 0 <= i < |v.drawn| ==> v.drawn[i].name == shared[i]
  {
    match Kept(data, player, cols, showShort)
    case Err(_) => Raised([])
    case Ok(rows) =>
      if |rows| == 0 then NoData
      else Shown(shared, PlotAll(pole, shared, player, t, rows, cols, positions))
  }

  /** `display_column`: load the workbook, build the constants, pick a player and, when
      one is picked, show the shared graphs for that player with the chosen module's
      plot function. An empty `shared` list shows no panel. */
  function DisplayColumn(upload: Option<Upload>, choice: string, pick: nat, showShort: bool,
                         shared: seq<string>): (v: View)
    requires upload.Some? ==> Charts.Uniform(upload.value.data, upload.value.cols)
    ensures upload.None? ==> v == NotLoaded(Workbook.NoFile)
    ensures upload.Some? ==> (v.NotLoaded? <==> Workbook.EditorCheckFails(Book(upload.value)))
    ensures upload.Some? && !v.NotLoaded? && Constants.Build(upload.value.constants).Err? ==> v == Raised([])
    ensures upload.Some? && !v.NotLoaded? && Constants.Build(upload.value.constants).Ok? ==>
              var player := Chosen(Players(upload.value.data), pick);
              && (v == NoPlayer <==> player.None? || player.value == "")
              && (player.Some? && player.value != "" ==>
                    v == ShowPlayer(PoleOf(choice), Constants.Build(upload.value.constants).value, player.value,
                                    upload.value.data, upload.value.cols, upload.value.positions, showShort, shared))
    ensures v.Graphs? ==> |v.panels| == |shared| && forall i :: 0 <= i < |shared| ==> v.panels[i].name == shared[i]
    ensures v.Raised? ==> |v.drawn| < |shared| || v.drawn == []
    ensures v.Raised? ==> forall i :: 0 <= i < |v.drawn| ==> v.drawn[i].name == shared[i]
  {
    match upload
    case None => NotLoaded(Workbook.NoFile)
    case Some(u) =>
      match Workbook.LoadEditor(Some(Book(u)))
      case Err(e) => NotLoaded(e)
      case Ok(_) =>
        match Constants.Build(u.constants)
        case Err(_) => Raised([])
        case Ok(t) =>
          match Chosen(Players(u.data), pick)
          case None => NoPlayer
          case Some(player) =>
            if player == "" then NoPlayer
            else ShowPlayer(PoleOf(choice), t, player, u.data, u.cols, u.positions, showShort, shared)
  }

  /** Both columns lay out the same shared graphs: whenever both show graphs, their
      panels carry the same names in the same order, whatever each column loaded and
      picked. */
  lemma ColumnsShareGraphs(u1: Option<Upload>, c1: string, p1: nat, s1: bool,
                           u2: Option<Upload>, c2: string, p2: nat, s2: bool, shared: seq<string>)
    requires u1.Some? ==> Charts.Uniform(u1.value.data, u1.value.cols)
    requires u2.Some? ==> Charts.Uniform(u2.value.data, u2.value.cols)
    ensures var v1, v2 := DisplayColumn(u1, c1, p1, s1, shared), DisplayColumn(u2, c2, p2, s2, shared);
            v1.Graphs? && v2.Graphs? ==>
              && |v1.panels| == |v2.panels|
              && forall i :: 0 <= i < |shared| ==> v1.panels[i].name == v2.panels[i].name
  {
  }

  /** What one column was given: the upload, the module option, the player pick and
      the short-match checkbox. */
  datatype ColumnInput = ColumnInput(upload: Option<Upload>, choice: string, pick: nat, showShort: bool)

  /** A column input whose sheet is uniform. */
  predicate Usable(c: ColumnInput)
  {
    c.upload.Some? ==> Charts.Uniform(c.upload.value.data, c.upload.value.cols)
  }

  /** The two columns of the page; the second is absent when the first raised. */
  datatype Page = Page(first: View, second: Option<View>)

  /** The page body: "Joueur 1" then "Joueur 2". Nothing catches an exception in the
      first column, so it ends the script before the second column is drawn. */
  function ComparePage(c1: ColumnInput, c2: ColumnInput, shared: seq<string>): (p: Page)
    requires Usable(c1) && Usable(c2)
    ensures p.first == DisplayColumn(c1.upload, c1.choice, c1.pick, c1.showShort, shared)
    ensures p.second.None? <==> p.first.Raised?
    ensures p.second.Some? ==> p.second.value == DisplayColumn(c2.upload, c2.choice, c2.pick, c2.showShort, shared)
  {
    var v1 := DisplayColumn(c1.upload, c1.choice, c1.pick, c1.showShort, shared);
    if v1.Raised? then Page(v1, None)
    else Page(v1, Some(DisplayColumn(c2.upload, c2.choice, c2.pick, c2.showShort, shared)))
  }

  /** With the masculine module a column still offers the feminine graph names; a
      column the feminine rules write is then only the warning when the sheet lacks
      it, since the masculine rules never write it. When the sheet has it, the chart
      is drawn unless the session titles are missing or the player has no session to
      fit the regression to. */
  lemma FeminineNameUnderMasculineModule(c: Column, player: string, t: Constants.Table,
                                         data: seq<Charts.Session>, cols: set<Column>,
                                         positions: seq<Charts.PlayerPosition>)
    requires c in Feminine.DerivedNames
    requires Charts.Uniform(data, cols)
    ensures c !in cols ==> Charts.Plot(Charts.Men, Charts.Line(c), player, t, data, cols, positions) == Ok(None)
    ensures c in cols ==>
              (Charts.Plot(Charts.Men, Charts.Line(c), player, t, data, cols, positions).Ok?
               <==> Charts.TitleColumn in cols && |Charts.PlayerSessions(data, player, cols)| > 0)
    ensures c in cols && Charts.Plot(Charts.Men, Charts.Line(c), player, t, data, cols, positions).Ok? ==>
              Charts.Plot(Charts.Men, Charts.Line(c), player, t, data, cols, positions).value.Some?
  {
    TeamsWriteDifferentColumns();
    assert c !in Masculine.DerivedNames;
    assert c in Charts.DerivedFrameColumns(Charts.Men, cols) <==> c in cols;
    var mine := Charts.PlayerSessions(data, player, cols);
    var rows := Charts.DeriveRows(Charts.Men, cols, mine).value;
    assert |rows| == |mine|;
    assert Charts.Plot(Charts.Men, Charts.Line(c), player, t, data, cols, positions)
        == Charts.LinePlot(Charts.Men, c, Charts.DerivedFrameColumns(Charts.Men, cols), rows, t,
                           Charts.PositionOf(positions, player), Charts.TitleColumn in cols);
  }

  /** No column is written by both teams' rules. */
  lemma TeamsWriteDifferentColumns()
    ensures Feminine.DerivedNames !! Masculine.DerivedNames
  {
  }
}

=== FILE: constants.dfy ===
/** The "Constante" sheet: reference values per indicator and playing position, built
    into a dictionary (`get_feminine_constants` and `get_masculine_constants` are the
    same code) and looked up by the charts. */
module Constants {
  import opened Common

  /** The playing positions that have a column in the sheet. */
  const Positions: seq<string> := ["AT", "AIL", "MIL", "DC", "DL", "GB"]

  const PositionSet: set<string> := set p | p in Positions

  /** One sheet row: the indicator in the unnamed first column and the numeric cells
      by column name. */
  datatype SheetRow = SheetRow(indicator: string, cells: map<string, real>)

  /** Position -> reference value for one indicator. */
  type Record = map<string, real>

  /** Indicator -> its record. */
  type Table = map<string, Record>

  predicate Complete(row: SheetRow)
  {
    forall k :: 0 <= k < |Positions| ==> Positions[k] in row.cells
  }

  /** The first position column, in sheet order from index `k`, that the row lacks. */
  function FirstMissing(row: SheetRow, k: nat): (p: string)
    requires k <= |Positions|
    requires exists j :: k <= j < |Positions| && Positions[j] !in row.cells
    ensures p in Positions && p !in row.cells
    decreases |Positions| - k
  {
    if Positions[k] !in row.cells then Positions[k] else FirstMissing(row, k + 1)
  }

  /** The record built from one row; reading a position column the sheet lacks raises
      `KeyError` naming the first such column. */
  function RecordOf(row: SheetRow): (r: Result<Record, string>)
    ensures r.Ok? <==> Complete(row)
    ensures r.Ok? ==> r.value.Keys == PositionSet
    ensures r.Ok? ==> forall p :: p in r.value ==> r.value[p] == row.cells[p]
    ensures r.Err? ==> r.error in Positions && r.error !in row.cells
  {
    if !Complete(row) then Err(FirstMissing(row, 0))
    else Ok(map p | p in PositionSet :: row.cells[p])
  }

  /** Row `i` is the last row carrying its indicator. */
  ghost predicate LastFor(rows: seq<SheetRow>, i: int)
    requires 0 <= i < |rows|
  {
    forall j :: i < j < |rows| ==> rows[j].indicator != rows[i].indicator
  }

  /** `t` is the dictionary the rows describe: one entry per indicator, holding the
      record of the last row that carries it. */
  ghost predicate Describes(t: Table, rows: seq<SheetRow>)
  {
    && t.Keys == (set i | 0 <= i < |rows| :: rows[i].indicator)
    && (forall ind :: ind in t ==> t[ind].Keys == PositionSet)
    && (forall i :: 0 <= i < |rows| && LastFor(rows, i) ==>
          RecordOf(rows[i]).Ok? && t[rows[i].indicator] == RecordOf(rows[i]).value)
  }

  /** The constants dictionary: one record per indicator, a later row with the same
      indicator replacing an earlier one; the first incomplete row raises. */
  function Build(rows: seq<SheetRow>): (r: Result<Table, string>)
    ensures r.Ok? <==> forall i :: 0 <= i < |rows| ==> Complete(rows[i])
    ensures r.Err? ==> r.error in Positions
    ensures r.Ok? ==> Describes(r.value, rows)
  {
    if |rows| == 0 then Ok(map[])
    else
      var init := rows[..|rows| - 1];
      var last := rows[|rows| - 1];
      assert forall i :: 0 <= i < |init| ==> rows[i] == init[i];
      match Build(init)
      case Err(e) => Err(e)
      case Ok(t) =>
        match RecordOf(last)
        case Err(e) =>
          assert !Complete(rows[|rows| - 1]);
          Err(e)
        case Ok(rec) =>
          DescribesStep(rows, t, rec);
          Ok(t[last.indicator := rec])
  }

  /** Adding the last row's record to the dictionary of the earlier rows gives the
      dictionary of all rows. */
  lemma DescribesStep(rows: seq<SheetRow>, t: Table, rec: Record)
    requires |rows| > 0
    requires Describes(t, rows[..|rows| - 1])
    requires RecordOf(rows[|rows| - 1]) == Ok(rec)
    ensures Describes(t[rows[|rows| - 1].indicator := rec], rows)
  {
    var init := rows[..|rows| - 1];
    var last := rows[|rows| - 1];
    var t' := t[last.indicator := rec];
    assert forall i :: 0 <= i < |init| ==> rows[i] == init[i];
    StepKeys(rows, init, t, t', last, rec);
    StepLast(rows, init, t, t', last, rec);
  }

  lemma StepKeys(rows: seq<SheetRow>, init: seq<SheetRow>, t: Table, t': Table, last: SheetRow, rec: Record)
    requires |rows| > 0 && init == rows[..|rows| - 1] && last == rows[|rows| - 1]
    requires t.Keys == (set i | 0 <= i < |init| :: init[i].indicator)
    requires t' == t[last.indicator := rec]
    ensures t'.Keys == (set i | 0 <= i < |rows| :: rows[i].indicator)
  {
    forall x | x in (set i | 0 <= i < |rows| :: rows[i].indicator)
      ensures x in t'.Keys
    {
      var i :| 0 <= i < |rows| && rows[i].indicator == x;
      if i < |init| { assert init[i].indicator == x; }
    }
    forall x | x in t'.Keys
      ensures x in (set i | 0 <= i < |rows| :: rows[i].indicator)
    {
      if x != last.indicator {
        var i :| 0 <= i < |init| && init[i].indicator == x;
        assert rows[i].indicator == x;
      }
    }
  }

  lemma StepLast(rows: seq<SheetRow>, init: seq<SheetRow>, t: Table, t': Table, last: SheetRow, rec: Record)
    requires |rows| > 0 && init == rows[..|rows| - 1] && last == rows[|rows| - 1]
    requires forall i :: 0 <= i < |init| && LastFor(init, i) ==>
               RecordOf(init[i]).Ok? && init[i].indicator in t && t[init[i].indicator] == RecordOf(init[i]).value
    requires RecordOf(last) == Ok(rec)
    requires t' == t[last.indicator := rec]
    ensures forall i :: 0 <= i < |rows| && LastFor(rows, i) ==>
              RecordOf(rows[i]).Ok? && rows[i].indicator in t' && t'[rows[i].indicator] == RecordOf(rows[i]).value
  {
    forall i | 0 <= i < |rows| && LastFor(rows, i)
      ensures RecordOf(rows[i]).Ok? && rows[i].indicator in t' && t'[rows[i].indicator] == RecordOf(rows[i]).value
    {
      if i < |init| {
        assert rows[i] == init[i];
        assert LastFor(init, i);
      }
    }
  }

  /** Looking a value up in the built table: a position column of the sheet yields the
      value from the last row for the indicator; anything else yields nothing. */
  lemma BuiltLookup(rows: seq<SheetRow>, i: int, p: string)
    requires 0 <= i < |rows| && LastFor(rows, i)
    requires forall k :: 0 <= k < |rows| ==> Complete(rows[k])
    ensures p in Positions ==> ReferenceLine(Build(rows).value, rows[i].indicator, p) == Some(rows[i].cells[p])
    ensures p !in Positions ==> ReferenceLine(Build(rows).value, rows[i].indicator, p) == None
  {
  }

  /** `constants.get(graph, {}).get(position)`: the reference line of a chart, absent
      when the indicator or the position is unknown. */
  function ReferenceLine(t: Table, graph: string, position: string): (r: Option<real>)
    ensures r.Some? <==> graph in t && position in t[graph]
    ensures r.Some? ==> r.value == t[graph][position]
  {
    if graph in t && position in t[graph] then Some(t[graph][position]) else None
  }

  /** `constants.get(indicator, {}).get(position, 0)`: stacked-diagram constants of the
      masculine charts, zero when unknown. */
  function ConstantOrZero(t: Table, indicator: string, position: string): (r: real)
    ensures ReferenceLine(t, indicator, position).Some? ==> r == ReferenceLine(t, indicator, position).value
    ensures ReferenceLine(t, indicator, position).None? ==> r == 0.0
  {
    if indicator in t && position in t[indicator] then t[indicator][position] else 0.0
  }

  /** `constants[indicator].get(position, 0)`: stacked-diagram constants of the feminine
      charts; an unknown indicator raises `KeyError`, an unknown position gives zero. */
  function IndexedConstant(t: Table, indicator: string, position: string): (r: Result<real, string>)
    ensures r.Err? <==> indicator !in t
    ensures r.Err? ==> r.error == indicator
    ensures r.Ok? ==> r.value == ConstantOrZero(t, indicator, position)
  {
    if indicator !in t then Err(indicator)
    else if position in t[indicator] then Ok(t[indicator][position])
    else Ok(0.0)
  }
}

=== FILE: feminine.dfy ===
/** The feminine module's `compute_additional_columns`: derived columns added to each
    tracking row when the columns they come from are present. */
module Feminine {
  import opened Common
  import opened Frames

  /** Every column this module may write. */
  const DerivedNames: set<Column> := {AccTotal, DecTotal, Rate19, Dist23, Rate23, AccRate, DecRate}

  /** Every column this module reads. */
  const SourceNames: set<Column> :=
    {AccBand2to3, AccBand3to4, AccBandOver4, DecBand2to3, DecBand3to4, DecBandOver4,
     Distance19, Dist23Km, Duration}

  /** No rule writes a column that a rule reads, so each rule may read the row as it was
      passed in. */
  lemma SourcesAreNotDerived()
    ensures SourceNames !! DerivedNames
  {
  }

  /** Which of the source columns a frame has. */
  datatype Presence = Presence(accBands: bool, decBands: bool, distance19: bool, dist23Km: bool, duration: bool)

  function PresenceOf(cols: set<Column>): Presence
  {
    Presence(Covers(cols, AccBands), Covers(cols, DecBands), Distance19 in cols, Dist23Km in cols, Duration in cols)
  }

  /** What the rules read from one row: the two band sums and three cells. */
  datatype Inputs = Inputs(accSum: Cell, decSum: Cell, distance19: Cell, dist23Km: Cell, duration: Cell)

  function InputsOf(r: Row): Inputs
  {
    Inputs(SumIfAll(r, AccBands), SumIfAll(r, DecBands), Get(r, Distance19), Get(r, Dist23Km), Get(r, Duration))
  }

  /** The error a frame with these columns raises: the per-minute distance above
      19 km/h reads the duration whenever `Distance19` exists, without checking for it. */
  predicate Raises(p: Presence)
  {
    p.distance19 && !p.duration
  }

  /** Whether the rule writing column `k` fires: exactly when the columns it reads are
      present. */
  predicate Fires(p: Presence, k: Column)
  {
    match k
    case AccTotal => p.accBands
    case DecTotal => p.decBands
    case Rate19 => p.distance19
    case Dist23 => p.dist23Km
    case Rate23 => p.dist23Km && p.duration
    case AccRate => p.accBands && p.duration
    case DecRate => p.decBands && p.duration
    case _ => false
  }

  /** The columns written for a frame whose columns are `cols`. */
  function DerivedColumns(cols: set<Column>): (ds: set<Column>)
    ensures ds <= DerivedNames
    ensures forall k :: k in ds <==> k in DerivedNames && Fires(PresenceOf(cols), k)
  {
    set k | k in DerivedNames && Fires(PresenceOf(cols), k)
  }

  /** The value the rule for derived column `k` writes: the band sums, the distance
      above 23 km/h in metres, and four totals spread per minute of the duration. */
  function Rule(x: Inputs, k: Column): Cell
  {
    match k
    case AccTotal => x.accSum
    case DecTotal => x.decSum
    case Rate19 => PerMinute(x.distance19, x.duration)
    case Dist23 => Times(x.dist23Km, 1000.0)
    case Rate23 => PerMinute(Times(x.dist23Km, 1000.0), x.duration)
    case AccRate => PerMinute(x.accSum, x.duration)
    case DecRate => PerMinute(x.decSum, x.duration)
    case _ => NaN
  }

  /** `compute_additional_columns` on one row: the row with every derived column whose
      rule fires written in, or the `KeyError` on the duration. The identity assignment
      of "Distance > 19km/h" changes nothing and has no counterpart here. */
  function Derive(r: Row): (out: Result<Row, Column>)
    ensures out.Err? <==> Raises(PresenceOf(r.Keys))
    ensures out.Err? ==> out.error == Duration
    ensures out.Ok? ==> out.value.Keys == r.Keys + DerivedColumns(r.Keys)
    ensures out.Ok? ==> forall k :: k in r && k !in DerivedColumns(r.Keys) ==> out.value[k] == r[k]
  {
    if Raises(PresenceOf(r.Keys)) then Err(Duration)
    else Ok(r + map k | k in DerivedColumns(r.Keys) :: Rule(InputsOf(r), k))
  }

  /** A derived column whose rule fires holds the rule's value. */
  lemma Written(r: Row, k: Column)
    requires !Raises(PresenceOf(r.Keys))
    requires k in DerivedNames && Fires(PresenceOf(r.Keys), k)
    ensures k in Derive(r).value && Derive(r).value[k] == Rule(InputsOf(r), k)
  {
  }

  /** The acceleration total is there exactly when the three bands are (or it was
      already), and three band cells holding a, b, c give a + b + c; likewise for
      decelerations. */
  lemma AccelerationTotals(r: Row)
    requires !Raises(PresenceOf(r.Keys))
    ensures AccTotal in Derive(r).value <==> HasAll(r, AccBands) || AccTotal in r
    ensures DecTotal in Derive(r).value <==> HasAll(r, DecBands) || DecTotal in r
    ensures HasAll(r, AccBands) && r[AccBands[0]].Num? && r[AccBands[1]].Num? && r[AccBands[2]].Num? ==>
              Rule(InputsOf(r), AccTotal) == Num(r[AccBands[0]].v + r[AccBands[1]].v + r[AccBands[2]].v)
    ensures HasAll(r, DecBands) && r[DecBands[0]].Num? && r[DecBands[1]].Num? && r[DecBands[2]].Num? ==>
              Rule(InputsOf(r), DecTotal) == Num(r[DecBands[0]].v + r[DecBands[1]].v + r[DecBands[2]].v)
  {
    if HasAll(r, AccBands) && r[AccBands[0]].Num? && r[AccBands[1]].Num? && r[AccBands[2]].Num? {
      RowSumOfThree(r, AccBands);
    }
    if HasAll(r, DecBands) && r[DecBands[0]].Num? && r[DecBands[1]].Num? && r[DecBands[2]].Num? {
      RowSumOfThree(r, DecBands);
    }
  }

  /** Multiplying a per-minute count by the duration in minutes gives back the
      acceleration or deceleration total it was computed from. */
  lemma CountRatesRecoverTotals(r: Row, d: real)
    requires Duration in r && r[Duration] == Num(d) && d != 0.0
    ensures HasAll(r, AccBands) ==>
              Rule(InputsOf(r), AccRate).v * (d / 60.0) == Rule(InputsOf(r), AccTotal).v
    ensures HasAll(r, DecBands) ==>
              Rule(InputsOf(r), DecRate).v * (d / 60.0) == Rule(InputsOf(r), DecTotal).v
  {
    var x := InputsOf(r);
    if HasAll(r, AccBands) {
      PerMinuteInverse(x.accSum, x.duration);
    }
    if HasAll(r, DecBands) {
      PerMinuteInverse(x.decSum, x.duration);
    }
  }

  /** The distance above 23 km/h in metres is 1000 times the kilometres, and the
      per-minute distances times the duration in minutes give back the distances. */
  lemma DistanceRatesRecoverTotals(r: Row, d: real)
    requires Duration in r && r[Duration] == Num(d) && d != 0.0
    ensures Dist23Km in r && r[Dist23Km].Num? ==>
              && Rule(InputsOf(r), Dist23).v == 1000.0 * r[Dist23Km].v
              && Rule(InputsOf(r), Rate23).v * (d / 60.0) == Rule(InputsOf(r), Dist23).v
    ensures Distance19 in r && r[Distance19].Num? ==>
              Rule(InputsOf(r), Rate19).v * (d / 60.0) == r[Distance19].v
  {
    var x := InputsOf(r);
    if Dist23Km in r && r[Dist23Km].Num? {
      PerMinuteInverse(Times(x.dist23Km, 1000.0), x.duration);
    }
    if Distance19 in r && r[Distance19].Num? {
      PerMinuteInverse(x.distance19, x.duration);
    }
  }

  /** The feminine rules do not guard the duration: a zero duration leaves every
      per-minute column undefined. */
  lemma ZeroDurationIsUndefined(r: Row)
    requires Duration in r && r[Duration] == Num(0.0)
    ensures !Raises(PresenceOf(r.Keys))
    ensures forall k :: k in {Rate19, Rate23, AccRate, DecRate} ==> Rule(InputsOf(r), k) == NaN
  {
  }

  /** The rules only read source columns: two rows that agree on them get the same
      derived columns with the same values. */
  lemma RulesReadSources(r: Row, o: Row)
    requires Agree(r, o, SourceNames)
    ensures PresenceOf(o.Keys) == PresenceOf(r.Keys)
    ensures InputsOf(o) == InputsOf(r)
  {
    SumIfAllAgrees(r, o, AccBands);
    SumIfAllAgrees(r, o, DecBands);
  }

  /** The computation leaves every source column as it was. */
  lemma KeepsSources(r: Row)
    requires !Raises(PresenceOf(r.Keys))
    ensures Agree(r, Derive(r).value, SourceNames)
  {
    SourcesAreNotDerived();
    var o := Derive(r).value;
    forall k | k in SourceNames
      ensures (k in r <==> k in o) && (k in r ==> r[k] == o[k])
    {
      assert k !in DerivedNames;
    }
  }

  /** Applying the computation to its own output changes nothing. */
  lemma {:induction false} DeriveIdempotent(r: Row)
    requires !Raises(PresenceOf(r.Keys))
    ensures !Raises(PresenceOf(Derive(r).value.Keys))
    ensures Derive(Derive(r).value) == Derive(r)
  {
    var o := Derive(r).value;
    KeepsSources(r);
    RulesReadSources(r, o);
    var ks := DerivedColumns(o.Keys);
    forall k | k in ks
      ensures k in o && o[k] == Rule(InputsOf(o), k)
    {
      Written(r, k);
    }
    MergeUnchanged(o, map k | k in ks :: Rule(InputsOf(o), k));
  }
}

=== FILE: frames.dfy ===
/** The slice of pandas the dashboard's computations use: a numeric cell that may be NaN,
    a row as a map from column name to cell, a frame as ordered columns plus rows, the
    element-wise arithmetic of derived columns, and the minimum-duration filter. */
module Frames {
  import opened Common

  /** One numeric spreadsheet cell. `NaN` is pandas' missing value; it also stands for
      the result of dividing by a zero duration. pandas yields NaN or ±inf there, and
      the two differ under `fillna(0)`, which keeps ±inf; this model does not tell them
      apart (README, the `Charts.LineFor` line under "Left out"). */
  datatype Cell = Num(v: real) | NaN

  /** A column of the tracking sheet. The columns the derived-column rules read or
      write are named (`Header` gives their header text); every other column is
      `Sheet` with its header. */
  datatype Column =
    | Duration
    | AccBand2to3 | AccBand3to4 | AccBandOver4
    | DecBand2to3 | DecBand3to4 | DecBandOver4
    | Distance19 | Dist23Km | Dist16Km | Dist20Km | Distance16
    // written by the feminine rules
    | AccTotal | DecTotal | Rate19 | Dist23 | Rate23 | AccRate | DecRate
    // written by the masculine rules
    | Dist16 | Dist20 | Rate20 | Rate16 | AccDec2 | AccDec2Rate | AccDec4 | AccDec4Rate
    | Sheet(header: string)

  /** The header text of a column. */
  function Header(c: Column): string
  {
    match c
    case Duration => "Durée"
    case AccBand2to3 => "Nb Acc2>3m/s²"
    case AccBand3to4 => "Nb Acc3>4m/s²"
    case AccBandOver4 => "Nb Acc>4m/s²"
    case DecBand2to3 => "Nb Dec2>3m/s²"
    case DecBand3to4 => "Nb Dec3>4m/s²"
    case DecBandOver4 => "Nb Dec>4m/s²"
    case Distance19 => "Distance19"
    case Dist23Km => "Dist>23kmh"
    case Dist16Km => "Dist>16kmh"
    case Dist20Km => "Dist>20kmh"
    case Distance16 => "Distance16"
    case AccTotal => "Accélérations > 2m/s²"
    case DecTotal => "Décélérations > 2m/s²"
    case Rate19 => "Distance > 19kmh/min"
    case Dist23 => "Distance > 23km/h"
    case Rate23 => "Distance>23kmh/min"
    case AccRate => "Nb Accélération > 2m/s²/min"
    case DecRate => "Nb Décélération > 2m/s²/min"
    case Dist16 => "Distance > 16km/h"
    case Dist20 => "Distance > 20km/h"
    case Rate20 => "Distance>20kmh/min"
    case Rate16 => "Distance>16kmh/min"
    case AccDec2 => "Nb Acc/Dec > 2m/s²"
    case AccDec2Rate => "Nb Acc/Dec > 2m/s²/min"
    case AccDec4 => "Nb Acc/Dec > 4m/s²"
    case AccDec4Rate => "Nb Acc/Dec > 4m/s²/min"
    case Sheet(h) => h
  }

  /** The named column a header text can only belong to, told from its length and
      one or two of its characters (no two named headers agree on all of them); a
      sheet column when none fits. */
  function Candidate(h: string): Column
  {
    var n := |h|;
    if n == 5 then Duration
    else if n == 10 then
      if h[9] == '9' then Distance19
      else if h[9] == '6' then Distance16
      else if h[6] == '3' then Dist23Km
      else if h[6] == '6' then Dist16Km
      else Dist20Km
    else if n == 12 then
      if h[3] == 'A' then AccBandOver4 else DecBandOver4
    else if n == 13 then
      if h[3] == 'A' then (if h[6] == '2' then AccBand2to3 else AccBand3to4)
      else (if h[6] == '2' then DecBand2to3 else DecBand3to4)
    else if n == 17 then
      if h[12] == '3' then Dist23 else if h[12] == '6' then Dist16 else Dist20
    else if n == 18 then
      if h[0] == 'D' then (if h[10] == '3' then Rate23 else if h[10] == '0' then Rate20 else Rate16)
      else (if h[13] == '2' then AccDec2 else AccDec4)
    else if n == 20 then Rate19
    else if n == 21 then
      if h[0] == 'A' then AccTotal else DecTotal
    else if n == 22 then
      if h[13] == '2' then AccDec2Rate else AccDec4Rate
    else if n == 27 then
      if h[3] == 'A' then AccRate else DecRate
    else Sheet(h)
  }

  /** Every named column is recovered from its header text. */
  lemma CandidateOfHeader(c: Column)
    requires !c.Sheet?
    ensures Candidate(Header(c)) == c
  {
    match c
    case Duration => case AccBand2to3 => case AccBand3to4 => case AccBandOver4 =>
    case DecBand2to3 => case DecBand3to4 => case DecBandOver4 => case Distance19 =>
    case Dist23Km => case Dist16Km => case Dist20Km => case Distance16 =>
    case AccTotal => case DecTotal => case Rate19 => case Dist23 => case Rate23 =>
    case AccRate => case DecRate => case Dist16 => case Dist20 => case Rate20 =>
    case Rate16 => case AccDec2 => case AccDec2Rate => case AccDec4 =>
    case AccDec4Rate =>
  }

  /** No two named columns share a header text. */
  lemma HeadersDistinct(c: Column, d: Column)
    requires !c.Sheet? && !d.Sheet? && c != d
    ensures Header(c) != Header(d)
  {
    CandidateOfHeader(c);
    CandidateOfHeader(d);
  }

  /** One row of a sheet: the columns it has and their values. Every row of one frame
      has the same columns, so "column present" is a property of a row as of the frame. */
  type Row = map<Column, Cell>

  datatype Frame = Frame(columns: seq<Column>, rows: seq<Row>)

  /** Every row holds exactly the frame's columns. */
  ghost predicate WellFormed(f: Frame)
  {
    forall i :: 0 <= i < |f.rows| ==> f.rows[i].Keys == set c | c in f.columns
  }

  /** `series * k`. */
  function Times(c: Cell, k: real): (r: Cell)
    ensures r.NaN? <==> c.NaN?
  {
    match c
    case NaN => NaN
    case Num(x) => Num(x * k)
  }

  /** `a / b`: NaN when either side is NaN or the divisor is zero. */
  function Quot(a: Cell, b: Cell): (r: Cell)
    ensures r.Num? <==> a.Num? && b.Num? && b.v != 0.0
  {
    if a.NaN? || b.NaN? || b.v == 0.0 then NaN else Num(a.v / b.v)
  }

  /** A defined quotient times the divisor is the dividend; zero divided stays zero.
      (The arithmetic facts about cells are lemmas rather than postconditions so that
      unfolding a rule does not flood the prover with products.) */
  lemma QuotInverse(a: Cell, b: Cell)
    requires Quot(a, b).Num?
    ensures Quot(a, b).v * b.v == a.v
    ensures a.v == 0.0 ==> Quot(a, b).v == 0.0
  {
  }

  /** `series.fillna(d)`. */
  function FillNa(c: Cell, d: real): (r: Cell)
    ensures r.Num?
    ensures c.Num? ==> r == c
    ensures c.NaN? ==> r.v == d
  {
    if c.NaN? then Num(d) else c
  }

  /** `series.replace(0, 1)`. */
  function ReplaceZero(c: Cell): (r: Cell)
    ensures r.NaN? <==> c.NaN?
    ensures r.Num? ==> r.v != 0.0
    ensures c.Num? && c.v != 0.0 ==> r == c
  {
    if c == Num(0.0) then Num(1.0) else c
  }

  /** `x / (duration / 60)`: a total spread over the duration in minutes. */
  function PerMinute(x: Cell, duration: Cell): (r: Cell)
    ensures r.Num? <==> x.Num? && duration.Num? && duration.v != 0.0
  {
    Quot(x, Quot(duration, Num(60.0)))
  }

  /** A defined rate times the duration in minutes is the total it spreads; a zero
      total gives a zero rate. */
  lemma PerMinuteInverse(x: Cell, duration: Cell)
    requires PerMinute(x, duration).Num?
    ensures PerMinute(x, duration).v * (duration.v / 60.0) == x.v
    ensures x.v == 0.0 ==> PerMinute(x, duration).v == 0.0
  {
    QuotInverse(duration, Num(60.0));
    QuotInverse(x, Quot(duration, Num(60.0)));
  }

  /** The value of a cell with NaN read as zero, as pandas' row sum skips NaN. */
  function NumOrZero(c: Cell): real
  {
    if c.NaN? then 0.0 else c.v
  }

  function SumValues(cs: seq<Cell>): real
  {
    if |cs| == 0 then 0.0 else SumValues(cs[..|cs| - 1]) + NumOrZero(cs[|cs| - 1])
  }

  /** `frame[cols].sum(axis=1)` on one row: NaN cells are skipped, so the sum is
      always a number (zero when every cell is NaN). */
  function RowSum(r: Row, cols: seq<Column>): (s: Cell)
    requires HasAll(r, cols)
    ensures s.Num?
  {
    Num(SumValues(seq(|cols|, k requires 0 <= k < |cols| => r[cols[k]])))
  }

  /** The row sum over three columns holding numbers is their ordinary sum. */
  lemma RowSumOfThree(r: Row, cols: seq<Column>)
    requires HasAll(r, cols) && |cols| == 3
    requires r[cols[0]].Num? && r[cols[1]].Num? && r[cols[2]].Num?
    ensures RowSum(r, cols) == Num(r[cols[0]].v + r[cols[1]].v + r[cols[2]].v)
  {
    var cs := seq(|cols|, k requires 0 <= k < |cols| => r[cols[k]]);
    assert cs[..2] == cs[..|cs| - 1];
    assert cs[..2][..1] == cs[..2][..|cs[..2]| - 1];
    assert cs[..2][..1][..0] == [];
    assert SumValues(cs[..2][..1]) == r[cols[0]].v;
    assert SumValues(cs[..2]) == r[cols[0]].v + r[cols[1]].v;
  }

  /** A count cell that is missing or not negative. */
  predicate NonNegative(c: Cell)
  {
    c.NaN? || c.v >= 0.0
  }

  /** Row sums add up over concatenated cell sequences. */
  lemma {:induction false} SumValuesAppend(a: seq<Cell>, b: seq<Cell>)
    ensures SumValues(a + b) == SumValues(a) + SumValues(b)
    decreases |b|
  {
    if |b| > 0 {
      var b' := b[..|b| - 1];
      assert (a + b)[..|a + b| - 1] == a + b';
      SumValuesAppend(a, b');
    } else {
      assert a + b == a;
    }
  }

  /** A sum of non-negative cells is at least any one of them. */
  lemma {:induction false} SumValuesBoundsEach(cs: seq<Cell>, i: int)
    requires 0 <= i < |cs|
    requires forall k :: 0 <= k < |cs| ==> NonNegative(cs[k])
    ensures SumValues(cs) >= NumOrZero(cs[i])
    ensures SumValues(cs) >= 0.0
    decreases |cs|
  {
    var init := cs[..|cs| - 1];
    if i < |cs| - 1 {
      SumValuesBoundsEach(init, i);
    } else if |init| > 0 {
      SumValuesBoundsEach(init, 0);
    }
  }

  /** `all(col in frame.columns for col in cols)` on one row. */
  predicate HasAll(r: Row, cols: seq<Column>)
  {
    Covers(r.Keys, cols)
  }

  /** The cell of column `k`, NaN when the row lacks it (only read where a rule has
      checked the column, so the NaN is never used). */
  function Get(r: Row, k: Column): (c: Cell)
    ensures k in r ==> c == r[k]
  {
    if k in r then r[k] else NaN
  }

  /** The row sum over `cols` when the row has them all. */
  function SumIfAll(r: Row, cols: seq<Column>): (c: Cell)
    ensures HasAll(r, cols) ==> c == RowSum(r, cols)
  {
    if HasAll(r, cols) then RowSum(r, cols) else NaN
  }

  /** Rows `r` and `o` have the same columns among `cols`, with the same values. */
  predicate Agree(r: Row, o: Row, cols: set<Column>)
  {
    forall k :: k in cols ==> (k in r <==> k in o) && (k in r ==> r[k] == o[k])
  }

  /** Writing into columns the values they already hold changes nothing. */
  lemma MergeUnchanged(r: Row, m: Row)
    requires forall k :: k in m ==> k in r && r[k] == m[k]
    ensures r + m == r
  {
  }

  /** Two rows that agree on `cols` have the same row sum over them. */
  lemma SumIfAllAgrees(r: Row, o: Row, cols: seq<Column>)
    requires forall k :: 0 <= k < |cols| ==> (cols[k] in r <==> cols[k] in o)
    requires forall k :: 0 <= k < |cols| && cols[k] in r ==> r[cols[k]] == o[cols[k]]
    ensures HasAll(o, cols) == HasAll(r, cols)
    ensures SumIfAll(o, cols) == SumIfAll(r, cols)
  {
    if HasAll(r, cols) {
      assert seq(|cols|, k requires 0 <= k < |cols| => r[cols[k]])
          == seq(|cols|, k requires 0 <= k < |cols| => o[cols[k]]);
    }
  }

  /** The acceleration and deceleration count bands, lowest band first. */
  const AccBands: seq<Column> := [AccBand2to3, AccBand3to4, AccBandOver4]
  const DecBands: seq<Column> := [DecBand2to3, DecBand3to4, DecBandOver4]

  /** Columns `cols` are all in the set `have`. */
  predicate Covers(have: set<Column>, cols: seq<Column>)
  {
    forall k :: 0 <= k < |cols| ==> cols[k] in have
  }

  const MinDuration: real := 3900.0

  /** `frame["Durée"] >= 3900` on one row; a NaN duration compares false. */
  predicate LongEnough(r: Row)
  {
    Duration in r && r[Duration].Num? && r[Duration].v >= MinDuration
  }

  /** `filter_duration` on any rows `items` whose cells `cellsOf` gives, under the
      columns `columns`: keeps exactly the matches lasting at least 3900 s, in their
      original order; without a duration column it raises `KeyError`. */
  function KeepLong<T(!new)>(items: seq<T>, cellsOf: T -> Row, columns: set<Column>): (r: Result<seq<T>, Column>)
    ensures r.Err? <==> Duration !in columns
    ensures r.Err? ==> r.error == Duration
    ensures r.Ok? ==> SubsequenceOf(r.value, items)
    ensures r.Ok? ==> forall x :: multiset(r.value)[x] == if LongEnough(cellsOf(x)) then multiset(items)[x] else 0
  {
    if Duration !in columns then Err(Duration)
    else Ok(Filter(items, (x: T) => LongEnough(cellsOf(x))))
  }

  /** `filter_duration` on a frame: the same columns, the long rows. */
  function FilterDuration(f: Frame): (r: Result<Frame, Column>)
    ensures r.Err? <==> Duration !in f.columns
    ensures r.Err? ==> r.error == Duration
    ensures r.Ok? ==> r.value.columns == f.columns
    ensures r.Ok? ==> SubsequenceOf(r.value.rows, f.rows)
    ensures r.Ok? ==> forall row :: multiset(r.value.rows)[row] ==
                        if LongEnough(row) then multiset(f.rows)[row] else 0
  {
    match KeepLong(f.rows, (row: Row) => row, set c | c in f.columns)
    case Err(c) => Err(c)
    case Ok(rows) => Ok(Frame(f.columns, rows))
  }

  /** The "show matches < 3900 seconds" checkbox: ticked, the player's rows are kept
      as they are; unticked, they go through `filter_duration`. */
  function ApplyDurationChoice<T(!new)>(items: seq<T>, cellsOf: T -> Row, columns: set<Column>, showShort: bool):
    (r: Result<seq<T>, Column>)
    ensures showShort ==> r == Ok(items)
    ensures r.Err? <==> !showShort && Duration !in columns
    ensures r.Err? ==> r.error == Duration
    ensures !showShort && r.Ok? ==> SubsequenceOf(r.value, items)
    ensures !showShort && r.Ok? ==> forall x :: multiset(r.value)[x] == if LongEnough(cellsOf(x)) then multiset(items)[x] else 0
    ensures !showShort && r.Ok? ==> forall i :: 0 <= i < |r.value| ==> LongEnough(cellsOf(r.value[i]))
    ensures !showShort && r.Ok? ==> forall i :: 0 <= i < |items| && LongEnough(cellsOf(items[i])) ==> items[i] in r.value
  {
    if showShort then Ok(items)
    else
      var r := KeepLong(items, cellsOf, columns);
      if r.Ok? then
        assert forall i :: 0 <= i < |items| && LongEnough(cellsOf(items[i])) ==> multiset(r.value)[items[i]] > 0;
        assert forall i :: 0 <= i < |r.value| ==> r.value[i] in multiset(r.value);
        r
      else r
  }

  /** Filtering keeps the frame well formed. */
  lemma FilterKeepsShape(f: Frame)
    requires WellFormed(f)
    requires Duration in f.columns
    ensures WellFormed(FilterDuration(f).value)
  {
    var rows := FilterDuration(f).value.rows;
    forall i | 0 <= i < |rows|
      ensures rows[i].Keys == set c | c in f.columns
    {
      assert rows[i] in multiset(rows);
      assert rows[i] in multiset(f.rows);
    }
  }
}

=== FILE: heatmap.dfy ===
/** The heat map of a session: the X and Y coordinate cells of the player's first
    session row are parsed into metres, converted to pixels of a 945 by 612 raster,
    and every sample adds a bell-shaped influence to the raster, which is then
    divided by its maximum. */
module Heatmap {
  import opened Common
  import opened Text
  import opened Frames

  /** The raster: 945 pixels along the 105 m pitch length, 612 along its 68 m width. */
  const Width: nat := 945
  const Height: nat := 612
  const PitchLength: real := 105.0
  const PitchWidth: real := 68.0

  /** The spread of the influence, in pixels: a radius of 1 m at 105 m per 945 pixels. */
  const Sigma: real := 1.0 / (PitchLength / Width as real)

  lemma SigmaIsNine()
    ensures Sigma == 9.0
  {
  }

  /** A coordinate cell as stored in the sheet: a text of values separated by ';', a
      list of numbers, or one number. */
  datatype RawField = Text(s: string) | Numbers(xs: seq<Cell>) | Scalar(x: Cell)

  /** Every piece reads as a number. */
  predicate AllNumbers(pieces: seq<string>)
  {
    forall k :: 0 <= k < |pieces| ==> ParseNumber(pieces[k]).Some?
  }

  /** One piece of a text field as a coordinate, or `None` when `float` raises. */
  function ParseCell(piece: string): (r: Option<Cell>)
    ensures r.Some? <==> ParseNumber(piece).Some?
    ensures r.Some? ==> r.value == Num(ParseNumber(piece).value)
  {
    match ParseNumber(piece)
    case None => None
    case Some(v) => Some(Num(v))
  }

  /** The parsed pieces of a text field, or `None` as soon as one piece is not a number
      (`float` raising). */
  function ParsePieces(pieces: seq<string>): (r: Option<seq<Cell>>)
    ensures r.Some? <==> AllNumbers(pieces)
    ensures r.Some? ==> |r.value| == |pieces|
    ensures r.Some? ==> forall k :: 0 <= k < |pieces| ==> r.value[k] == Num(ParseNumber(pieces[k]).value)
  {
    MapAll(pieces, ParseCell)
  }

  /** The coordinates held by a field. */
  function Coordinates(f: RawField): (r: Option<seq<Cell>>)
    ensures f.Text? ==> (r.Some? <==> AllNumbers(Split(f.s, ';')))
    ensures f.Text? && r.Some? ==> |r.value| == Occurrences(f.s, ';') + 1
    ensures f.Numbers? ==> r == Some(f.xs)
    ensures f.Scalar? ==> r == Some([f.x])
  {
    match f
    case Text(s) =>
      var pieces := Split(s, ';');
      ParsePieces(pieces)
    case Numbers(xs) => Some(xs)
    case Scalar(x) => Some([x])
  }

  /** Python's `int` on a float: truncation toward zero. */
  function Trunc(x: real): (n: int)
    ensures x >= 0.0 ==> 0 <= n && n as real <= x < n as real + 1.0
    ensures x < 0.0 ==> n <= 0 && n as real - 1.0 < x <= n as real
  {
    if x >= 0.0 then x.Floor else -((-x).Floor)
  }

  /** A raster position; it may lie outside the raster. */
  datatype Pixel = Pixel(x: int, y: int)

  predicate InRaster(p: Pixel)
  {
    0 <= p.x < Width && 0 <= p.y < Height
  }

  /** A sample in metres as a pixel; `int` raises on a missing value. */
  function ToPixel(x: Cell, y: Cell): (r: Option<Pixel>)
    ensures r.Some? <==> x.Num? && y.Num?
  {
    if x.NaN? || y.NaN? then None
    else Some(Pixel(Trunc(x.v / PitchLength * Width as real), Trunc(y.v / PitchWidth * Height as real)))
  }

  /** A sample on the pitch lands on the raster. */
  lemma PitchSampleInRaster(x: real, y: real)
    requires 0.0 <= x < PitchLength && 0.0 <= y < PitchWidth
    ensures ToPixel(Num(x), Num(y)).Some? && InRaster(ToPixel(Num(x), Num(y)).value)
  {
    var p := ToPixel(Num(x), Num(y)).value;
    assert x / PitchLength * Width as real < Width as real;
    assert y / PitchWidth * Height as real < Height as real;
  }

  /** Every sample as a pixel, or `None` when one cannot be converted. */
  function ToPixels(xs: seq<Cell>, ys: seq<Cell>): (r: Option<seq<Pixel>>)
    requires |xs| == |ys|
    ensures r.Some? <==> forall k :: 0 <= k < |xs| ==> xs[k].Num? && ys[k].Num?
    ensures r.Some? ==> |r.value| == |xs|
    ensures r.Some? ==> forall k :: 0 <= k < |xs| ==> Some(r.value[k]) == ToPixel(xs[k], ys[k])
  {
    if |xs| == 0 then Some([])
    else
      match ToPixel(xs[0], ys[0])
      case None => None
      case Some(p) =>
        match ToPixels(xs[1..], ys[1..])
        case None => None
        case Some(rest) =>
          assert forall k :: 1 <= k < |xs| ==> xs[k] == xs[1..][k - 1] && ys[k] == ys[1..][k - 1];
          Some([p] + rest)
  }

  /** The influence of a sample at squared pixel distance `d`: `exp(-d / (2 sigma^2))`
      in the source, left abstract here; it is never negative, and it is positive and
      largest at the sample itself. */
  ghost predicate ValidKernel(kernel: nat -> real)
  {
    && (forall d: nat :: 0.0 <= kernel(d) <= kernel(0))
    && kernel(0) > 0.0
  }

  function SquaredDistance(p: Pixel, i: int, j: int): nat
  {
    (i - p.x) * (i - p.x) + (j - p.y) * (j - p.y)
  }

  /** The accumulated influence of the samples at raster cell (i, j). */
  function Density(ps: seq<Pixel>, kernel: nat -> real, i: int, j: int): (d: real)
    requires ValidKernel(kernel)
    ensures d >= 0.0
  {
    if |ps| == 0 then 0.0
    else Density(ps[..|ps| - 1], kernel, i, j) + kernel(SquaredDistance(ps[|ps| - 1], i, j))
  }

  /** One sample's influence is part of the density wherever it is counted. */
  lemma {:induction false} DensityCoversEach(ps: seq<Pixel>, kernel: nat -> real, i: int, j: int, k: int)
    requires ValidKernel(kernel)
    requires 0 <= k < |ps|
    ensures Density(ps, kernel, i, j) >= kernel(SquaredDistance(ps[k], i, j))
  {
    if k < |ps| - 1 {
      DensityCoversEach(ps[..|ps| - 1], kernel, i, j, k);
    }
  }

  /** Removing one sample from anywhere removes exactly its influence. */
  lemma {:induction false} DensityRemove(ps: seq<Pixel>, kernel: nat -> real, i: int, j: int, k: int)
    requires ValidKernel(kernel)
    requires 0 <= k < |ps|
    ensures Density(ps, kernel, i, j)
         == Density(ps[..k] + ps[k + 1..], kernel, i, j) + kernel(SquaredDistance(ps[k], i, j))
  {
    var n := |ps|;
    if k < n - 1 {
      var init := ps[..n - 1];
      DensityRemove(init, kernel, i, j, k);
      var rest := ps[..k] + ps[k + 1..];
      assert rest[..|rest| - 1] == init[..k] + init[k + 1..];
      assert rest[|rest| - 1] == ps[n - 1];
    } else {
      assert ps[..k] + ps[k + 1..] == ps[..n - 1];
    }
  }

  /** The order of the samples does not matter: the density depends only on the
      multiset of pixels. */
  lemma {:induction false} DensityOrderFree(a: seq<Pixel>, b: seq<Pixel>, kernel: nat -> real, i: int, j: int)
    requires ValidKernel(kernel)
    requires multiset(a) == multiset(b)
    ensures Density(a, kernel, i, j) == Density(b, kernel, i, j)
    decreases |a|
  {
    if |a| > 0 {
      var n := |a|;
      var last := a[n - 1];
      assert last in multiset(b);
      var m :| 0 <= m < |b| && b[m] == last;
      var b' := b[..m] + b[m + 1..];
      assert b == b[..m] + [b[m]] + b[m + 1..];
      assert a == a[..n - 1] + [last];
      assert multiset(b) == multiset(b[..m]) + multiset{last} + multiset(b[m + 1..]);
      assert multiset(b') == multiset(b[..m]) + multiset(b[m + 1..]);
      assert multiset(a) == multiset(a[..n - 1]) + multiset{last};
      assert multiset(a[..n - 1]) == multiset(a) - multiset{last};
      assert multiset(b') == multiset(b) - multiset{last};
      DensityOrderFree(a[..n - 1], b', kernel, i, j);
      DensityRemove(b, kernel, i, j, m);
    } else {
      assert |b| == 0;
    }
  }

  /** A grid of raster values, indexed `[x][y]`. */
  type Grid = seq<seq<real>>

  predicate IsGrid(g: Grid)
  {
    |g| == Width && forall i :: 0 <= i < |g| ==> |g[i]| == Height
  }

  /** The accumulated raster of a list of samples. */
  function Raster(ps: seq<Pixel>, kernel: nat -> real): (g: Grid)
    requires ValidKernel(kernel)
    ensures IsGrid(g)
  {
    seq(Width, i requires 0 <= i < Width =>
      seq(Height, j requires 0 <= j < Height => Density(ps, kernel, i, j)))
  }

  /** One sample's influence over the whole raster (the transposed Gaussian matrix). */
  function Influence(p: Pixel, kernel: nat -> real): (g: Grid)
    ensures IsGrid(g)
  {
    seq(Width, i requires 0 <= i < Width =>
      seq(Height, j requires 0 <= j < Height => kernel(SquaredDistance(p, i, j))))
  }

  function Add(g: Grid, h: Grid): (s: Grid)
    requires IsGrid(g) && IsGrid(h)
    ensures IsGrid(s)
    ensures forall i, j :: 0 <= i < Width && 0 <= j < Height ==> s[i][j] == g[i][j] + h[i][j]
  {
    seq(Width, i requires 0 <= i < Width =>
      seq(Height, j requires 0 <= j < Height => g[i][j] + h[i][j]))
  }

  /** Adding one more sample's influence to the raster of the earlier samples. */
  lemma RasterStep(ps: seq<Pixel>, kernel: nat -> real, k: nat)
    requires ValidKernel(kernel)
    requires k < |ps|
    ensures Raster(ps[..k + 1], kernel) == Add(Raster(ps[..k], kernel), Influence(ps[k], kernel))
  {
    var l := Raster(ps[..k + 1], kernel);
    var r := Add(Raster(ps[..k], kernel), Influence(ps[k], kernel));
    assert ps[..k + 1][..k] == ps[..k];
    forall i | 0 <= i < Width
      ensures l[i] == r[i]
    {
      assert forall j :: 0 <= j < Height ==> l[i][j] == r[i][j];
    }
  }

  /** The loop of the source: start from the zero raster and add each sample's
      influence in turn. */
  method Accumulate(ps: seq<Pixel>, kernel: nat -> real) returns (heat: Grid)
    requires ValidKernel(kernel)
    ensures IsGrid(heat)
    ensures heat == Raster(ps, kernel)
  {
    heat := Raster([], kernel);
    var k := 0;
    while k < |ps|
      invariant 0 <= k <= |ps|
      invariant heat == Raster(ps[..k], kernel)
    {
      RasterStep(ps, kernel, k);
      heat := Add(heat, Influence(ps[k], kernel));
      k := k + 1;
    }
    assert ps[..k] == ps;
  }

  /** `np.max` of a grid. */
  function GridMax(g: Grid): (m: real)
    requires IsGrid(g)
    ensures forall i, j :: 0 <= i < Width && 0 <= j < Height ==> g[i][j] <= m
    ensures exists i, j :: 0 <= i < Width && 0 <= j < Height && g[i][j] == m
  {
    var rows := seq(Width, i requires 0 <= i < Width => Max(g[i]));
    var m := Max(rows);
    assert forall i :: 0 <= i < Width ==> rows[i] == Max(g[i]);
    m
  }

  /** `heatmap /= np.max(heatmap)`; a zero maximum makes every cell 0/0, which no
      later step can draw, so it is `None`. */
  function Normalise(g: Grid): (r: Option<Grid>)
    requires IsGrid(g)
    ensures r.None? <==> GridMax(g) == 0.0
    ensures r.Some? ==> IsGrid(r.value)
    ensures r.Some? ==> forall i, j :: 0 <= i < Width && 0 <= j < Height ==> r.value[i][j] * GridMax(g) == g[i][j]
  {
    var m := GridMax(g);
    if m == 0.0 then None
    else Some(seq(Width, i requires 0 <= i < Width =>
           seq(Height, j requires 0 <= j < Height => g[i][j] / m)))
  }

  /** No cell of the grid is negative. */
  predicate NonNegativeGrid(g: Grid)
    requires IsGrid(g)
  {
    forall i, j :: 0 <= i < Width && 0 <= j < Height ==> g[i][j] >= 0.0
  }

  /** One cell of a non-negative grid with a positive maximum normalises into [0, 1],
      and to 1 exactly where the maximum is. */
  lemma NormalisedCell(g: Grid, i: int, j: int)
    requires IsGrid(g) && NonNegativeGrid(g) && GridMax(g) != 0.0
    requires 0 <= i < Width && 0 <= j < Height
    ensures 0.0 <= Normalise(g).value[i][j] <= 1.0
    ensures Normalise(g).value[i][j] == 1.0 <==> g[i][j] == GridMax(g)
  {
    var m := GridMax(g);
    assert m >= g[i][j] >= 0.0;
    assert Normalise(g).value[i][j] == g[i][j] / m;
    RatioInUnit(g[i][j], m);
  }

  lemma RatioInUnit(a: real, m: real)
    requires 0.0 <= a <= m && m > 0.0
    ensures 0.0 <= a / m <= 1.0
    ensures a / m == 1.0 <==> a == m
  {
  }

  /** A non-negative raster with a positive maximum normalises into [0, 1], with the
      value 1 where the maximum was. */
  lemma NormalisedRange(g: Grid)
    requires IsGrid(g) && NonNegativeGrid(g)
    requires GridMax(g) != 0.0
    ensures forall i, j :: 0 <= i < Width && 0 <= j < Height ==> 0.0 <= Normalise(g).value[i][j] <= 1.0
    ensures exists i, j :: 0 <= i < Width && 0 <= j < Height && Normalise(g).value[i][j] == 1.0
  {
    forall i, j | 0 <= i < Width && 0 <= j < Height
      ensures 0.0 <= Normalise(g).value[i][j] <= 1.0
    {
      NormalisedCell(g, i, j);
    }
    var i, j :| 0 <= i < Width && 0 <= j < Height && g[i][j] == GridMax(g);
    NormalisedCell(g, i, j);
  }

  /** A sample on the raster makes the maximum positive, so the raster normalises. */
  lemma SampleInRasterNormalises(ps: seq<Pixel>, kernel: nat -> real, k: int)
    requires ValidKernel(kernel)
    requires 0 <= k < |ps| && InRaster(ps[k])
    ensures GridMax(Raster(ps, kernel)) > 0.0
    ensures Normalise(Raster(ps, kernel)).Some?
  {
    var p := ps[k];
    DensityCoversEach(ps, kernel, p.x, p.y, k);
    assert SquaredDistance(p, p.x, p.y) == 0;
    var g := Raster(ps, kernel);
    assert g[p.x][p.y] == Density(ps, kernel, p.x, p.y);
  }

  /** Without samples the raster is all zero and cannot be normalised. */
  lemma NoSamplesNoMap(kernel: nat -> real)
    requires ValidKernel(kernel)
    ensures Normalise(Raster([], kernel)).None?
  {
    var g := Raster([], kernel);
    var i, j :| 0 <= i < Width && 0 <= j < Height && g[i][j] == GridMax(g);
    assert g[i][j] == Density([], kernel, i, j);
  }

  /** What the heat-map module shows: the error message of an exception, or the map
      (`None` when there is nothing to normalise), after the length-mismatch error
      message when the two fields disagree. */
  datatype Outcome = Failed | Drawn(mismatch: bool, heat: Option<Grid>)

  /** The pairs of coordinates to draw: both lists emptied when their lengths differ. */
  function Pairs(xs: seq<Cell>, ys: seq<Cell>): (r: (seq<Cell>, seq<Cell>))
    ensures |r.0| == |r.1|
    ensures |xs| == |ys| ==> r == (xs, ys)
    ensures |xs| != |ys| ==> r == ([], [])
  {
    if |xs| != |ys| then ([], []) else (xs, ys)
  }

  /** A drawable heat map: every cell in [0, 1] and the hottest cell at 1. */
  ghost predicate UnitGrid(g: Grid)
  {
    && IsGrid(g)
    && (forall i, j :: 0 <= i < Width && 0 <= j < Height ==> 0.0 <= g[i][j] <= 1.0)
    && exists i, j :: 0 <= i < Width && 0 <= j < Height && g[i][j] == 1.0
  }

  lemma NormalisedIsUnit(g: Grid)
    requires IsGrid(g) && NonNegativeGrid(g)
    ensures Normalise(g).Some? ==> UnitGrid(Normalise(g).value)
  {
    if GridMax(g) != 0.0 {
      NormalisedRange(g);
    }
  }

  lemma RasterNonNegative(ps: seq<Pixel>, kernel: nat -> real)
    requires ValidKernel(kernel)
    ensures NonNegativeGrid(Raster(ps, kernel))
  {
    var g := Raster(ps, kernel);
    forall i, j | 0 <= i < Width && 0 <= j < Height
      ensures g[i][j] >= 0.0
    {
      assert g[i][j] == Density(ps, kernel, i, j);
    }
  }

  /** Some sample of two equally long coordinate lists has a missing value. */
  predicate SomeMissing(xs: seq<Cell>, ys: seq<Cell>)
  {
    exists k :: 0 <= k < |xs| == |ys| && (xs[k].NaN? || ys[k].NaN?)
  }

  /** The heat-map module on the X and Y fields of the first session row. A parse error,
      or a missing value among equally many X and Y values, loses the whole map;
      differing lengths draw nothing after an error message; otherwise the map drawn is
      the raster of the samples' pixels divided by its maximum, which lies in [0, 1]
      with its hottest cell at 1. */
  function HeatMap(xField: RawField, yField: RawField, kernel: nat -> real): (r: Outcome)
    requires ValidKernel(kernel)
    ensures r.Failed? <==> || Coordinates(xField).None? || Coordinates(yField).None?
                           || SomeMissing(Coordinates(xField).value, Coordinates(yField).value)
    ensures r.Drawn? ==> (r.mismatch <==> |Coordinates(xField).value| != |Coordinates(yField).value|)
    ensures r.Drawn? && r.mismatch ==> r.heat.None?
    ensures r.Drawn? ==>
              var pairs := Pairs(Coordinates(xField).value, Coordinates(yField).value);
              && ToPixels(pairs.0, pairs.1).Some?
              && r.heat == Normalise(Raster(ToPixels(pairs.0, pairs.1).value, kernel))
    ensures r.Drawn? && r.heat.Some? ==> UnitGrid(r.heat.value)
  {
    match Coordinates(xField)
    case None => Failed
    case Some(xs) =>
      match Coordinates(yField)
      case None => Failed
      case Some(ys) =>
        var (px, py) := Pairs(xs, ys);
        match ToPixels(px, py)
        case None =>
          assert SomeMissing(xs, ys);
          Failed
        case Some(ps) =>
          assert !SomeMissing(xs, ys) by {
            if |xs| == |ys| {
              forall k | 0 <= k < |xs| ensures xs[k].Num? && ys[k].Num? {
                assert Some(ps[k]) == ToPixel(xs[k], ys[k]);
              }
            }
          }
          var raster := Raster(ps, kernel);
          RasterNonNegative(ps, kernel);
          NormalisedIsUnit(raster);
          if |xs| != |ys| then
            NoSamplesNoMap(kernel);
            Drawn(true, Normalise(raster))
          else Drawn(false, Normalise(raster))
  }

  /** The module on the first session row, whose "X" and "Y" cells are `None` when the
      sheet has no such column: `iloc[0]["X"]` then raises `KeyError`, which the
      module's `except` turns into its error message, as it does any other failure. */
  function HeatMapOfRow(x: Option<RawField>, y: Option<RawField>, kernel: nat -> real): (r: Outcome)
    requires ValidKernel(kernel)
    ensures r.Failed? <==> x.None? || y.None? || HeatMap(x.value, y.value, kernel).Failed?
    ensures x.Some? && y.Some? ==> r == HeatMap(x.value, y.value, kernel)
  {
    if x.None? || y.None? then Failed else HeatMap(x.value, y.value, kernel)
  }

  /** Present samples, one of them on the pitch, give pixels whose raster normalises. */
  lemma PitchSampleNormalises(xs: seq<Cell>, ys: seq<Cell>, kernel: nat -> real, k: int)
    requires ValidKernel(kernel)
    requires |xs| == |ys|
    requires forall n :: 0 <= n < |xs| ==> xs[n].Num? && ys[n].Num?
    requires 0 <= k < |xs|
    requires 0.0 <= xs[k].v < PitchLength && 0.0 <= ys[k].v < PitchWidth
    ensures !SomeMissing(xs, ys)
    ensures ToPixels(xs, ys).Some?
    ensures Normalise(Raster(ToPixels(xs, ys).value, kernel)).Some?
  {
    var ps := ToPixels(xs, ys).value;
    PitchSampleInRaster(xs[k].v, ys[k].v);
    assert ps[k] == ToPixel(Num(xs[k].v), Num(ys[k].v)).value;
    SampleInRasterNormalises(ps, kernel, k);
  }

  /** With matching lengths and every value present, one sample on the pitch is
      enough for the map to be drawn. */
  lemma PitchSampleShowsMap(xField: RawField, yField: RawField, kernel: nat -> real,
                            xs: seq<Cell>, ys: seq<Cell>, k: int)
    requires ValidKernel(kernel)
    requires Coordinates(xField) == Some(xs) && Coordinates(yField) == Some(ys)
    requires |xs| == |ys|
    requires forall n :: 0 <= n < |xs| ==> xs[n].Num? && ys[n].Num?
    requires 0 <= k < |xs|
    requires 0.0 <= xs[k].v < PitchLength && 0.0 <= ys[k].v < PitchWidth
    ensures HeatMap(xField, yField, kernel).Drawn?
    ensures HeatMap(xField, yField, kernel).heat.Some?
  {
    PitchSampleNormalises(xs, ys, kernel, k);
    var r := HeatMap(xField, yField, kernel);
    assert r.Drawn? && !r.mismatch;
    assert r.heat == Normalise(Raster(ToPixels(xs, ys).value, kernel));
  }

  /** One sample alone is hottest at its own pixel: its raster normalises to 1 there. */
  lemma SingleSampleHottestAtItself(p: Pixel, kernel: nat -> real)
    requires ValidKernel(kernel)
    requires InRaster(p)
    ensures Normalise(Raster([p], kernel)).Some?
    ensures Normalise(Raster([p], kernel)).value[p.x][p.y] == 1.0
  {
    var g := Raster([p], kernel);
    assert Density([], kernel, p.x, p.y) == 0.0;
    assert SquaredDistance(p, p.x, p.y) == 0;
    assert g[p.x][p.y] == kernel(0);
    var i, j :| 0 <= i < Width && 0 <= j < Height && g[i][j] == GridMax(g);
    assert g[i][j] == Density([p], kernel, i, j) == kernel(SquaredDistance(p, i, j));
    assert GridMax(g) == g[p.x][p.y];
    RasterNonNegative([p], kernel);
    NormalisedCell(g, p.x, p.y);
  }
}

=== FILE: masculine.dfy ===
/** The masculine module's `compute_additional_columns`: derived columns added to each
    tracking row when the columns they come from are present. Unlike the feminine rules,
    every per-minute rate replaces a zero duration by 1, and most numerators read a
    missing value as 0. */
module Masculine {
  import opened Frames

  /** All six acceleration and deceleration bands. */
  const SixBands: seq<Column> :=
    [AccBand2to3, AccBand3to4, AccBandOver4, DecBand2to3, DecBand3to4, DecBandOver4]

  /** The two bands above 4 m/s². */
  const TopBands: seq<Column> := [AccBandOver4, DecBandOver4]

  /** Every column this module may write. */
  const DerivedNames: set<Column> := {Dist16, Dist20, Rate20, Rate16, AccDec2, AccDec2Rate, AccDec4, AccDec4Rate}

  /** The columns the rules read besides the two totals they both read and write. */
  const SourceNames: set<Column> :=
    {AccBand2to3, AccBand3to4, AccBandOver4, DecBand2to3, DecBand3to4, DecBandOver4,
     Dist16Km, Dist20Km, Distance16, Duration}

  lemma SourcesAreNotDerived()
    ensures SourceNames !! DerivedNames
  {
  }

  /** Every band is a source column. */
  lemma BandsAreSources()
    ensures forall k :: 0 <= k < |SixBands| ==> SixBands[k] in SourceNames
    ensures forall k :: 0 <= k < |TopBands| ==> TopBands[k] in SourceNames
  {
  }

  /** `x / (duration.replace(0, 1) / 60)`. */
  function GuardedPerMinute(x: Cell, duration: Cell): (r: Cell)
    ensures r.Num? <==> x.Num? && duration.Num?
  {
    PerMinute(x, ReplaceZero(duration))
  }

  /** A defined guarded rate times the duration in minutes is the total it spreads,
      except that a zero duration counts as one second. */
  lemma GuardedInverse(x: Cell, duration: Cell)
    requires x.Num? && duration.Num?
    ensures duration.v != 0.0 ==> GuardedPerMinute(x, duration).v * (duration.v / 60.0) == x.v
    ensures duration.v == 0.0 ==> GuardedPerMinute(x, duration).v == 60.0 * x.v
    ensures x.v == 0.0 ==> GuardedPerMinute(x, duration).v == 0.0
  {
    PerMinuteInverse(x, ReplaceZero(duration));
  }

  /** A total column as it stands once the total rules have run: the fresh band sum
      when the bands are all there, otherwise whatever the row already held. */
  function TotalNow(r: Row, total: Column, bands: seq<Column>): Cell
  {
    if HasAll(r, bands) then RowSum(r, bands) else Get(r, total)
  }

  /** The total column exists once the total rules have run. */
  predicate TotalPresent(cols: set<Column>, total: Column, bands: seq<Column>)
  {
    Covers(cols, bands) || total in cols
  }

  /** Which of the columns the rules test a frame has. */
  datatype Presence = Presence(
    dist16Km: bool, dist20Km: bool, distance16: bool, duration: bool,
    sixBands: bool, topBands: bool, total2: bool, total4: bool)

  function PresenceOf(cols: set<Column>): Presence
  {
    Presence(Dist16Km in cols, Dist20Km in cols, Distance16 in cols, Duration in cols,
             Covers(cols, SixBands), Covers(cols, TopBands),
             TotalPresent(cols, AccDec2, SixBands), TotalPresent(cols, AccDec4, TopBands))
  }

  /** What the rules read from one row: four cells, the two band sums, and the two
      totals as they stand after the total rules. */
  datatype Inputs = Inputs(
    dist16Km: Cell, dist20Km: Cell, distance16: Cell, duration: Cell,
    sixSum: Cell, topSum: Cell, total2: Cell, total4: Cell)

  function InputsOf(r: Row): Inputs
  {
    Inputs(Get(r, Dist16Km), Get(r, Dist20Km), Get(r, Distance16), Get(r, Duration),
           SumIfAll(r, SixBands), SumIfAll(r, TopBands),
           TotalNow(r, AccDec2, SixBands), TotalNow(r, AccDec4, TopBands))
  }

  /** Whether the rule writing column `k` fires. The per-minute counts fire on their
      total column, whether a rule just wrote it or the sheet had it. */
  predicate Fires(p: Presence, k: Column)
  {
    match k
    case Dist16 => p.dist16Km
    case Dist20 => p.dist20Km
    case Rate20 => p.dist20Km && p.duration
    case Rate16 => p.distance16 && p.duration
    case AccDec2 => p.sixBands
    case AccDec2Rate => p.total2 && p.duration
    case AccDec4 => p.topBands
    case AccDec4Rate => p.total4 && p.duration
    case _ => false
  }

  /** The columns written for a frame whose columns are `cols`. */
  function DerivedColumns(cols: set<Column>): (ds: set<Column>)
    ensures ds <= DerivedNames
    ensures forall k :: k in ds <==> k in DerivedNames && Fires(PresenceOf(cols), k)
  {
    set k | k in DerivedNames && Fires(PresenceOf(cols), k)
  }

  /** The value the rule for derived column `k` writes. */
  function Rule(x: Inputs, k: Column): Cell
  {
    match k
    case Dist16 => x.dist16Km
    case Dist20 => Times(x.dist20Km, 1000.0)
    case Rate20 => GuardedPerMinute(FillNa(Times(x.dist20Km, 1000.0), 0.0), x.duration)
    case Rate16 => GuardedPerMinute(x.distance16, x.duration)
    case AccDec2 => x.sixSum
    case AccDec2Rate => GuardedPerMinute(FillNa(x.total2, 0.0), x.duration)
    case AccDec4 => x.topSum
    case AccDec4Rate => GuardedPerMinute(FillNa(x.total4, 0.0), x.duration)
    case _ => NaN
  }

  /** `compute_additional_columns` on one row: it never raises, adds exactly the
      columns whose rules fire, and changes no column it does not derive. */
  function Derive(r: Row): (o: Row)
    ensures o.Keys == r.Keys + DerivedColumns(r.Keys)
    ensures forall k :: k in r && k !in DerivedColumns(r.Keys) ==> o[k] == r[k]
  {
    r + map k | k in DerivedColumns(r.Keys) :: Rule(InputsOf(r), k)
  }

  /** A derived column whose rule fires holds the rule's value. */
  lemma Written(r: Row, k: Column)
    requires k in DerivedNames && Fires(PresenceOf(r.Keys), k)
    ensures k in Derive(r) && Derive(r)[k] == Rule(InputsOf(r), k)
  {
  }

  /** A total column in the output holds the total as it stands after the total
      rules. */
  lemma TotalsWritten(r: Row)
    ensures AccDec2 in Derive(r) ==> Derive(r)[AccDec2] == TotalNow(r, AccDec2, SixBands)
    ensures AccDec4 in Derive(r) ==> Derive(r)[AccDec4] == TotalNow(r, AccDec4, TopBands)
  {
    if HasAll(r, SixBands) { Written(r, AccDec2); }
    if HasAll(r, TopBands) { Written(r, AccDec4); }
  }

  /** Each per-minute count is computed from its total column as it stands after the
      total rules, which is the value the output row holds in that column. */
  lemma RatesReadTheirTotals(r: Row)
    requires Duration in r
    ensures var o := Derive(r);
      && (AccDec2 in o ==> AccDec2Rate in o && o[AccDec2Rate] == GuardedPerMinute(FillNa(o[AccDec2], 0.0), r[Duration]))
      && (AccDec4 in o ==> AccDec4Rate in o && o[AccDec4Rate] == GuardedPerMinute(FillNa(o[AccDec4], 0.0), r[Duration]))
  {
    TotalsWritten(r);
    if AccDec2 in Derive(r) {
      Written(r, AccDec2Rate);
    }
    if AccDec4 in Derive(r) {
      Written(r, AccDec4Rate);
    }
  }

  /** Whatever number the duration holds, zero included, the rates whose numerator
      goes through `fillna(0)` are numbers; a zero duration counts as one second. */
  lemma ZeroDurationIsGuarded(r: Row, d: real)
    requires Duration in r && r[Duration] == Num(d)
    ensures Rule(InputsOf(r), Rate20).Num?
    ensures Rule(InputsOf(r), AccDec2Rate).Num? && Rule(InputsOf(r), AccDec4Rate).Num?
    ensures d == 0.0 ==> Rule(InputsOf(r), AccDec2Rate).v == 60.0 * NumOrZero(TotalNow(r, AccDec2, SixBands))
    ensures d == 0.0 ==> Rule(InputsOf(r), AccDec4Rate).v == 60.0 * NumOrZero(TotalNow(r, AccDec4, TopBands))
  {
    var x := InputsOf(r);
    GuardedInverse(FillNa(x.total2, 0.0), x.duration);
    GuardedInverse(FillNa(x.total4, 0.0), x.duration);
  }

  /** `fillna(0)` applies to every numerator except the distance above 16 km/h: a
      missing 20 km/h distance gives a zero rate, a missing 16 km/h distance gives none. */
  lemma MissingNumerators(r: Row, d: real)
    requires Duration in r && r[Duration] == Num(d)
    ensures Dist20Km in r && r[Dist20Km].NaN? ==> Rule(InputsOf(r), Rate20) == Num(0.0)
    ensures Distance16 in r && r[Distance16].NaN? ==> Rule(InputsOf(r), Rate16) == NaN
  {
    GuardedInverse(Num(0.0), Num(d));
  }

  /** Multiplying a per-minute distance by the (non-zero) duration in minutes gives
      back the distance it was computed from, in metres for the 20 km/h band. */
  lemma DistanceRatesRecoverTotals(r: Row, d: real)
    requires Duration in r && r[Duration] == Num(d) && d != 0.0
    ensures Dist20Km in r && r[Dist20Km].Num? ==>
              && Rule(InputsOf(r), Dist20).v == 1000.0 * r[Dist20Km].v
              && Rule(InputsOf(r), Rate20).v * (d / 60.0) == Rule(InputsOf(r), Dist20).v
    ensures Distance16 in r && r[Distance16].Num? ==>
              Rule(InputsOf(r), Rate16).v * (d / 60.0) == r[Distance16].v
  {
    var x := InputsOf(r);
    if Dist20Km in r && r[Dist20Km].Num? {
      GuardedInverse(Times(x.dist20Km, 1000.0), x.duration);
    }
    if Distance16 in r && r[Distance16].Num? {
      GuardedInverse(x.distance16, x.duration);
    }
  }

  /** Multiplying a per-minute count by the (non-zero) duration in minutes gives back
      its total column as it stands after the total rules, a missing total reading
      as zero. */
  lemma CountRatesRecoverTotals(r: Row, d: real)
    requires Duration in r && r[Duration] == Num(d) && d != 0.0
    ensures Rule(InputsOf(r), AccDec2Rate).v * (d / 60.0) == NumOrZero(TotalNow(r, AccDec2, SixBands))
    ensures Rule(InputsOf(r), AccDec4Rate).v * (d / 60.0) == NumOrZero(TotalNow(r, AccDec4, TopBands))
  {
    var x := InputsOf(r);
    GuardedInverse(FillNa(x.total2, 0.0), x.duration);
    GuardedInverse(FillNa(x.total4, 0.0), x.duration);
  }

  /** The total over all six bands is the acceleration total plus the deceleration
      total. */
  lemma SixBandsSplit(r: Row)
    requires HasAll(r, SixBands)
    ensures HasAll(r, AccBands) && HasAll(r, DecBands)
    ensures RowSum(r, SixBands).v == RowSum(r, AccBands).v + RowSum(r, DecBands).v
  {
    assert AccBands == SixBands[..3] && DecBands == SixBands[3..];
    assert HasAll(r, AccBands) && HasAll(r, DecBands);
    var a := seq(|AccBands|, k requires 0 <= k < |AccBands| => r[AccBands[k]]);
    var b := seq(|DecBands|, k requires 0 <= k < |DecBands| => r[DecBands[k]]);
    assert seq(|SixBands|, k requires 0 <= k < |SixBands| => r[SixBands[k]]) == a + b;
    SumValuesAppend(a, b);
  }

  /** The sum over the two top bands is the sum of their two cells. */
  lemma TopBandsSum(r: Row)
    requires HasAll(r, TopBands)
    ensures AccBandOver4 in r && DecBandOver4 in r
    ensures RowSum(r, TopBands).v == NumOrZero(r[AccBandOver4]) + NumOrZero(r[DecBandOver4])
  {
    assert TopBands[0] == AccBandOver4 && TopBands[1] == DecBandOver4;
    var t := seq(|TopBands|, k requires 0 <= k < |TopBands| => r[TopBands[k]]);
    assert t[..1] == [r[AccBandOver4]];
    assert t[..1][..0] == [];
    assert SumValues(t[..1]) == NumOrZero(r[AccBandOver4]);
    assert SumValues(t) == SumValues(t[..1]) + NumOrZero(t[1]);
  }

  /** With counts that are never negative, the count above 4 m/s² never exceeds the
      count above 2 m/s²: its two bands are among the six. */
  lemma TopCountWithinAll(r: Row)
    requires HasAll(r, SixBands)
    requires forall k :: 0 <= k < |SixBands| ==> NonNegative(r[SixBands[k]])
    ensures HasAll(r, TopBands)
    ensures Rule(InputsOf(r), AccDec4).v <= Rule(InputsOf(r), AccDec2).v
  {
    SixBandsSplit(r);
    assert AccBands == SixBands[..3] && DecBands == SixBands[3..];
    var a := seq(|AccBands|, k requires 0 <= k < |AccBands| => r[AccBands[k]]);
    var b := seq(|DecBands|, k requires 0 <= k < |DecBands| => r[DecBands[k]]);
    SumValuesBoundsEach(a, 2);
    SumValuesBoundsEach(b, 2);
    TopBandsSum(r);
  }

  /** The rules read only the source columns and the two totals as they stand after
      the total rules: two rows that agree on those derive the same columns and values. */
  lemma RulesReadSources(r: Row, o: Row)
    requires Agree(r, o, SourceNames)
    requires TotalPresent(o.Keys, AccDec2, SixBands) == TotalPresent(r.Keys, AccDec2, SixBands)
    requires TotalPresent(o.Keys, AccDec4, TopBands) == TotalPresent(r.Keys, AccDec4, TopBands)
    requires TotalNow(o, AccDec2, SixBands) == TotalNow(r, AccDec2, SixBands)
    requires TotalNow(o, AccDec4, TopBands) == TotalNow(r, AccDec4, TopBands)
    ensures PresenceOf(o.Keys) == PresenceOf(r.Keys)
    ensures InputsOf(o) == InputsOf(r)
  {
    SumIfAllAgrees(r, o, SixBands);
    SumIfAllAgrees(r, o, TopBands);
  }

  /** The computation leaves the source columns as they were, and each total as it
      stands after the total rules. */
  lemma KeepsSources(r: Row)
    ensures Agree(r, Derive(r), SourceNames)
    ensures TotalPresent(Derive(r).Keys, AccDec2, SixBands) == TotalPresent(r.Keys, AccDec2, SixBands)
    ensures TotalPresent(Derive(r).Keys, AccDec4, TopBands) == TotalPresent(r.Keys, AccDec4, TopBands)
    ensures TotalNow(Derive(r), AccDec2, SixBands) == TotalNow(r, AccDec2, SixBands)
    ensures TotalNow(Derive(r), AccDec4, TopBands) == TotalNow(r, AccDec4, TopBands)
  {
    KeepsSourceCells(r);
    KeepsTotal(r, AccDec2, SixBands);
    KeepsTotal(r, AccDec4, TopBands);
  }

  /** Each total stands after the computation as it stood once the total rules had
      run. */
  lemma KeepsTotal(r: Row, total: Column, bands: seq<Column>)
    requires (total, bands) == (AccDec2, SixBands) || (total, bands) == (AccDec4, TopBands)
    ensures TotalPresent(Derive(r).Keys, total, bands) == TotalPresent(r.Keys, total, bands)
    ensures TotalNow(Derive(r), total, bands) == TotalNow(r, total, bands)
  {
    KeepsSourceCells(r);
    BandsAreSources();
    TotalKept(r, Derive(r), total, bands);
  }

  /** A row `o` that agrees with `r` on the bands, and on the total whenever the bands
      are incomplete, holds the same total once the total rules have run. */
  lemma TotalKept(r: Row, o: Row, total: Column, bands: seq<Column>)
    requires forall k :: 0 <= k < |bands| ==> (bands[k] in r <==> bands[k] in o)
    requires forall k :: 0 <= k < |bands| && bands[k] in r ==> r[bands[k]] == o[bands[k]]
    requires !HasAll(r, bands) ==> (total in o <==> total in r) && (total in r ==> o[total] == r[total])
    ensures TotalPresent(o.Keys, total, bands) == TotalPresent(r.Keys, total, bands)
    ensures TotalNow(o, total, bands) == TotalNow(r, total, bands)
  {
    SumIfAllAgrees(r, o, bands);
  }

  /** The computation leaves every source cell as it was. */
  lemma KeepsSourceCells(r: Row)
    ensures Agree(r, Derive(r), SourceNames)
  {
    SourcesAreNotDerived();
    var o := Derive(r);
    forall k | k in SourceNames
      ensures (k in r <==> k in o) && (k in r ==> r[k] == o[k])
    {
      assert k !in DerivedNames;
    }
  }

  /** Applying the computation to its own output changes nothing, although two of the
      columns it writes are also columns it reads. */
  lemma {:induction false} DeriveIdempotent(r: Row)
    ensures Derive(Derive(r)) == Derive(r)
  {
    var o := Derive(r);
    KeepsSources(r);
    RulesReadSources(r, o);
    var ks := DerivedColumns(o.Keys);
    forall k | k in ks
      ensures k in o && o[k] == Rule(InputsOf(o), k)
    {
      Written(r, k);
    }
    MergeUnchanged(o, map k | k in ks :: Rule(InputsOf(o), k));
  }
}

=== FILE: recovery.dfy ===
/** The heart-rate recovery page: elapsed minutes from the first timestamp, a closed
    range chosen by the user, the maximum, mean and minimum heart rate over that
    range, and the drop from the maximum 1, 2, 3 and 5 minutes after it, each read
    at the sample of the whole recording nearest in time. */
module Recovery {
  import opened Common

  const TimeColumn := "Time"
  const HeartRateColumn := "HR (bpm)"

  /** The minutes after the maximum at which the recovery is read. */
  const Offsets: seq<real> := [1.0, 2.0, 3.0, 5.0]

  /** One line of the recording: its timestamp in seconds (`None` when it does not
      read as a date and is coerced to `NaT`) and its heart rate. */
  datatype Sample = Sample(time: Option<real>, hr: real)

  /** The recording: its column names and its lines. */
  datatype Recording = Recording(columns: set<string>, samples: seq<Sample>)

  /** The earliest timestamp that is present; `NaT` lines are skipped. */
  function EarliestTime(s: seq<Sample>): (r: Option<real>)
    ensures r.None? <==> forall k :: 0 <= k < |s| ==> s[k].time.None?
    ensures r.Some? ==> forall k :: 0 <= k < |s| && s[k].time.Some? ==> r.value <= s[k].time.value
    ensures r.Some? ==> exists k :: 0 <= k < |s| && s[k].time == r
  {
    if |s| == 0 then None
    else
      var rest := EarliestTime(s[1..]);
      assert forall k :: 1 <= k < |s| ==> s[k] == s[1..][k - 1];
      match (s[0].time, rest)
      case (None, _) => rest
      case (Some(t), None) => Some(t)
      case (Some(t), Some(u)) => if t <= u then Some(t) else Some(u)
  }

  /** `(time - time.min()).total_seconds() / 60` for every line. */
  function Elapsed(s: seq<Sample>, start: real): (e: seq<Option<real>>)
    ensures |e| == |s|
    ensures forall k :: 0 <= k < |s| ==> (e[k].Some? <==> s[k].time.Some?)
  {
    seq(|s|, k requires 0 <= k < |s| => MinutesSince(s[k].time, start))
  }

  function MinutesSince(time: Option<real>, start: real): (m: Option<real>)
    ensures m.Some? <==> time.Some?
  {
    if time.None? then None else Some((time.value - start) / 60.0)
  }

  /** Measured from the earliest timestamp, every elapsed time is non-negative, one
      of them is zero, and the elapsed times are in the order of the timestamps. */
  lemma ElapsedFromStart(s: seq<Sample>)
    requires EarliestTime(s).Some?
    ensures var e := Elapsed(s, EarliestTime(s).value);
            && (forall k :: 0 <= k < |s| && e[k].Some? ==> e[k].value >= 0.0)
            && (exists k :: 0 <= k < |s| && e[k] == Some(0.0))
            && (forall j, k :: 0 <= j < |s| && 0 <= k < |s| && e[j].Some? && e[k].Some? ==>
                  (e[j].value <= e[k].value <==> s[j].time.value <= s[k].time.value))
  {
    assert forall k :: 0 <= k < |s| && s[k].time.Some? ==>
             Elapsed(s, EarliestTime(s).value)[k] == Some((s[k].time.value - EarliestTime(s).value) / 60.0);
    forall k | 0 <= k < |s| && s[k].time == EarliestTime(s)
      ensures Elapsed(s, EarliestTime(s).value)[k] == Some(0.0)
    {
      assert MinutesSince(s[k].time, EarliestTime(s).value) == Some(0.0);
    }
  }

  /** Whether an elapsed time lies in the closed range [lo, hi]; `NaT` never does. */
  predicate InRange(e: Option<real>, lo: real, hi: real)
  {
    e.Some? && lo <= e.value <= hi
  }

  /** The positions of the lines in the range, in order. */
  function Selected(e: seq<Option<real>>, lo: real, hi: real): (sel: seq<nat>)
    ensures forall i :: 0 <= i < |sel| ==> sel[i] < |e| && InRange(e[sel[i]], lo, hi)
    ensures forall k :: 0 <= k < |e| && InRange(e[k], lo, hi) ==> k in sel
    ensures forall i, j :: 0 <= i < j < |sel| ==> sel[i] < sel[j]
  {
    if |e| == 0 then []
    else
      var init := Selected(e[..|e| - 1], lo, hi);
      assert forall k :: 0 <= k < |e| - 1 ==> e[k] == e[..|e| - 1][k];
      if InRange(e[|e| - 1], lo, hi) then init + [|e| - 1] else init
  }

  function Sum(s: seq<real>): real
  {
    if |s| == 0 then 0.0 else Sum(s[..|s| - 1]) + s[|s| - 1]
  }

  /** A sum lies between the count times the smallest and the count times the
      largest term. */
  lemma {:induction false} SumBounds(s: seq<real>, lo: real, hi: real)
    requires forall k :: 0 <= k < |s| ==> lo <= s[k] <= hi
    ensures |s| as real * lo <= Sum(s) <= |s| as real * hi
  {
    if |s| > 0 {
      SumBounds(s[..|s| - 1], lo, hi);
    }
  }

  /** `Series.mean()` of a non-empty selection. */
  function Mean(s: seq<real>): (m: real)
    requires |s| > 0
    ensures Min(s) <= m <= Max(s)
  {
    AverageBetween(s, Min(s), Max(s));
    Sum(s) / |s| as real
  }

  /** Values within bounds average within those bounds. */
  lemma AverageBetween(s: seq<real>, lo: real, hi: real)
    requires |s| > 0
    requires forall k :: 0 <= k < |s| ==> lo <= s[k] <= hi
    ensures lo <= Sum(s) / |s| as real <= hi
  {
    SumBounds(s, lo, hi);
    MeanBetween(Sum(s), |s| as real, lo, hi);
  }

  /** A total within n times the bounds has its mean within the bounds. */
  lemma MeanBetween(total: real, n: real, lo: real, hi: real)
    requires n > 0.0 && n * lo <= total <= n * hi
    ensures lo <= total / n <= hi
  {
    var q := total / n;
    assert q * n == total;
    assert (q - lo) * n >= 0.0;
    assert (hi - q) * n >= 0.0;
  }

  /** The first position holding `v`. */
  function FirstIndexOf(s: seq<real>, v: real): (k: nat)
    requires exists k :: 0 <= k < |s| && s[k] == v
    ensures k < |s| && s[k] == v
    ensures forall j :: 0 <= j < k ==> s[j] != v
  {
    if s[0] == v then 0
    else
      assert exists k :: 0 <= k < |s[1..]| && s[1..][k] == v by {
        var k :| 0 <= k < |s| && s[k] == v;
        assert s[1..][k - 1] == v;
      }
      1 + FirstIndexOf(s[1..], v)
  }

  function Distance(a: real, b: real): real
  {
    if a >= b then a - b else b - a
  }

  /** The elapsed times that are present, in line order: the distances `argsort` ranks
      once the `NaN` ones are set aside. */
  function PresentTimes(e: seq<Option<real>>): (v: seq<real>)
    ensures |v| <= |e|
    ensures |e| > 0 && e[0].Some? ==> |v| > 0 && v[0] == e[0].value
    ensures (forall k :: 0 <= k < |e| ==> e[k].Some?) ==>
              |v| == |e| && forall k :: 0 <= k < |e| ==> v[k] == e[k].value
  {
    if |e| == 0 then []
    else
      var rest := PresentTimes(e[1..]);
      assert forall k :: 1 <= k < |e| ==> e[k] == e[1..][k - 1];
      if e[0].Some? then [e[0].value] + rest else rest
  }

  /** The position in `v` of a value nearest to `target`; the earliest one on a tie. */
  function NearestIn(v: seq<real>, target: real): (c: nat)
    requires |v| > 0
    ensures c < |v|
    ensures forall j :: 0 <= j < |v| ==> Distance(v[c], target) <= Distance(v[j], target)
  {
    if |v| == 1 then 0
    else
      var c := 1 + NearestIn(v[1..], target);
      assert forall j :: 1 <= j < |v| ==> v[j] == v[1..][j - 1];
      if Distance(v[0], target) <= Distance(v[c], target) then 0 else c
  }

  /** The first entry of `(elapsed - target).abs().argsort()` in pandas before 3.0: -1
      at a `NaN` distance, and elsewhere the rank order of the distances that are not
      `NaN`, counted as positions in that shorter list. */
  function ArgsortHead(e: seq<Option<real>>, target: real): (h: int)
    requires |e| > 0
    ensures h == -1 <==> e[0].None?
    ensures h != -1 ==> 0 <= h < |PresentTimes(e)|
    ensures h != -1 ==> forall j :: 0 <= j < |PresentTimes(e)| ==>
              Distance(PresentTimes(e)[h], target) <= Distance(PresentTimes(e)[j], target)
  {
    if e[0].None? then -1 else NearestIn(PresentTimes(e), target)
  }

  /** The line `df.iloc[argsort()[:1]]` reads: position -1 is the last line. Without a
      `NaT` line this is a nearest line; with a `NaT` first line it is the last line. */
  function PickedLine(e: seq<Option<real>>, target: real): (k: nat)
    requires |e| > 0
    ensures k < |e|
    ensures e[0].None? ==> k == |e| - 1
    ensures (forall j :: 0 <= j < |e| ==> e[j].Some?) ==>
              forall j :: 0 <= j < |e| ==> Distance(e[k].value, target) <= Distance(e[j].value, target)
  {
    var h := ArgsortHead(e, target);
    if h == -1 then |e| - 1 else h
  }

  /** With a `NaT` line, the line read need not be a nearest one: for elapsed times
      [NaT, 0, 1, 10] and a target of 1 minute, line 3 is read, ten times farther than
      line 2. */
  lemma NaTShiftsPick()
    ensures var e := [None, Some(0.0), Some(1.0), Some(10.0)];
            && PickedLine(e, 1.0) == 3
            && Distance(e[2].value, 1.0) < Distance(e[3].value, 1.0)
  {
  }

  /** A `NaT` line after the first shifts the positions: for elapsed times [0, NaT, 1]
      and a target of 1 minute, the line read is the `NaT` line. */
  lemma NaTLineRead()
    ensures var e := [Some(0.0), None, Some(1.0)];
            && PickedLine(e, 1.0) == 1 && e[1].None?
  {
    var e := [Some(0.0), None, Some(1.0)];
    assert PresentTimes(e) == [0.0, 1.0] by {
      assert e[1..][1..] == [Some(1.0)];
      assert PresentTimes(e[1..][1..]) == [1.0];
      assert e[1..] == [None, Some(1.0)];
    }
    assert NearestIn([0.0, 1.0], 1.0) == 1 by {
      assert [0.0, 1.0][1..] == [1.0];
    }
  }

  /** What the page shows. */
  datatype Outcome =
    | MissingColumns              // the two columns are not both there
    | BadRange                    // the end of the range is before its start
    | NoSelection                 // no line in the range
    | Stats(max: real, mean: real, min: real, maxTime: real, drops: seq<real>)

  /** The heart rates of the selected lines. */
  function RatesOf(s: seq<Sample>, sel: seq<nat>): (hrs: seq<real>)
    requires forall i :: 0 <= i < |sel| ==> sel[i] < |s|
    ensures |hrs| == |sel|
    ensures forall i :: 0 <= i < |sel| ==> hrs[i] == s[sel[i]].hr
  {
    seq(|sel|, i requires 0 <= i < |sel| => s[sel[i]].hr)
  }

  /** The line at which the maximum is read: the first selected line holding it. */
  function MaxLine(s: seq<Sample>, sel: seq<nat>): (k: nat)
    requires |sel| > 0 && forall i :: 0 <= i < |sel| ==> sel[i] < |s|
    ensures exists i :: 0 <= i < |sel| && sel[i] == k
                        && forall j :: 0 <= j < i ==> s[sel[j]].hr != Max(RatesOf(s, sel))
    ensures k < |s| && s[k].hr == Max(RatesOf(s, sel))
  {
    var hrs := RatesOf(s, sel);
    var i := FirstIndexOf(hrs, Max(hrs));
    assert forall j :: 0 <= j < i ==> hrs[j] != Max(hrs);
    sel[i]
  }

  /** The drop from `top` at the line read for `target`. Without a `NaT` line it is
      read at a nearest line; with a `NaT` first line, at the last line. */
  function DropAt(s: seq<Sample>, e: seq<Option<real>>, top: real, target: real): (d: real)
    requires |e| == |s| > 0
    ensures (forall j :: 0 <= j < |e| ==> e[j].Some?) ==>
              exists n :: 0 <= n < |e| && d == top - s[n].hr
                && forall j :: 0 <= j < |e| ==> Distance(e[n].value, target) <= Distance(e[j].value, target)
    ensures e[0].None? ==> d == top - s[|s| - 1].hr
  {
    var n := PickedLine(e, target);
    top - s[n].hr
  }

  /** The drop from `top` at each offset after `maxTime`. */
  function Drops(s: seq<Sample>, e: seq<Option<real>>, top: real, maxTime: real): (d: seq<real>)
    requires |e| == |s| > 0
    ensures |d| == |Offsets|
    ensures forall o :: 0 <= o < |Offsets| ==> d[o] == DropAt(s, e, top, maxTime + Offsets[o])
  {
    seq(|Offsets|, o requires 0 <= o < |Offsets| => DropAt(s, e, top, maxTime + Offsets[o]))
  }

  /** The statistics of a non-empty selection. */
  function Summarise(s: seq<Sample>, e: seq<Option<real>>, sel: seq<nat>): (r: Outcome)
    requires |e| == |s| && |sel| > 0
    requires forall i :: 0 <= i < |sel| ==> sel[i] < |s| && e[sel[i]].Some?
    ensures r.Stats? && |r.drops| == |Offsets|
    ensures r.min <= r.mean <= r.max
    ensures r.max == Max(RatesOf(s, sel)) && r.min == Min(RatesOf(s, sel))
    ensures r.maxTime == e[MaxLine(s, sel)].value
    ensures r.drops == Drops(s, e, r.max, r.maxTime)
  {
    var hrs := RatesOf(s, sel);
    var top := Max(hrs);
    var bottom := Min(hrs);
    var k := MaxLine(s, sel);
    assert e[k].Some? && |s| > 0;
    Stats(top, Mean(hrs), bottom, e[k].value, Drops(s, e, top, e[k].value))
  }

  /** The origin of the elapsed times: the earliest timestamp. Without one every
      elapsed time is `NaN` whatever the origin, so any value serves. */
  function Start(s: seq<Sample>): real
  {
    match EarliestTime(s)
    case Some(t) => t
    case None => 0.0
  }

  /** The page for a recording and a chosen range [lo, hi] in minutes. A recording
      without any readable timestamp raises nothing: every elapsed time is `NaN`, so no
      line is in the range. */
  function Analyse(rec: Recording, lo: real, hi: real): (r: Outcome)
    ensures r == MissingColumns <==> TimeColumn !in rec.columns || HeartRateColumn !in rec.columns
    ensures r == BadRange <==> r != MissingColumns && hi < lo
    ensures r != MissingColumns && lo <= hi && EarliestTime(rec.samples).None? ==> r == NoSelection
    ensures r.Stats? ==> |r.drops| == |Offsets|
    ensures r.Stats? ==> r.min <= r.mean <= r.max
  {
    if TimeColumn !in rec.columns || HeartRateColumn !in rec.columns then MissingColumns
    else if hi < lo then BadRange
    else
      var e := Elapsed(rec.samples, Start(rec.samples));
      var sel := Selected(e, lo, hi);
      if |sel| == 0 then NoSelection
      else
        assert EarliestTime(rec.samples).Some? by {
          assert e[sel[0]].Some?;
        }
        Summarise(rec.samples, e, sel)
  }

  /** With a valid range, the page shows statistics exactly when a line is in the
      range, and then they are `Summarise` of the selected lines. */
  lemma AnalyseSelects(rec: Recording, lo: real, hi: real)
    requires TimeColumn in rec.columns && HeartRateColumn in rec.columns
    requires lo <= hi
    ensures var e := Elapsed(rec.samples, Start(rec.samples));
            && (Analyse(rec, lo, hi) == NoSelection <==> forall k :: 0 <= k < |e| ==> !InRange(e[k], lo, hi))
            && (Analyse(rec, lo, hi).Stats? ==> Analyse(rec, lo, hi) == Summarise(rec.samples, e, Selected(e, lo, hi)))
  {
    var e := Elapsed(rec.samples, Start(rec.samples));
    var sel := Selected(e, lo, hi);
    if |sel| > 0 {
      assert InRange(e[sel[0]], lo, hi);
    }
  }

  /** The maximum and minimum are those of the lines in the range. */
  lemma RangeExtremes(s: seq<Sample>, e: seq<Option<real>>, lo: real, hi: real)
    requires |e| == |s| && |Selected(e, lo, hi)| > 0
    ensures var r := Summarise(s, e, Selected(e, lo, hi));
            && (forall k :: 0 <= k < |e| && InRange(e[k], lo, hi) ==> r.min <= s[k].hr <= r.max)
            && (exists k :: 0 <= k < |e| && InRange(e[k], lo, hi) && s[k].hr == r.min)
  {
    var sel := Selected(e, lo, hi);
    var hrs := RatesOf(s, sel);
    forall k | 0 <= k < |e| && InRange(e[k], lo, hi)
      ensures Min(hrs) <= s[k].hr <= Max(hrs)
    {
      var i :| 0 <= i < |sel| && sel[i] == k;
      assert hrs[i] == s[k].hr;
    }
    var m :| 0 <= m < |hrs| && hrs[m] == Min(hrs);
    assert InRange(e[sel[m]], lo, hi) && s[sel[m]].hr == Min(hrs);
  }

  /** In increasing positions, no earlier selected line holds the maximum. */
  lemma MaxLineIsFirst(s: seq<Sample>, sel: seq<nat>)
    requires |sel| > 0 && forall i :: 0 <= i < |sel| ==> sel[i] < |s|
    requires forall i, j :: 0 <= i < j < |sel| ==> sel[i] < sel[j]
    ensures forall j :: j in sel && j < MaxLine(s, sel) ==> s[j].hr != Max(RatesOf(s, sel))
  {
    var k := MaxLine(s, sel);
    var i :| 0 <= i < |sel| && sel[i] == k && forall j :: 0 <= j < i ==> s[sel[j]].hr != Max(RatesOf(s, sel));
    forall j | j in sel && j < k
      ensures s[j].hr != Max(RatesOf(s, sel))
    {
      var i' :| 0 <= i' < |sel| && sel[i'] == j;
      IncreasingOrder(sel, i', i);
    }
  }

  /** The maximum is read at the first line in the range holding it. */
  lemma MaxReadAtFirst(s: seq<Sample>, e: seq<Option<real>>, lo: real, hi: real)
    requires |e| == |s| && |Selected(e, lo, hi)| > 0
    ensures var r := Summarise(s, e, Selected(e, lo, hi));
            && lo <= r.maxTime <= hi
            && exists k :: 0 <= k < |e| && InRange(e[k], lo, hi) && s[k].hr == r.max && e[k] == Some(r.maxTime)
                           && forall j :: 0 <= j < k && InRange(e[j], lo, hi) ==> s[j].hr != r.max
  {
    var sel := Selected(e, lo, hi);
    MaxLineIsFirst(s, sel);
    var k := MaxLine(s, sel);
    assert InRange(e[k], lo, hi);
  }

  /** In a strictly increasing sequence, a smaller element comes earlier. */
  lemma IncreasingOrder(sel: seq<nat>, a: int, b: int)
    requires forall i, j :: 0 <= i < j < |sel| ==> sel[i] < sel[j]
    requires 0 <= a < |sel| && 0 <= b < |sel| && sel[a] < sel[b]
    ensures a < b
  {
  }
}

=== FILE: report.dfy ===
/** The PDF report of `generate_report_with_background`: a title page with the text
    colour chosen from the background's brightness and a numbered summary, then one
    landscape page per pair of selected graphs, and (in the single-team application)
    a closing table of the data used. A document is modelled by what it places where;
    fonts, sizes and the image files are not. */
module Report {
  import opened Common
  import opened Text
  import opened Frames
  import Charts

  /** The text colours and the brightness under which the text turns white. */
  const White := "255,255,255"
  const Black := "0,0,0"
  const Threshold: nat := 128

  /** A background image as the grey levels of its pixels. */
  datatype Image = Image(grey: seq<nat>)

  function Total(s: seq<nat>): nat
  {
    if |s| == 0 then 0 else Total(s[..|s| - 1]) + s[|s| - 1]
  }

  /** The text colour: black without a background, otherwise white exactly when the
      mean grey level is below 128. An image without pixels divides by zero. */
  function TextColour(background: Option<Image>): (r: Result<string, ()>)
    ensures r.Err? <==> background.Some? && |background.value.grey| == 0
    ensures background.None? ==> r == Ok(Black)
    ensures background.Some? && r.Ok? ==>
              (r.value == White <==> (Total(background.value.grey) as real) / (|background.value.grey| as real) < Threshold as real)
    ensures r.Ok? ==> r.value == White || r.value == Black
  {
    match background
    case None => Ok(Black)
    case Some(img) =>
      if |img.grey| == 0 then Err(())
      else if (Total(img.grey) as real) / (|img.grey| as real) < Threshold as real then Ok(White)
      else Ok(Black)
  }

  /** The mean is below 128 exactly when the total is below 128 per pixel. */
  lemma DarkIffTotalBelow(img: Image)
    requires |img.grey| > 0
    ensures TextColour(Some(img)) == Ok(White) <==> Total(img.grey) < Threshold * |img.grey|
  {
    var n := |img.grey| as real;
    var t := Total(img.grey) as real;
    assert t / n < Threshold as real <==> t < Threshold as real * n;
  }

  /** `map(int, text_color.split(","))` into three components. */
  function Rgb(colour: string): (r: Option<(int, int, int)>)
  {
    var parts := Split(colour, ',');
    if |parts| != 3 then None
    else match (ParseInteger(parts[0]), ParseInteger(parts[1]), ParseInteger(parts[2]))
      case (Some(red), Some(green), Some(blue)) => Some((red, green, blue))
      case _ => None
  }

  /** Three numbers written with commas between them read back as those numbers. */
  lemma RgbReadsBack(red: nat, green: nat, blue: nat)
    ensures Rgb(Join([NatToString(red), NatToString(green), NatToString(blue)], ',')) == Some((red, green, blue))
  {
    var parts := [NatToString(red), NatToString(green), NatToString(blue)];
    forall k | 0 <= k < 3
      ensures ',' !in parts[k]
    {
      assert forall i :: 0 <= i < |parts[k]| ==> IsDigit(parts[k][i]);
    }
    SplitJoin(parts, ',');
    NatRoundTrip(red);
    NatRoundTrip(green);
    NatRoundTrip(blue);
  }

  /** The two colour texts are such triples. */
  lemma ColourTexts()
    ensures White == Join([NatToString(255), NatToString(255), NatToString(255)], ',')
    ensures Black == Join([NatToString(0), NatToString(0), NatToString(0)], ',')
  {
    assert NatToString(2) == "2";
    assert NatToString(25) == "25";
    assert NatToString(255) == "255";
    assert NatToString(0) == "0";
  }

  /** Both colours the report can choose read back as the components meant. */
  lemma ColoursReadBack()
    ensures Rgb(White) == Some((255, 255, 255))
    ensures Rgb(Black) == Some((0, 0, 0))
  {
    ColourTexts();
    RgbReadsBack(255, 255, 255);
    RgbReadsBack(0, 0, 0);
  }

  /** The graphs `[i:i+2]` for every even `i`: the pages of charts. */
  function Pairs(gs: seq<string>): (r: seq<seq<string>>)
    ensures |r| == (|gs| + 1) / 2
    ensures forall p :: 0 <= p < |r| ==> 1 <= |r[p]| <= 2
    decreases |gs|
  {
    if |gs| <= 2 then (if |gs| == 0 then [] else [gs])
    else [gs[..2]] + Pairs(gs[2..])
  }

  function Concat(pages: seq<seq<string>>): seq<string>
  {
    if |pages| == 0 then [] else pages[0] + Concat(pages[1..])
  }

  /** Reading the pages in order gives back the selection in order. */
  lemma {:induction false} PairsFlatten(gs: seq<string>)
    ensures Concat(Pairs(gs)) == gs
    decreases |gs|
  {
    if |gs| > 2 {
      PairsFlatten(gs[2..]);
      assert gs == gs[..2] + gs[2..];
    } else if |gs| > 0 {
      assert Concat(Pairs(gs)) == gs + Concat([]);
    }
  }

  /** The graph in position `k` of the selection is on chart page `k / 2`, in slot
      `k % 2`. */
  lemma {:induction false} PairsPosition(gs: seq<string>, k: int)
    requires 0 <= k < |gs|
    ensures k / 2 < |Pairs(gs)| && k % 2 < |Pairs(gs)[k / 2]|
    ensures Pairs(gs)[k / 2][k % 2] == gs[k]
    decreases |gs|
  {
    if |gs| > 2 && k >= 2 {
      PairsPosition(gs[2..], k - 2);
      assert Pairs(gs)[k / 2] == Pairs(gs[2..])[(k - 2) / 2];
    }
  }

  /** The summary line of the graph in position `k`, numbered from 1. */
  function Entry(k: nat, graph: string): string
  {
    NatToString(k + 1) + ". " + graph
  }

  function Summary(gs: seq<string>): (r: seq<string>)
    ensures |r| == |gs|
  {
    seq(|gs|, k requires 0 <= k < |gs| => Entry(k, gs[k]))
  }

  /** The number a summary line starts with, up to its first full stop. */
  function EntryNumber(line: string): Option<int>
  {
    ParseInteger(Split(line, '.')[0])
  }

  /** The text after the number and its ". ". */
  function EntryTitle(line: string): string
  {
    var n := |Split(line, '.')[0]|;
    if n + 2 <= |line| then line[n + 2..] else ""
  }

  /** Every summary line gives back its position and its graph. */
  lemma SummaryReadsBack(gs: seq<string>, k: int)
    requires 0 <= k < |gs|
    ensures EntryNumber(Summary(gs)[k]) == Some(k + 1)
    ensures EntryTitle(Summary(gs)[k]) == gs[k]
  {
    var digits := NatToString(k + 1);
    var line := Summary(gs)[k];
    assert '.' !in digits by {
      assert forall i :: 0 <= i < |digits| ==> IsDigit(digits[i]);
    }
    assert line == digits + ['.'] + (" " + gs[k]);
    SplitAfterPiece(digits, " " + gs[k], '.');
    NatRoundTrip(k + 1);
    assert line[|digits| + 2..] == gs[k];
  }

  /** The horizontal positions of the two charts of a page. */
  const XOffsets: seq<nat> := [10, 155]

  /** What a plot call gives for one graph name: an exception, no figure (a warning),
      or a figure. */
  datatype PlotOutcome = Raised | NoFigure | Figure

  /** A chart image placed on a page. */
  datatype Placement = Placement(x: nat, graph: string)

  /** The charts of one page: every graph of the pair that gives a figure, at the
      offset of its slot. */
  function PageOf(pair: seq<string>, plot: string -> PlotOutcome): (r: seq<Placement>)
    requires |pair| <= 2
    ensures forall i :: 0 <= i < |pair| && plot(pair[i]) == Figure ==> Placement(XOffsets[i], pair[i]) in r
    ensures forall pl :: pl in r ==> exists i :: 0 <= i < |pair| && plot(pair[i]) == Figure
                                            && pl == Placement(XOffsets[i], pair[i])
  {
    var first := if |pair| >= 1 && plot(pair[0]) == Figure then [Placement(XOffsets[0], pair[0])] else [];
    var second := if |pair| == 2 && plot(pair[1]) == Figure then [Placement(XOffsets[1], pair[1])] else [];
    first + second
  }

  /** The closing table: the header line, then one line per row with one cell per
      column, in the frame's column order; `show` is `str` on a cell. */
  function DataTable(f: Frame, show: Cell -> string): (lines: seq<seq<string>>)
    requires WellFormed(f)
    ensures |lines| == |f.rows| + 1
    ensures forall i :: 0 <= i < |lines| ==> |lines[i]| == |f.columns|
    ensures forall c :: 0 <= c < |f.columns| ==> lines[0][c] == Header(f.columns[c])
    ensures forall i, c :: 0 <= i < |f.rows| && 0 <= c < |f.columns| ==>
              f.columns[c] in f.rows[i] && lines[i + 1][c] == show(f.rows[i][f.columns[c]])
  {
    var headers := seq(|f.columns|, c requires 0 <= c < |f.columns| => Header(f.columns[c]));
    var body := seq(|f.rows|, i requires 0 <= i < |f.rows| =>
      seq(|f.columns|, c requires 0 <= c < |f.columns| => show(f.rows[i][f.columns[c]])));
    [headers] + body
  }

  /** The position shown under the title. */
  function Subtitle(player: string, positions: seq<Charts.PlayerPosition>): (s: string)
    ensures Charts.PositionOf(positions, player).Some? ==>
              s == player + " (" + Charts.PositionOf(positions, player).value + ")"
    ensures Charts.PositionOf(positions, player).None? ==> s == player + " (Non spécifié)"
  {
    var position := match Charts.PositionOf(positions, player)
      case Some(p) => p
      case None => "Non spécifié";
    player + " (" + position + ")"
  }

  /** The components `set_text_color` receives. */
  function ColourRgb(colour: string): (rgb: (int, int, int))
    requires colour == White || colour == Black
    ensures rgb == (255, 255, 255) || rgb == (0, 0, 0)
    ensures rgb == (255, 255, 255) <==> colour == White
  {
    ColoursReadBack();
    Rgb(colour).value
  }

  /** The chart pages: one per pair of selected graphs. */
  function Pages(gs: seq<string>, plot: string -> PlotOutcome): (pages: seq<seq<Placement>>)
    ensures |pages| == (|gs| + 1) / 2
    ensures forall p :: 0 <= p < |pages| ==> pages[p] == PageOf(Pairs(gs)[p], plot)
  {
    var pairs := Pairs(gs);
    seq(|pairs|, p requires 0 <= p < |pairs| => PageOf(pairs[p], plot))
  }

  /** A generated report. `table` is empty in the two-team application, which adds no
      data table. */
  datatype Document = Document(rgb: (int, int, int), subtitle: string, summary: seq<string>,
                               pages: seq<seq<Placement>>, table: seq<seq<string>>)

  /** Whether some selected graph raises in its plot call. */
  predicate SomeRaises(gs: seq<string>, plot: string -> PlotOutcome)
  {
    exists k :: 0 <= k < |gs| && plot(gs[k]) == Raised
  }

  /** `generate_report_with_background`; an exception anywhere gives no report. */
  function Generate(gs: seq<string>, player: string, positions: seq<Charts.PlayerPosition>,
                    plot: string -> PlotOutcome, background: Option<Image>, data: Frame,
                    show: Cell -> string, withTable: bool): (r: Option<Document>)
    requires WellFormed(data)
    ensures r.None? <==> TextColour(background).Err? || SomeRaises(gs, plot)
    ensures r.Some? ==> r.value.rgb == (255, 255, 255) || r.value.rgb == (0, 0, 0)
    ensures r.Some? ==> (r.value.rgb == (255, 255, 255) <==> TextColour(background) == Ok(White))
    ensures r.Some? ==> |r.value.summary| == |gs| && |r.value.pages| == (|gs| + 1) / 2
    ensures r.Some? ==> (withTable <==> |r.value.table| == |data.rows| + 1)
    ensures r.Some? ==> !withTable ==> r.value.table == []
    ensures r.Some? ==> r.value.subtitle == Subtitle(player, positions) && r.value.summary == Summary(gs)
    ensures r.Some? ==> r.value.pages == Pages(gs, plot)
    ensures r.Some? && withTable ==> r.value.table == DataTable(data, show)
  {
    match TextColour(background)
    case Err(_) => None
    case Ok(colour) =>
      if SomeRaises(gs, plot) then None
      else
        var table := if withTable then DataTable(data, show) else [];
        Some(Document(ColourRgb(colour), Subtitle(player, positions), Summary(gs), Pages(gs, plot), table))
  }

  /** Every selected graph with a figure is placed on page `k / 2` at the offset of
      its slot, and a page shows nothing that was not selected for it. */
  lemma ChartPlacement(gs: seq<string>, player: string, positions: seq<Charts.PlayerPosition>,
                       plot: string -> PlotOutcome, background: Option<Image>, data: Frame,
                       show: Cell -> string, withTable: bool, k: int)
    requires WellFormed(data)
    requires Generate(gs, player, positions, plot, background, data, show, withTable).Some?
    requires 0 <= k < |gs| && plot(gs[k]) == Figure
    ensures var d := Generate(gs, player, positions, plot, background, data, show, withTable).value;
            k / 2 < |d.pages| && Placement(XOffsets[k % 2], gs[k]) in d.pages[k / 2]
  {
    PairsPosition(gs, k);
  }
}

=== FILE: router.dfy ===
/** The navigation of the application's entry page: the page name kept in the session
    state, the buttons each page shows, and the script each page runs. A click sets
    the page name and re-runs; nothing else changes the state. */
module Router {
  import opened Common

  datatype Page = Home | Analyse | HeartRate | Comparison

  /** The page name stored in the session state. */
  function Name(p: Page): string
  {
    match p
    case Home => "home"
    case Analyse => "analyse"
    case HeartRate => "HRR"
    case Comparison => "comparaison"
  }

  /** The `if`/`elif` chain on the stored name; any other name shows no page. */
  function Dispatch(name: string): (p: Option<Page>)
    ensures p.Some? ==> Name(p.value) == name
  {
    if name == "home" then Some(Home)
    else if name == "analyse" then Some(Analyse)
    else if name == "HRR" then Some(HeartRate)
    else if name == "comparaison" then Some(Comparison)
    else None
  }

  /** Every page name dispatches back to its page, so no two pages share a name. */
  lemma DispatchName(p: Page)
    ensures Dispatch(Name(p)) == Some(p)
  {
  }

  /** The stored name at the start of a run: "home" until a button sets one. */
  function Current(state: Option<string>): (name: string)
    ensures state.None? ==> name == Name(Home)
    ensures state.Some? ==> name == state.value
  {
    match state
    case None => "home"
    case Some(name) => name
  }

  /** A navigation button: its widget key and the page it opens. */
  datatype Button = Button(key: string, target: Page)

  /** The buttons of each page, in the order they are drawn. */
  function Buttons(p: Page): seq<Button>
  {
    match p
    case Home =>
      [Button("btn_analyse", Analyse), Button("btn_HRR", HeartRate), Button("btn_comparaison", Comparison)]
    case Analyse =>
      [Button("home_from_analyse", Home), Button("comparaison_from_analyse", Comparison),
       Button("HRR_from_analyse", HeartRate)]
    case HeartRate =>
      [Button("home_from_HRR", Home), Button("comparaison_from_HRR", Comparison),
       Button("analyse_from_HRR", Analyse)]
    case Comparison =>
      [Button("home_from_comparaison", Home), Button("analyse_from_comparaison", Analyse),
       Button("HRR_from_comparaison", HeartRate)]
  }

  const AllPages: set<Page> := {Home, Analyse, HeartRate, Comparison}

  /** The pages a page's buttons open. */
  function Targets(p: Page): set<Page>
  {
    set i | 0 <= i < |Buttons(p)| :: Buttons(p)[i].target
  }

  /** Each page offers exactly the three other pages, once each. */
  lemma ButtonsReachOthers(p: Page)
    ensures |Buttons(p)| == 3
    ensures Targets(p) == AllPages - {p}
    ensures forall i, j :: 0 <= i < j < 3 ==> Buttons(p)[i].target != Buttons(p)[j].target
  {
    var b := Buttons(p);
    assert Targets(p) == {b[0].target, b[1].target, b[2].target};
  }

  /** No two buttons of the application share a widget key. */
  lemma KeysUnique(p: Page, q: Page, i: int, j: int)
    requires 0 <= i < 3 && 0 <= j < 3 && (p != q || i != j)
    ensures Buttons(p)[i].key != Buttons(q)[j].key
  {
  }

  /** The page a click on the button with this key opens, if the page shows it. */
  function Press(p: Page, key: string): (r: Option<Page>)
    ensures r.Some? <==> exists i :: 0 <= i < |Buttons(p)| && Buttons(p)[i].key == key
    ensures r.Some? ==> exists i :: 0 <= i < |Buttons(p)| && Buttons(p)[i] == Button(key, r.value)
  {
    var bs := Buttons(p);
    if bs[0].key == key then Some(bs[0].target)
    else if bs[1].key == key then Some(bs[1].target)
    else if bs[2].key == key then Some(bs[2].target)
    else None
  }

  /** One run: the stored name after a click (`None` when nothing was clicked). A
      name that dispatches to no page draws no button, so no click can change it. */
  function Step(state: Option<string>, click: Option<string>): (next: string)
    ensures Dispatch(Current(state)).None? ==> next == Current(state)
    ensures click.None? ==> next == Current(state)
  {
    var name := Current(state);
    match Dispatch(name)
    case None => name
    case Some(p) =>
      match click
      case None => name
      case Some(key) =>
        match Press(p, key)
        case None => name
        case Some(q) => Name(q)
  }

  /** From any page, one click reaches any other page, and no button of a page
      reopens that page. */
  lemma OneClickToAnyOther(p: Page, q: Page)
    ensures p != q <==> exists i :: 0 <= i < 3 && Step(Some(Name(p)), Some(Buttons(p)[i].key)) == Name(q)
  {
    ButtonsReachOthers(p);
    assert q in AllPages;
    DispatchName(p);
    forall i | 0 <= i < 3
      ensures Step(Some(Name(p)), Some(Buttons(p)[i].key)) == Name(Buttons(p)[i].target)
    {
      assert Press(p, Buttons(p)[i].key) == Some(Buttons(p)[i].target);
    }
    forall i | 0 <= i < 3 && Step(Some(Name(p)), Some(Buttons(p)[i].key)) == Name(q)
      ensures p != q
    {
      DispatchName(Buttons(p)[i].target);
      DispatchName(q);
    }
    if p != q {
      assert q in Targets(p);
      var i :| 0 <= i < |Buttons(p)| && Buttons(p)[i].target == q;
      assert Step(Some(Name(p)), Some(Buttons(p)[i].key)) == Name(q);
    }
  }

  /** Starting from the initial state, every stored name is one of the four pages'. */
  lemma StepKeepsKnownPage(state: Option<string>, click: Option<string>)
    requires state.None? || Dispatch(state.value).Some?
    ensures Dispatch(Step(state, click)).Some?
  {
    var p := Dispatch(Current(state));
    if Step(state, click) != Current(state) {
      var q := Press(p.value, click.value).value;
      DispatchName(q);
    }
  }

  /** What a page runs in its main column: the script it executes, and whether it
      first pauses for a second. The home page runs nothing. */
  datatype Content = Menu | Script(file: string, pauses: bool)

  function ContentOf(p: Page): Content
  {
    match p
    case Home => Menu
    case Analyse => Script("INVENT.py", true)
    case HeartRate => Script("ANALYSE.py", true)
    case Comparison => Script("essaiCompa.py", false)
  }

  /** What the main column shows: the script's own output, the error of an exception
      it raised, or the missing-file error. */
  datatype Shown = ShowsMenu | Runs(file: string) | ScriptError(file: string) | MissingFile(file: string)

  /** The main column for a page, given whether its script file exists and whether
      executing it raises. */
  function Show(p: Page, exists_: bool, raises: bool): (r: Shown)
    ensures p == Home <==> r == ShowsMenu
    ensures p != Home && !exists_ ==> r == MissingFile(ContentOf(p).file)
    ensures p != Home && exists_ ==> (r.ScriptError? <==> raises)
    ensures r.Runs? || r.ScriptError? || r.MissingFile? ==> r.file == ContentOf(p).file
  {
    match ContentOf(p)
    case Menu => ShowsMenu
    case Script(file, _) =>
      if !exists_ then MissingFile(file)
      else if raises then ScriptError(file)
      else Runs(file)
  }

  /** The three non-home pages run three different scripts. */
  lemma ScriptsDistinct(p: Page, q: Page)
    requires p != Home && q != Home && p != q
    ensures ContentOf(p).file != ContentOf(q).file
  {
  }
}

=== FILE: text.dfy ===
/** The string handling the dashboard relies on: Python's `str.split` on one separator
    character, `float()` / `int()` on decimal tokens, and decimal printing of counters. */
module Text {
  import opened Common

  /** Number of positions of `s` holding `c`. */
  function Occurrences(s: string, c: char): nat
  {
    if |s| == 0 then 0
    else (if s[0] == c then 1 else 0) + Occurrences(s[1..], c)
  }

  /** `sep.join(parts)`. */
  function Join(parts: seq<string>, sep: char): string
  {
    if |parts| == 0 then ""
    else if |parts| == 1 then parts[0]
    else parts[0] + [sep] + Join(parts[1..], sep)
  }

  /** `s.split(sep)`: the pieces between separators, empty pieces included, so that a
      string with k separators yields k + 1 pieces and joining them gives `s` back. */
  function Split(s: string, sep: char): (r: seq<string>)
    ensures |r| == Occurrences(s, sep) + 1
    ensures forall k :: 0 <= k < |r| ==> sep !in r[k]
    ensures Join(r, sep) == s
  {
    if |s| == 0 then [""]
    else if s[0] == sep then
      var rest := Split(s[1..], sep);
      assert s == [sep] + s[1..];
      [""] + rest
    else
      var rest := Split(s[1..], sep);
      var r := [[s[0]] + rest[0]] + rest[1..];
      assert sep !in r[0];
      assert Join(r, sep) == s by {
        if |rest| == 1 {
          assert Join(r, sep) == [s[0]] + rest[0];
        } else {
          assert r[1..] == rest[1..];
          calc {
            Join(r, sep);
            ([s[0]] + rest[0]) + [sep] + Join(rest[1..], sep);
            [s[0]] + (rest[0] + [sep] + Join(rest[1..], sep));
            [s[0]] + Join(rest, sep);
            { assert s == [s[0]] + s[1..]; }
            s;
          }
        }
      }
      r
  }

  /** Splitting a piece that holds no separator yields that piece alone. */
  lemma {:induction false} SplitPlain(t: string, sep: char)
    requires sep !in t
    ensures Split(t, sep) == [t]
  {
    if |t| > 0 {
      assert sep !in t[1..] by {
        forall k | 0 <= k < |t[1..]| ensures t[1..][k] != sep {
          assert t[1..][k] == t[k + 1];
        }
      }
      SplitPlain(t[1..], sep);
      assert t == [t[0]] + t[1..];
    }
  }

  /** Splitting `t + sep + u` cuts at the first separator, right after `t`. */
  lemma {:induction false} SplitAfterPiece(t: string, u: string, sep: char)
    requires sep !in t
    ensures Split(t + [sep] + u, sep) == [t] + Split(u, sep)
  {
    var s := t + [sep] + u;
    if |t| == 0 {
      assert s == [sep] + u;
      assert s[1..] == u;
    } else {
      assert sep !in t[1..] by {
        forall k | 0 <= k < |t[1..]| ensures t[1..][k] != sep {
          assert t[1..][k] == t[k + 1];
        }
      }
      SplitAfterPiece(t[1..], u, sep);
      assert s[1..] == t[1..] + [sep] + u;
      assert s[0] == t[0];
      assert t == [t[0]] + t[1..];
    }
  }

  /** `sep.join` followed by `split(sep)` returns the pieces, when no piece holds `sep`. */
  lemma {:induction false} SplitJoin(parts: seq<string>, sep: char)
    requires |parts| >= 1
    requires forall k :: 0 <= k < |parts| ==> sep !in parts[k]
    ensures Split(Join(parts, sep), sep) == parts
  {
    if |parts| == 1 {
      SplitPlain(parts[0], sep);
    } else {
      SplitJoin(parts[1..], sep);
      SplitAfterPiece(parts[0], Join(parts[1..], sep), sep);
      assert parts == [parts[0]] + parts[1..];
    }
  }

  predicate IsDigit(c: char)
  {
    '0' <= c <= '9'
  }

  predicate AllDigits(s: string)
  {
    forall k :: 0 <= k < |s| ==> IsDigit(s[k])
  }

  /** Whitespace that Python's `float()` and `int()` ignore around a token: the
      characters `str.isspace` accepts. */
  predicate IsSpace(c: char)
  {
    || c == ' ' || '\t' <= c <= '\r' || '\U{001C}' <= c <= '\U{001F}'
    || c == '\U{0085}' || c == '\U{00A0}' || c == '\U{1680}' || '\U{2000}' <= c <= '\U{200A}'
    || c == '\U{2028}' || c == '\U{2029}' || c == '\U{202F}' || c == '\U{205F}' || c == '\U{3000}'
  }

  /** Every character of `s` is whitespace. */
  predicate AllSpaces(s: string)
  {
    forall k :: 0 <= k < |s| ==> IsSpace(s[k])
  }

  /** Value of a run of decimal digits, most significant first (0 for the empty run). */
  function DigitsValue(s: string): nat
    requires AllDigits(s)
  {
    if |s| == 0 then 0
    else DigitsValue(s[..|s| - 1]) * 10 + (s[|s| - 1] as int - '0' as int)
  }

  function Pow10(n: nat): (r: nat)
    ensures r >= 1
  {
    if n == 0 then 1 else 10 * Pow10(n - 1)
  }

  /** `str(n)` for a natural number: its shortest decimal spelling. */
  function NatToString(n: nat): (r: string)
    ensures |r| >= 1 && AllDigits(r)
    ensures n >= 10 <==> |r| >= 2
  {
    if n < 10 then [('0' as int + n) as char]
    else NatToString(n / 10) + [('0' as int + n % 10) as char]
  }

  /** Printing a natural number and reading the digits back gives the number. */
  lemma {:induction false} DigitsOfNat(n: nat)
    ensures DigitsValue(NatToString(n)) == n
  {
    var s := NatToString(n);
    if n >= 10 {
      DigitsOfNat(n / 10);
      assert s[..|s| - 1] == NatToString(n / 10);
    }
  }

  /** Where the text of `s` starts: after its leading whitespace. */
  function StripStart(s: string): (i: nat)
    ensures i <= |s| && AllSpaces(s[..i])
    ensures i < |s| ==> !IsSpace(s[i])
  {
    if |s| == 0 || !IsSpace(s[0]) then 0
    else
      var i := 1 + StripStart(s[1..]);
      assert s[..i] == [s[0]] + s[1..][..i - 1];
      i
  }

  /** Where the text of `s` ends: before its trailing whitespace. */
  function StripEnd(s: string): (j: nat)
    ensures j <= |s| && AllSpaces(s[j..])
    ensures j > 0 ==> !IsSpace(s[j - 1])
  {
    if |s| == 0 || !IsSpace(s[|s| - 1]) then |s|
    else
      var j := StripEnd(s[..|s| - 1]);
      assert s[j..] == s[..|s| - 1][j..] + [s[|s| - 1]];
      j
  }

  /** `s` with leading and trailing whitespace removed (`str.strip()`). */
  function Strip(s: string): (r: string)
    ensures |r| <= |s|
    ensures |r| > 0 ==> !IsSpace(r[0]) && !IsSpace(r[|r| - 1])
    ensures forall k :: 0 <= k < |s| && !IsSpace(s[k]) ==> s[k] in r
    ensures forall k :: 0 <= k < |r| ==> r[k] in s
  {
    var i := StripStart(s);
    if i == |s| then []
    else
      var j := StripEnd(s);
      assert i < j;
      var r := s[i..j];
      forall k | 0 <= k < |s| && !IsSpace(s[k]) ensures s[k] in r {
        assert r[k - i] == s[k];
      }
      r
  }

  /** Stripping cuts `s` into leading whitespace, the result, and trailing whitespace. */
  lemma StripIsSlice(s: string)
    ensures exists i, j :: 0 <= i <= j <= |s| && Strip(s) == s[i..j] && AllSpaces(s[..i]) && AllSpaces(s[j..])
  {
    var i := StripStart(s);
    if i == |s| {
      assert Strip(s) == s[i..i];
    } else {
      var j := StripEnd(s);
      assert Strip(s) == s[i..j];
    }
  }

  /** A token without whitespace stays as it is. */
  lemma StripPlain(s: string)
    requires forall k :: 0 <= k < |s| ==> !IsSpace(s[k])
    ensures Strip(s) == s
  {
    if |s| > 0 {
      var i := StripStart(s);
      var j := StripEnd(s);
      assert i == 0 && j == |s|;
      assert s[0..|s|] == s;
    }
  }

  /** The text of `x` starts at `p` when everything before `p` is whitespace and
      `x[p]` is not. */
  lemma StripStartAt(x: string, p: nat)
    requires p <= |x|
    requires forall k :: 0 <= k < p ==> IsSpace(x[k])
    requires p < |x| ==> !IsSpace(x[p])
    ensures StripStart(x) == p
  {
  }

  /** The text of `x` ends at `q` when everything from `q` on is whitespace and
      `x[q - 1]` is not. */
  lemma StripEndAt(x: string, q: nat)
    requires q <= |x|
    requires forall k :: q <= k < |x| ==> IsSpace(x[k])
    requires q > 0 ==> !IsSpace(x[q - 1])
    ensures StripEnd(x) == q
  {
  }

  /** Whitespace around a token without whitespace is stripped away exactly. */
  lemma StripSurrounding(a: string, s: string, b: string)
    requires AllSpaces(a) && AllSpaces(b)
    requires forall k :: 0 <= k < |s| ==> !IsSpace(s[k])
    ensures Strip(a + s + b) == s
  {
    var x := a + s + b;
    assert forall k :: 0 <= k < |a| ==> x[k] == a[k];
    assert forall k :: |a| + |s| <= k < |x| ==> x[k] == b[k - |a| - |s|];
    if |s| == 0 {
      StripStartAt(x, |x|);
    } else {
      assert x[|a|] == s[0] && x[|a| + |s| - 1] == s[|s| - 1];
      StripStartAt(x, |a|);
      StripEndAt(x, |a| + |s|);
      assert x[|a|..|a| + |s|] == s;
    }
  }

  /** The unsigned part of a decimal literal: digits, optionally a point and more
      digits, with at least one digit in all. */
  function ParseUnsigned(body: string): (r: Option<real>)
    ensures r.Some? ==> r.value >= 0.0
    ensures r.Some? ==> exists k :: 0 <= k < |body| && IsDigit(body[k])
  {
    var parts := Split(body, '.');
    if |parts| > 2 then None
    else
      var whole := parts[0];
      var frac := if |parts| == 2 then parts[1] else "";
      if |whole| + |frac| == 0 || !AllDigits(whole) || !AllDigits(frac) then None
      else
        assert |whole| > 0 ==> whole[0] in Join(parts, '.');
        assert |frac| > 0 ==> frac[0] in Join(parts, '.');
        Some(DigitsValue(whole) as real + FractionValue(frac))
  }

  /** Value of the digits after the decimal point. */
  function FractionValue(frac: string): (v: real)
    requires AllDigits(frac)
    ensures v >= 0.0
    ensures |frac| == 0 ==> v == 0.0
  {
    DigitsValue(frac) as real / Pow10(|frac|) as real
  }

  /** `float(token)` for plain decimal tokens: optional surrounding whitespace, an
      optional sign, digits with an optional fractional part. `None` is the
      `ValueError` Python raises; in particular the empty token is rejected. */
  function ParseNumber(token: string): (r: Option<real>)
    ensures r.Some? ==> exists k :: 0 <= k < |token| && IsDigit(token[k])
    ensures token == "" ==> r.None?
  {
    ParseSigned(Strip(token))
  }

  /** A stripped token: an optional sign, then the unsigned part. */
  function ParseSigned(t: string): (r: Option<real>)
    ensures r.Some? ==> exists k :: 0 <= k < |t| && IsDigit(t[k])
  {
    if |t| > 0 && (t[0] == '-' || t[0] == '+') then
      match ParseUnsigned(t[1..])
      case None => None
      case Some(v) =>
        var k :| 0 <= k < |t[1..]| && IsDigit(t[1..][k]);
        assert IsDigit(t[k + 1]);
        Some(if t[0] == '-' then -v else v)
    else
      ParseUnsigned(t)
  }

  /** `int(token)`: optional surrounding whitespace, an optional sign, decimal digits. */
  function ParseInteger(token: string): (r: Option<int>)
    ensures token == "" ==> r.None?
  {
    var t := Strip(token);
    if |t| > 0 && (t[0] == '-' || t[0] == '+') then
      if |t| == 1 || !AllDigits(t[1..]) then None
      else Some(if t[0] == '-' then -(DigitsValue(t[1..]) as int) else DigitsValue(t[1..]))
    else if |t| == 0 || !AllDigits(t) then None
    else Some(DigitsValue(t))
  }

  /** Surrounding whitespace does not change what `float()` reads from a token. */
  lemma ParseNumberIgnoresSpaces(a: string, s: string, b: string)
    requires AllSpaces(a) && AllSpaces(b)
    requires forall k :: 0 <= k < |s| ==> !IsSpace(s[k])
    ensures ParseNumber(a + s + b) == ParseNumber(s)
  {
    StripSurrounding(a, s, b);
    StripPlain(s);
  }

  /** A run of digits holds no decimal point. */
  lemma NoPointInDigits(s: string)
    requires AllDigits(s)
    ensures '.' !in s
  {
    forall k | 0 <= k < |s| ensures s[k] != '.' { assert IsDigit(s[k]); }
  }

  /** Whole digits, a point and fraction digits read as the whole value plus the
      fraction: `float("12.5")` is 12.5, and `float("12.")` is 12. */
  lemma UnsignedDecimal(whole: string, frac: string)
    requires |whole| >= 1 && AllDigits(whole) && AllDigits(frac)
    ensures ParseUnsigned(whole + ['.'] + frac).Some?
    ensures ParseUnsigned(whole + ['.'] + frac).value == DigitsValue(whole) as real + FractionValue(frac)
  {
    NoPointInDigits(whole);
    NoPointInDigits(frac);
    SplitAfterPiece(whole, frac, '.');
    SplitPlain(frac, '.');
  }

  /** A sign before a space-free number negates it or leaves it as it is. */
  lemma SignedToken(negative: bool, body: string)
    requires forall k :: 0 <= k < |body| ==> !IsSpace(body[k])
    requires ParseUnsigned(body).Some?
    ensures ParseNumber([if negative then '-' else '+'] + body).Some?
    ensures ParseNumber([if negative then '-' else '+'] + body).value
            == if negative then -ParseUnsigned(body).value else ParseUnsigned(body).value
  {
    var x := [if negative then '-' else '+'] + body;
    assert forall k :: 0 <= k < |x| ==> !IsSpace(x[k]) by {
      forall k | 0 <= k < |x| ensures !IsSpace(x[k]) {
        if k > 0 {
          assert x[k] == body[k - 1];
        }
      }
    }
    StripPlain(x);
    assert x[1..] == body;
    var v := ParseUnsigned(body).value;
    assert ParseSigned(x) == Some(if negative then -v else v);
    assert ParseNumber(x) == ParseSigned(x);
  }

  /** A sign before a printed number with a fractional part gives the number with that
      sign: `float("-3.25")` is -3.25, and `float("+3.")` is 3. */
  lemma SignedDecimal(negative: bool, n: nat, frac: string)
    requires AllDigits(frac)
    ensures ParseNumber([if negative then '-' else '+'] + (NatToString(n) + ['.'] + frac)).Some?
    ensures ParseNumber([if negative then '-' else '+'] + (NatToString(n) + ['.'] + frac)).value
            == if negative then -(n as real + FractionValue(frac)) else n as real + FractionValue(frac)
  {
    var digits := NatToString(n);
    DigitsOfNat(n);
    var body := digits + ['.'] + frac;
    assert forall k :: 0 <= k < |body| ==> !IsSpace(body[k]) by {
      forall k | 0 <= k < |body| ensures !IsSpace(body[k]) {
        if k < |digits| {
          assert body[k] == digits[k];
        } else if k > |digits| {
          assert body[k] == frac[k - |digits| - 1];
        }
      }
    }
    UnsignedDecimal(digits, frac);
    SignedToken(negative, body);
  }

  /** A sign before a printed whole number gives the number with that sign:
      `float("-7")` is -7. */
  lemma SignedWhole(negative: bool, n: nat)
    ensures ParseNumber([if negative then '-' else '+'] + NatToString(n)).Some?
    ensures ParseNumber([if negative then '-' else '+'] + NatToString(n)).value
            == if negative then -(n as real) else n as real
  {
    var digits := NatToString(n);
    DigitsOfNat(n);
    assert forall k :: 0 <= k < |digits| ==> !IsSpace(digits[k]) by {
      forall k | 0 <= k < |digits| ensures !IsSpace(digits[k]) {
        assert IsDigit(digits[k]);
      }
    }
    UnsignedDigits(digits);
    SignedToken(negative, digits);
  }

  /** Reading back a printed natural number, with `float()` or with `int()`. */
  lemma NatRoundTrip(n: nat)
    ensures ParseNumber(NatToString(n)) == Some(n as real)
    ensures ParseInteger(NatToString(n)) == Some(n)
  {
    var s := NatToString(n);
    assert forall k :: 0 <= k < |s| ==> !IsSpace(s[k]);
    StripPlain(s);
    assert s[0] != '-' && s[0] != '+';
    DigitsOfNat(n);
    UnsignedDigits(s);
  }

  /** A non-empty run of digits reads as its integer value. */
  lemma UnsignedDigits(s: string)
    requires |s| >= 1 && AllDigits(s)
    ensures ParseUnsigned(s).Some?
    ensures ParseUnsigned(s).value == DigitsValue(s) as real
  {
    NoPointInDigits(s);
    SplitPlain(s, '.');
  }

  /** What `float()` accepts once stripped, exponents aside: digits with at most one
      decimal point and at least one digit in all (`"5"`, `"1.5"`, `"1."`, `".5"`). */
  predicate UnsignedLiteral(b: string)
  {
    && Occurrences(b, '.') <= 1
    && |b| > Occurrences(b, '.')
    && forall k :: 0 <= k < |b| && b[k] != '.' ==> IsDigit(b[k])
  }

  /** An unsigned literal, optionally after one `-` or `+`. */
  predicate SignedLiteral(t: string)
  {
    || UnsignedLiteral(t)
    || (|t| > 0 && (t[0] == '-' || t[0] == '+') && UnsignedLiteral(t[1..]))
  }

  /** What `int()` accepts once stripped: a non-empty run of digits, optionally after
      one `-` or `+`. */
  predicate IntegerLiteral(t: string)
  {
    || (|t| > 0 && AllDigits(t))
    || (|t| > 1 && (t[0] == '-' || t[0] == '+') && AllDigits(t[1..]))
  }

  /** The unsigned part is read exactly when it is an unsigned literal. */
  lemma UnsignedAccepts(b: string)
    ensures ParseUnsigned(b).Some? <==> UnsignedLiteral(b)
  {
    var parts := Split(b, '.');
    if |parts| == 1 {
      assert b == parts[0];
    } else if |parts| == 2 {
      var whole, frac := parts[0], parts[1];
      assert Join(parts[1..], '.') == frac;
      assert b == whole + ['.'] + frac;
      assert forall k :: 0 <= k < |whole| ==> b[k] == whole[k];
      assert forall k :: 0 <= k < |frac| ==> b[|whole| + 1 + k] == frac[k];
      if UnsignedLiteral(b) {
        assert forall k :: 0 <= k < |whole| ==> whole[k] != '.';
        assert forall k :: 0 <= k < |frac| ==> frac[k] != '.';
      }
      if ParseUnsigned(b).Some? {
        forall k | 0 <= k < |b| && b[k] != '.' ensures IsDigit(b[k]) {
          if k > |whole| {
            assert b[k] == frac[k - |whole| - 1];
          }
        }
      }
    }
  }

  /** A stripped token is read exactly when it is a signed literal. */
  lemma SignedAccepts(t: string)
    ensures ParseSigned(t).Some? <==> SignedLiteral(t)
  {
    UnsignedAccepts(t);
    if |t| > 0 {
      UnsignedAccepts(t[1..]);
      if t[0] == '-' || t[0] == '+' {
        assert Occurrences(t, '.') == Occurrences(t[1..], '.');
        assert !IsDigit(t[0]);
      }
    }
  }

  /** A literal holds no whitespace. */
  lemma LiteralHasNoSpace(t: string)
    requires SignedLiteral(t) || IntegerLiteral(t)
    ensures forall k :: 0 <= k < |t| ==> !IsSpace(t[k])
  {
    forall k | 0 <= k < |t| ensures !IsSpace(t[k]) {
      if k > 0 {
        assert t[k] == t[1..][k - 1];
      }
    }
  }

  /** A literal between whitespace is what stripping leaves. */
  lemma StripAroundLiteral(token: string, i: int, j: int)
    requires 0 <= i <= j <= |token| && AllSpaces(token[..i]) && AllSpaces(token[j..])
    requires SignedLiteral(token[i..j]) || IntegerLiteral(token[i..j])
    ensures Strip(token) == token[i..j]
  {
    var a, s, b := token[..i], token[i..j], token[j..];
    assert token == a + s + b by {
      assert token[i..] == s + b;
    }
    LiteralHasNoSpace(s);
    StripSurrounding(a, s, b);
  }

  /** `float()` reads a token exactly when it is whitespace, an optional sign, digits
      with at most one decimal point and at least one digit, and whitespace: anything
      else (`"1.2.3"`, `"1 2"`, `"12abc"`, `"."`, `"-"`) raises `ValueError`. */
  lemma ParseNumberAccepts(token: string)
    ensures ParseNumber(token).Some? <==>
              exists i, j :: 0 <= i <= j <= |token| && AllSpaces(token[..i]) && AllSpaces(token[j..])
                             && SignedLiteral(token[i..j])
  {
    SignedAccepts(Strip(token));
    if ParseNumber(token).Some? {
      StripIsSlice(token);
      var i, j :| 0 <= i <= j <= |token| && Strip(token) == token[i..j] && AllSpaces(token[..i]) && AllSpaces(token[j..]);
      assert SignedLiteral(token[i..j]);
    }
    if i, j :| 0 <= i <= j <= |token| && AllSpaces(token[..i]) && AllSpaces(token[j..]) && SignedLiteral(token[i..j]) {
      StripAroundLiteral(token, i, j);
    }
  }

  /** `int()` reads a token exactly when it is whitespace, an optional sign, a
      non-empty run of digits, and whitespace: `"1.0"`, `"+"` and `"1 2"` raise. */
  lemma ParseIntegerAccepts(token: string)
    ensures ParseInteger(token).Some? <==>
              exists i, j :: 0 <= i <= j <= |token| && AllSpaces(token[..i]) && AllSpaces(token[j..])
                             && IntegerLiteral(token[i..j])
  {
    if ParseInteger(token).Some? {
      StripIsSlice(token);
      var i, j :| 0 <= i <= j <= |token| && Strip(token) == token[i..j] && AllSpaces(token[..i]) && AllSpaces(token[j..]);
      assert IntegerLiteral(token[i..j]);
    }
    if i, j :| 0 <= i <= j <= |token| && AllSpaces(token[..i]) && AllSpaces(token[j..]) && IntegerLiteral(token[i..j]) {
      StripAroundLiteral(token, i, j);
    }
  }
}

=== FILE: workbook.dfy ===
/** Opening the uploaded workbook: each screen checks that the sheets it needs are
    present before parsing them, and hands back nothing at all otherwise. */
module Workbook {
  import opened Common

  /** Why no sheets were handed back: no file was uploaded, or some required sheets
      are absent (the analysis screen names them in its error message). */
  datatype LoadError = NoFile | MissingSheets(missing: set<string>)

  /** Sheets required by the GPS/video analysis screen. */
  const AnalysisSheets: seq<string> := ["CSV", "Vidéo", "Poste", "Constante"]

  /** Sheets required by the report editor, the masculine screen and the comparison. */
  const EditorSheets: seq<string> := ["CSV", "Poste", "Constante"]

  /** `required_sheets - set(sheet_names)`. */
  function MissingFrom<S>(book: map<string, S>, required: seq<string>): (m: set<string>)
    ensures forall s :: s in m <==> s in required && s !in book
  {
    (set s | s in required) - book.Keys
  }

  /** Load the `required` sheets, in the order listed, from the uploaded workbook:
      all of them when every one is present, none otherwise. */
  function LoadSheets<S>(upload: Option<map<string, S>>, required: seq<string>): (r: Result<seq<S>, LoadError>)
    ensures upload.None? ==> r == Err(NoFile)
    ensures upload.Some? ==> (r.Ok? <==> forall k :: 0 <= k < |required| ==> required[k] in upload.value)
    ensures r.Ok? ==> |r.value| == |required|
    ensures r.Ok? ==> forall k :: 0 <= k < |required| ==> r.value[k] == upload.value[required[k]]
    ensures upload.Some? && r.Err? ==> r.error.MissingSheets? && r.error.missing != {}
    ensures upload.Some? && r.Err? ==> forall s :: s in r.error.missing <==> s in required && s !in upload.value
  {
    match upload
    case None => Err(NoFile)
    case Some(book) =>
      var missing := MissingFrom(book, required);
      if missing != {} then Err(MissingSheets(missing))
      else
        assert forall k :: 0 <= k < |required| ==> required[k] !in missing;
        Ok(seq(|required|, k requires 0 <= k < |required| => book[required[k]]))
  }

  /** The editor screens test each name in turn (`"CSV" not in names or "Poste" not
      in names or "Constante" not in names`) instead of taking a set difference. */
  predicate EditorCheckFails<S>(book: map<string, S>)
  {
    "CSV" !in book || "Poste" !in book || "Constante" !in book
  }

  /** The editor's chain of tests rejects a workbook exactly when the set difference
      over its three sheets is non-empty. */
  lemma EditorCheckIsSetDifference<S>(book: map<string, S>)
    ensures EditorCheckFails(book) <==> MissingFrom(book, EditorSheets) != {}
  {
    if "CSV" !in book { assert "CSV" in MissingFrom(book, EditorSheets); }
    if "Poste" !in book { assert "Poste" in MissingFrom(book, EditorSheets); }
    if "Constante" !in book { assert "Constante" in MissingFrom(book, EditorSheets); }
  }

  /** The analysis screen's `load_excel`: (data, video, positions, constants) or an error. */
  function LoadAnalysis<S>(upload: Option<map<string, S>>): (r: Result<seq<S>, LoadError>)
    ensures r.Ok? <==> upload.Some? && "CSV" in upload.value && "Vidéo" in upload.value
                       && "Poste" in upload.value && "Constante" in upload.value
    ensures r.Ok? ==> r.value == [upload.value["CSV"], upload.value["Vidéo"],
                                  upload.value["Poste"], upload.value["Constante"]]
  {
    var r := LoadSheets(upload, AnalysisSheets);
    assert r.Ok? ==> r.value[3] == upload.value[AnalysisSheets[3]];
    r
  }

  /** The editor screens' `load_excel`: (data, positions, constants) or an error. */
  function LoadEditor<S>(upload: Option<map<string, S>>): (r: Result<seq<S>, LoadError>)
    ensures r.Ok? <==> upload.Some? && !EditorCheckFails(upload.value)
    ensures r.Ok? ==> r.value == [upload.value["CSV"], upload.value["Poste"], upload.value["Constante"]]
  {
    match upload
    case None => Err(NoFile)
    case Some(book) =>
      if EditorCheckFails(book) then Err(MissingSheets(MissingFrom(book, EditorSheets)))
      else Ok([book["CSV"], book["Poste"], book["Constante"]])
  }

  /** The editor's loader and the generic set-difference loader agree. */
  lemma EditorAgreesWithSetDifference<S>(upload: Option<map<string, S>>)
    ensures LoadEditor(upload) == LoadSheets(upload, EditorSheets)
  {
    if upload.Some? {
      EditorCheckIsSetDifference(upload.value);
      var r := LoadSheets(upload, EditorSheets);
      if r.Ok? {
        assert r.value == [r.value[0], r.value[1], r.value[2]];
      }
    }
  }
}
